=== FILE: README.md ===
# A model of the libwebvtt parser core

libwebvtt is a C library that reads WebVTT subtitle files: it finds the
"WEBVTT" header, reads each cue's timings ("00:01.000 --> 00:02.000") and
settings ("align:start size:50%"), builds trees of cue-text nodes, and
reports every syntax error through a callback. The callback may tell the
parser to stop.

This project models the library's core in Dafny and proves properties of the
model. The core is the byte scanners, the timestamp and integer readers, the
cue timings and settings automaton, the parser's frame stack and header
automaton, the error table, and the reference-counted nodes and node lists.

- `errors.dfy` (module `Errors`): the `webvtt_error` enumeration and its
  messages (`webvtt_strerror`). It also has the error callback. The callback
  is a function from every report it has received so far to an `int`, so it
  can keep state of its own. A negative answer asks the parser to stop.
- `bytes.dfy` (module `Bytes`): bytes and NUL-terminated reads.
  - `find_newline` and `find_next_whitespace` are loops over the buffer.
  - `find_bytes` has two versions: one as written and one with its intended
    contract.
- `timestamp.dfy` (module `Timestamp`):
  - `parse_int` is a loop, specified by the function `ScanInt`.
  - `parse_timestamp` is a method built from three loops. It is specified by
    `TimestampOf`, which follows the "collect a WebVTT timestamp" steps of
    the W3C WebVTT draft as the code implements them.
  - A round trip is proved: every timestamp formatted as "HH:MM:SS.mmm" is
    read back as itself.
- `cueparams.dfy` (module `CueParams`): `parse_cueparams` as a state
  machine over the tokens the lexer returns.
  - One function handles each state and token: `Dispatch`, `Step`, `Exec`
    and `Finish`.
  - `Run` is the whole call. It returns 0, -1 or `WEBVTT_PARSE_ERROR`, and
    the machine it leaves holds the cue fields and the log of reports.
- `cueparams_props.dfy` (module `CueParamsProperties`): what a call of
  `parse_cueparams` guarantees.
  - The error protocol: which reports the callback accepted, for each return
    value.
  - That settings never clear a `CUE_HAVE_*` bit, and that every setting that
    changes has its bit set.
  - That the timings are final once read.
  - What each `keyword:value` setting writes. `Setting` gives this per
    setting and value token, independently of the automaton.
  - The outcome of well-formed timings, of whole settings and of typical
    faults.
- `parser.dfy` (module `Parsers`): the header automaton
  (`webvtt_parse_header`), as a function over one event per loop pass. Its
  class `Parser` holds the frame stack as arrays: `astack` and the heap
  block. Its methods model:
  - parser creation, `do_push` and `do_pop`;
  - `cleanup_stack`, with its release of the values the frames hold;
  - `finish_cue`;
  - running the header automaton on a frame of the stack;
  - running `parse_cueparams` on a cue object.
- `nodes.dfy` (module `Nodes`):
  - Nodes and node lists are classes with reference counts. Functions that
    write through `webvtt_node **` write into slot objects.
  - A release cascades down the tree. It is proved to terminate through a
    ghost rank that decreases from a node to its list and from a list to its
    children.
  - The growth of the node list's child array keeps its load below two
    thirds.

The model follows the code where it departs from the WebVTT format or does
something unexpected, except for the defects listed under "## Findings",
where the main member is corrected and a separate member follows the code as
written:
- A negative `line` percentage is reported as `POSITION_BAD_VALUE`.
- `webvtt_parse_header` can leave its loop without a `return`. The model
  calls that result `FellOff`.
- `cleanup_stack` restores `astack` but leaves `top` pointing into the block
  it has just freed. The model keeps that block as `topBlock`.
- `webvtt_strerror` compares the code with the table length as an unsigned
  value, so negative codes give the empty string.

## Model

| member | source | states |
|---|---|---|
| Errors.CodeIsPosition | include/webvtt/error.h:8-59 | each enumerator's numeric value is its position in the enumeration |
| Errors.MessagesNonEmpty | src/libwebvtt/error.c:12-38 | the message table has 24 entries, none of them empty |
| Errors.StrError | src/libwebvtt/error.c:45-53 | the result is empty exactly when the code is negative or not below the table length; otherwise it is the message at the code |
| Errors.MessageOfEachError | src/libwebvtt/error.c:12-53 | there are as many messages as enumerators, and every enumerator's code yields its own non-empty message |
| Bytes.FindNewline | src/libwebvtt/parser.c:332-343 | the result is 1 with the cursor on a CR or LF before `len`, or -1 with the cursor at `len` (a cursor already past `len` stays put); the cursor never moves back and skips no CR or LF |
| Bytes.FindNextWhitespace | src/libwebvtt/parser.c:345-358 | the cursor stops on the first CR, LF, SPACE or TAB, or at `len`; it never moves back and a cursor at or past `len` stays put |
| Bytes.FindBytes | src/libwebvtt/parser.c:363-373 | corrected version: true exactly when the pattern occurs within the first `len` bytes |
| Bytes.FindBytesStopsAtNul | src/libwebvtt/parser.c:363-373 | as written, the function misses a "-->" that follows a NUL inside `len` |
| Bytes.FindBytesReadsPastLength | src/libwebvtt/parser.c:363-373 | as written, the function finds "-->" in a two-byte buffer "--" when a '>' follows it in memory |
| Bytes.FindBytesFrom | src/libwebvtt/parser.c:363-373 | the loop of `find_bytes` as written; no contract of its own. Specified by FindBytesStopsAtNul and FindBytesReadsPastLength |
| Bytes.FindBytesAsWritten | src/libwebvtt/parser.c:363-373 | `find_bytes` as written; no contract of its own. Specified by FindBytesStopsAtNul (a "-->" after a NUL is missed) and FindBytesReadsPastLength (bytes past `len` are read); Bytes.FindBytes is the corrected version |
| Timestamp.ScanInt | src/libwebvtt/parser.c:926-953 | the value is the longest digit run after at most one leading '-', negated when the dash is there; the digit count leaves out the sign; the cursor stops on the first non-digit |
| Timestamp.ParseInt | src/libwebvtt/parser.c:926-953 | the loop yields the value, digit count and end position `ScanInt` describes |
| Timestamp.ScanIntIs | src/libwebvtt/parser.c:926-953 | an optional sign followed by a digit run that ends at a non-digit is exactly what `parse_int` reads |
| Timestamp.Carry | src/libwebvtt/parser.c:1026-1046 | the carries keep the total in milliseconds and bring milliseconds, seconds and minutes into range; the malformed flag is set exactly when some field was out of range |
| Timestamp.CarryOver | src/libwebvtt/parser.c:1026-1046 | the three in-place carry steps compute `Carry` |
| Timestamp.ParseTimestamp | src/libwebvtt/parser.c:959-1060 | returns 1 exactly when `TimestampOf` is well formed, and always writes its value; a first byte that is not a digit gives 0 and the sentinel |
| Timestamp.TimestampOf | src/libwebvtt/parser.c:959-1060 | the value `parse_timestamp` computes; no contract of its own. Specified by ParseTimestamp (the method's result and flag), FormatRoundTrip (every formatted timestamp reads back), SentinelCases, MinutesFirst, HoursNeedSeconds, OneDigitHours and OkMeansNoCarry |
| Timestamp.HeadOf | src/libwebvtt/parser.c:967-1023 | the fields before the fraction; its own contract: the cursor stays within the input. Specified by ReadFields (the loops stop exactly where it gives up, else yield its cursor and fields) and SentinelCases |
| Timestamp.WithFraction | src/libwebvtt/parser.c:1017-1059 | the fraction, carries and sum; no contract of its own. Specified by ReadFraction (the in-place carries give its value and flag) and OkMeansNoCarry |
| Timestamp.ReadFields | src/libwebvtt/parser.c:967-1013 | the loops before the fraction stop early exactly where `HeadOf` gives up; otherwise they yield its cursor, fields and malformed flag |
| Timestamp.ReadFraction | src/libwebvtt/parser.c:1017-1059 | the fraction, carries and sum give the result and the flag of `WithFraction` |
| Timestamp.ReadsLongForm | src/libwebvtt/parser.c:974-1059 | "H:MM:SS.mmm", with an hours field of any width and the other fields in range, is well formed with the weighted sum of its fields |
| Timestamp.ReadsShortForm | src/libwebvtt/parser.c:974-1059 | "MM:SS.mmm" with its fields in range is well formed with no hours |
| Timestamp.FormatRoundTrip | src/libwebvtt/parser.c:959-1060 | every timestamp below 100 hours, written as "HH:MM:SS.mmm", reads back as itself and well formed |
| Timestamp.MinutesFirst | src/libwebvtt/parser.c:974-1013 | a two-digit first field of at most 59 with no second ':' is read as minutes |
| Timestamp.HoursNeedSeconds | src/libwebvtt/parser.c:993-1013 | a first field over 59 is hours, and without a second ':' the result is the sentinel |
| Timestamp.OneDigitHours | src/libwebvtt/parser.c:974-1059 | one-digit hours are accepted as well formed |
| Timestamp.SentinelCases | src/libwebvtt/parser.c:967-1023 | the sentinel comes from a non-digit first byte, from hours without a second ':', or from a missing ".digit" |
| Timestamp.OkMeansNoCarry | src/libwebvtt/parser.c:1017-1059 | a well-formed result had exactly three fraction digits, all fields in range and no carry, so its value is the plain weighted sum |
| CueParams.SkipToBlank | src/libwebvtt/parser.c:698-702 | drops a prefix holding no whitespace token and stops at the next whitespace token or the end |
| CueParams.StartTime | src/libwebvtt/parser.c:501-524 | `CP_T1`; its own contract: a pass that goes on never grows the remaining input. Specified by StartTimeSound (the error protocol), StartTimeKeeps (only `from`/`until` change), and ExecStartTime, ExecLeadingBlank, ExecSecondBlank, NotATimestamp and ExecSentinelTime for its cases |
| CueParams.EndTime | src/libwebvtt/parser.c:526-548 | `CP_T5`; the same own contract. Specified by EndTimeAfter, EndTimeKeeps (only `until` changes), ExecEndTime, ExecLastTime, ExecSentinelTime and ExecNotAnEndTime (anything but whitespace or a timestamp reports EXPECTED_TIMESTAMP and gives -1) |
| CueParams.PreSetting | src/libwebvtt/parser.c:594-649 | `CP_CS0`; the same own contract. Specified by PreSettingSound, PreSettingKeeps (the cue is unchanged), ExecKeyword and ExecSetting |
| CueParams.Delimiter | src/libwebvtt/parser.c:651-694 | the keyword states; the same own contract. Specified by DelimiterSound, DelimiterKeeps (the cue is unchanged), ExecColon and ExecKeywordColon |
| CueParams.BadValue | src/libwebvtt/parser.c:698-702 | `BV`; the same own contract. Specified by BadValueSound, BadValueKeeps (the cue is unchanged) and ExecBadValue (reported at the token's column, then `SkipToBlank`, or the call aborts) |
| CueParams.NumericValue | src/libwebvtt/parser.c:742-857 | a percentage or integer value; the same own contract. Specified by NumericValueSound, NumericValueKeeps, PercentageKeeps and NegativePercentageKeeps (the field and bit `Setting` names are written, also for a negative percentage once its bad-value report is accepted) |
| CueParams.KeywordValue | src/libwebvtt/parser.c:721-802 | a `vertical` or `align` value; the same own contract. Specified by KeywordValueSound and KeywordValueKeeps (the cue becomes exactly `Setting`'s value for a token of the right form, else a bad value) |
| CueParams.MeasureValue | src/libwebvtt/parser.c:742-857 | a `position`, `size` or `line` value; the same own contract. Specified by MeasureValueSound and MeasureValueKeeps (the value `Setting` names, or a bad value with the cue unchanged) |
| CueParams.Value | src/libwebvtt/parser.c:704-857 | a value state; the same own contract. Specified by ValueSound, ValueKeeps, ValueTokenWrites, ValueTokenBad, ExecValue and ExecAlreadySet (ALREADY_SET is reported on a second value, which still overwrites when accepted) |
| CueParams.Dispatch | src/libwebvtt/parser.c:499-857 | one pass of the state switch; the same own contract. Specified by DispatchSound and DispatchKeeps (the protocol, no bit cleared, only flagged fields change), and case by case by the Exec lemmas, among them ExecBlank, ExecArrow, ExecMissingArrow, ExecNotAnArrow and ExecNotAnEndTime |
| CueParams.Step | src/libwebvtt/parser.c:495-499 | lexing one token, then the switch; its own contract: a pass that goes on consumes at least that token. Specified by StepSound, StepKeeps and StepValue |
| CueParams.Exec | src/libwebvtt/parser.c:495-860 | the token loop; its own contract: the loop only stops early with a `return`, otherwise every token is consumed. Specified by ExecSound, ExecKeeps, ExecStep and ExecStop, and by the Exec lemmas above for the timings and for each `keyword:value` |
| CueParams.Finish | src/libwebvtt/parser.c:862-898 | after the last token; no contract of its own. Specified by FinishInTimings (unfinished timings give UNFINISHED_CUETIMES and -1 or PARSE_ERROR), and within RunProtocol and RunKeeps |
| CueParams.T4AsWritten | src/libwebvtt/parser.c:581-592 | `CP_T4` as written; no contract of its own. Specified by T4AsWrittenNeverLeaves (with a callback that accepts everything, the state never leaves `CP_T4` and one report is added per pass) |
| CueParams.Run | src/libwebvtt/parser.c:457-899 | `parse_cueparams` from a given machine; no contract of its own. Specified by RunProtocol (the log only grows and each return matches the callback's answers) and RunKeeps (no bit is cleared and every changed setting has its bit), and by WellFormedTimings for "start --> end" |
| CueParamsProperties.RaiseThenSound | src/libwebvtt/parser.h:89-94 | one `ERROR` appends one report and goes on exactly when the callback accepts it |
| CueParamsProperties.ReadTimeSound | src/libwebvtt/parser.c:501-548 | reading a start or end time keeps to the error protocol |
| CueParamsProperties.EndTimeAfter | src/libwebvtt/parser.c:526-548 | `CP_T5` keeps to the protocol after a step that did |
| CueParamsProperties.TimingsSound | src/libwebvtt/parser.c:501-592 | every timings state keeps to the error protocol for every token |
| CueParamsProperties.PreSettingSound | src/libwebvtt/parser.c:594-649 | the pre-setting state keeps to the protocol |
| CueParamsProperties.DelimiterSound | src/libwebvtt/parser.c:651-694 | the keyword states keep to the protocol |
| CueParamsProperties.BadValueSound | src/libwebvtt/parser.c:698-702 | a bad-value report and the skip keep to the protocol |
| CueParamsProperties.NumericValueSound | src/libwebvtt/parser.c:742-857 | a percentage or integer value keeps to the protocol |
| CueParamsProperties.KeywordValueSound | src/libwebvtt/parser.c:721-802 | a `vertical` or `align` value keeps to the protocol |
| CueParamsProperties.MeasureValueSound | src/libwebvtt/parser.c:742-857 | a `position`, `size` or `line` value keeps to the protocol |
| CueParamsProperties.ValueTokenSound | src/libwebvtt/parser.c:698-857 | the token in a value state keeps to the protocol |
| CueParamsProperties.ValueSound | src/libwebvtt/parser.c:704-857 | the already-set check followed by the value keeps to the protocol |
| CueParamsProperties.SettingsSound | src/libwebvtt/parser.c:594-857 | every settings state keeps to the protocol for every token |
| CueParamsProperties.DispatchSound | src/libwebvtt/parser.c:499-857 | one pass of the state switch keeps to the protocol |
| CueParamsProperties.StepSound | src/libwebvtt/parser.c:495-499 | lexing a token, then the switch, keeps to the protocol |
| CueParamsProperties.ExecSound | src/libwebvtt/parser.c:495-860 | the token loop keeps to the protocol |
| CueParamsProperties.RunProtocol | src/libwebvtt/parser.c:457-899 | the log only grows; a return of 0 or -1 means the callback accepted every new report; `WEBVTT_PARSE_ERROR` means it refused the last one and accepted all before it |
| CueParamsProperties.NoHandlerStopsAtFirstError | src/libwebvtt/parser.h:89-94 | without a callback, a call returning `WEBVTT_PARSE_ERROR` made exactly one report, and any other return made none |
| CueParamsProperties.NoHandlerRefuses | src/libwebvtt/parser.h:89-94 | without a callback, no report lets parsing continue |
| CueParamsProperties.NothingAccepted | src/libwebvtt/parser.h:89-94 | without a callback, no report is ever accepted |
| CueParamsProperties.ReadTimeKeeps | src/libwebvtt/parser.c:501-548 | a start or end time token writes its parsed value into `from` or `until`, whatever its quality, and nothing else of the cue; no setting bit changes |
| CueParamsProperties.EndTimeKeeps | src/libwebvtt/parser.c:526-548 | `CP_T5` changes only `until`, keeps `from`, and changes no setting |
| CueParamsProperties.StartTimeKeeps | src/libwebvtt/parser.c:501-524 | `CP_T1` changes only `from` and `until`, and changes no setting |
| CueParamsProperties.TimingsKeep | src/libwebvtt/parser.c:501-592 | the timings states change only `from` and `until`, and change no setting |
| CueParamsProperties.PreSettingKeeps | src/libwebvtt/parser.c:594-649 | the pre-setting state leaves the cue unchanged and stays in the settings |
| CueParamsProperties.DelimiterKeeps | src/libwebvtt/parser.c:651-694 | the keyword states leave the cue unchanged |
| CueParamsProperties.BadValueKeeps | src/libwebvtt/parser.c:698-702 | a bad value leaves the cue alone |
| CueParamsProperties.NumericValueKeeps | src/libwebvtt/parser.c:742-857 | a numeric value that goes on writes exactly the field and bit `Setting` gives (and `line`'s relative flag) and returns to `CP_CS0`; a refused report leaves the cue unchanged |
| CueParamsProperties.KeywordValueKeeps | src/libwebvtt/parser.c:721-802 | `lr`/`rl` and start/middle/end/left/right write exactly the `vertical` or `align` value and bit `Setting` gives and return to `CP_CS0`; any other token leaves the cue unchanged |
| CueParamsProperties.MeasureValueKeeps | src/libwebvtt/parser.c:742-857 | a `position`, `size` or `line` value writes exactly what `Setting` gives when it goes on, and a value of the wrong form leaves the cue unchanged |
| CueParamsProperties.ValueTokenKeeps | src/libwebvtt/parser.c:698-857 | the token in a value state writes exactly what `Setting` gives when the call goes on, and otherwise leaves the cue unchanged |
| CueParamsProperties.ValueKeeps | src/libwebvtt/parser.c:704-857 | a value state, after any ALREADY_SET report, writes exactly what `Setting` gives when the call goes on, and otherwise leaves the cue unchanged |
| CueParamsProperties.DispatchKeeps | src/libwebvtt/parser.c:499-857 | one pass of the switch clears no bit, records each changed setting, and never returns to the timings or changes them once they are done |
| CueParamsProperties.StepKeeps | src/libwebvtt/parser.c:495-499 | the same for lexing plus one pass |
| CueParamsProperties.ExecKeeps | src/libwebvtt/parser.c:495-860 | the same for the token loop |
| CueParamsProperties.RunKeeps | src/libwebvtt/parser.c:457-899 | over a whole call, no `CUE_HAVE_*` bit is cleared and every changed setting has its bit; once the timings are read, the call cannot return -1 or change `from` or `until` |
| CueParamsProperties.ExecStep | src/libwebvtt/parser.c:495-860 | a token that does not end the call leaves the remaining tokens to the loop |
| CueParamsProperties.ExecStop | src/libwebvtt/parser.c:495-860 | a token that ends the call ends the loop |
| CueParamsProperties.ExecStartTime | src/libwebvtt/parser.c:501-524 | a well-formed start time is stored, and the machine moves on to `CP_T2` without a report |
| CueParamsProperties.ExecEndTime | src/libwebvtt/parser.c:526-548 | a well-formed end time is stored, and the machine moves on to the settings |
| CueParamsProperties.ExecBlank | src/libwebvtt/parser.c:551-592 | whitespace moves `CP_T2` to `CP_T3` and `CP_T4` to `CP_T5` |
| CueParamsProperties.ExecArrow | src/libwebvtt/parser.c:562-579 | "-->" moves `CP_T3` to `CP_T4` |
| CueParamsProperties.ExecSeparatorSteps | src/libwebvtt/parser.c:551-592 | whitespace, "-->", whitespace: the three steps machine by machine |
| CueParamsProperties.ExecSeparator | src/libwebvtt/parser.c:551-592 | whitespace, "-->", whitespace reach `CP_T5` without a report |
| CueParamsProperties.ExecLastTime | src/libwebvtt/parser.c:526-548 | a well-formed end time as the last token completes the timings |
| CueParamsProperties.ExecSeparatorAndEnd | src/libwebvtt/parser.c:526-592 | " --> end" after the start time stores the end time and enters the settings |
| CueParamsProperties.WellFormedTimings | src/libwebvtt/parser.c:457-899 | "start --> end" with well-formed times returns 0 without a report, with `from` and `until` parsed and nothing else changed |
| CueParamsProperties.NotATimestamp | src/libwebvtt/parser.c:501-524 | anything but whitespace or a timestamp first reports EXPECTED_TIMESTAMP at its column and returns -1 (`WEBVTT_PARSE_ERROR` if refused); the cue is untouched |
| CueParamsProperties.FinishInTimings | src/libwebvtt/parser.c:862-868 | after the last token, unfinished timings report UNFINISHED_CUETIMES and return -1 or `WEBVTT_PARSE_ERROR` |
| CueParamsProperties.ExecMissingArrow | src/libwebvtt/parser.c:562-579 | a timestamp where "-->" is due is reported and, when accepted, read as the end time |
| CueParamsProperties.ExecMissingArrowRefused | src/libwebvtt/parser.c:562-579 | the same report, when refused, ends the call with `WEBVTT_PARSE_ERROR` |
| CueParamsProperties.ExecT4Timestamp | src/libwebvtt/parser.c:581-592 | corrected `CP_T4`: a timestamp right after "-->" is reported once as EXPECTED_WHITESPACE and, when accepted, read as the end time |
| CueParamsProperties.ExecSentinelTime | src/libwebvtt/parser.c:501-548 | a start or end timestamp that yields only the sentinel is stored, reports EXPECTED_TIMESTAMP at the column it starts at, and ends the call with -1 (`WEBVTT_PARSE_ERROR` if refused) |
| CueParamsProperties.ExecMalformedTime | src/libwebvtt/parser.c:501-548 | a malformed timestamp that is not the sentinel is stored and reported as MALFORMED_TIMESTAMP; when accepted, parsing goes on in the next state, skipping to the next blank unless the token ends in a digit |
| CueParamsProperties.ExecLeadingBlank | src/libwebvtt/parser.c:501-514 | the first whitespace before the start time is reported as UNEXPECTED_WHITESPACE at the column after it and remembered; a refusal ends the call |
| CueParamsProperties.ExecSecondBlank | src/libwebvtt/parser.c:501-524 | a second whitespace is not reported as unexpected again: it is where a timestamp is due, so EXPECTED_TIMESTAMP and -1 follow |
| CueParamsProperties.ExecNotAnEndTime | src/libwebvtt/parser.c:526-548 | in `CP_T5`, anything but whitespace or a timestamp reports EXPECTED_TIMESTAMP at the column the token starts at and returns -1 (`WEBVTT_PARSE_ERROR` if refused), with the cue unchanged |
| CueParamsProperties.ExecNotAnArrow | src/libwebvtt/parser.c:562-579 | in `CP_T3`, anything but whitespace, "-->" or a timestamp reports EXPECTED_CUETIME_SEPARATOR at the column the token starts at and returns -1 (`WEBVTT_PARSE_ERROR` if refused), with the cue unchanged |
| CueParamsProperties.ExecKeyword | src/libwebvtt/parser.c:594-628 | after whitespace and with no bad delimiter pending, a setting keyword enters its keyword state with no report |
| CueParamsProperties.ExecColon | src/libwebvtt/parser.c:651-664 | ':' straight after the keyword enters the value state with no report |
| CueParamsProperties.ExecKeywordColon | src/libwebvtt/parser.c:594-664 | keyword and ':' after whitespace reach the keyword's value state with no report |
| CueParamsProperties.ValueTokenWrites | src/libwebvtt/parser.c:721-857 | a value token of the right form writes the field and bit `Setting` gives and returns to `CP_CS0` with no report |
| CueParamsProperties.ValueTokenBad | src/libwebvtt/parser.c:698-857 | a value token of the wrong form takes the setting's bad-value path |
| CueParamsProperties.ExecValue | src/libwebvtt/parser.c:704-857 | a value of the right form for a new setting writes the field and bit `Setting` gives, reports nothing and returns to `CP_CS0` |
| CueParamsProperties.ExecAlreadySet | src/libwebvtt/parser.c:704-857 | a second value for a setting reports ALREADY_SET at the column it starts at; if refused the call ends, and if accepted a value of the right form overwrites the old one |
| CueParamsProperties.ExecBadValue | src/libwebvtt/parser.c:698-857 | a value of the wrong form for a new setting reports the setting's BAD_VALUE at its column and leaves the cue unchanged; if accepted, parsing skips to the next blank and returns to `CP_CS0` |
| CueParamsProperties.ExecSetting | src/libwebvtt/parser.c:594-857 | a whole new `keyword:value` after whitespace writes the field and its `CUE_HAVE_*` bit as `Setting` gives, reports nothing and returns to `CP_CS0` |
| CueParamsProperties.T4AsWrittenNeverLeaves | src/libwebvtt/parser.c:581-592 | `CP_T4` as written, with a callback that accepts everything, reports the same token again on every pass and never returns |
| Parsers.OwnedBy | src/libwebvtt/parser.c:274-285 | a frame releases one value exactly when it holds a cue or a string |
| Parsers.ReleasedFrom | src/libwebvtt/parser.c:272-290 | walking the frames releases at most one value per frame |
| Parsers.ClearedAll | src/libwebvtt/parser.c:272-290 | every frame is cleared, position by position |
| Parsers.ReleasedCue | src/libwebvtt/parser.c:272-290 | a cue is released exactly when some frame holds it |
| Parsers.HeaderStep | src/libwebvtt/parser.c:59-137 | one pass of the `switch( st->flags )`; no contract of its own. Specified by GoKeepsLog (a pass that goes round reports nothing and keeps the callback), HeaderTagThenNewline and CommentThenNoEol |
| Parsers.HeaderSteps | src/libwebvtt/parser.c:59-137 | the `while( *pos < len )` loop; no contract of its own. Specified by HeaderReportsOnce (at most one report, only on the way out; hands over to the body parser on success) and by Parsers.Parser.ParseHeaderFrame |
| Parsers.HeaderOf | src/libwebvtt/parser.c:59-137 | the header state stored in `st->flags` decodes back to the same code |
| Parsers.GoKeepsLog | src/libwebvtt/parser.c:59-137 | a pass that goes round again reports nothing and keeps the callback; a returning pass reports at most once |
| Parsers.HeaderReportsOnce | src/libwebvtt/parser.c:59-137 | the header automaton reports at most one error, and only on its way out; it hands over to `webvtt_parse_body` only with `WEBVTT_SUCCESS` |
| Parsers.HeaderTagThenNewline | src/libwebvtt/parser.c:70-100 | "WEBVTT" then a newline is accepted without a report, and the frame moves on to `webvtt_parse_body` |
| Parsers.CommentThenNoEol | src/libwebvtt/parser.c:102-134 | a comment line followed by anything but a newline reports EXPECTED_EOL; the callback's answer decides success or `WEBVTT_PARSE_ERROR` |
| Parsers.PushAsWritten | src/libwebvtt/parser.c:389-423 | as written: a push that does not overrun keeps the recorded capacity and adds one frame |
| Parsers.PushAsWrittenLosesFrame | src/libwebvtt/parser.c:389-423 | three pushes from two inline frames lose the third frame, and a fourth writes past the block |
| Parsers.Parser.Frames | src/libwebvtt/parser.c:378-381 | the frames in use number `top + 1` |
| Parsers.Parser.Init | src/libwebvtt/parser.c:210-235 | a fresh parser has one zeroed frame resuming with `webvtt_parse_header`, stands at line 1 and column 1, and has no reports |
| Parsers.Parser.Create | src/libwebvtt/parser.c:210-235 | a missing read callback, error callback or out-pointer gives `WEBVTT_INVALID_PARAM`, and a failed allocation `WEBVTT_OUT_OF_MEMORY`; exactly otherwise the result is a new parser in its initial state |
| Parsers.Parser.Push | src/libwebvtt/parser.c:389-423 | corrected `do_push`: succeeds exactly when there is room or the allocation succeeds; the frames are the old ones plus the new one; the capacity doubles on growth; a failed allocation leaves the frames alone, reports ALLOCATION_FAILED and gives `WEBVTT_OUT_OF_MEMORY`, or `WEBVTT_PARSE_ERROR` when the callback refuses |
| Parsers.Parser.Pop | src/libwebvtt/parser.c:425-431 | exactly the top frame comes off, and 1 is returned |
| Parsers.Parser.ClearTop | src/libwebvtt/parser.c:272-290 | one pass of the loop releases the top frame's value, clears the frame and moves down |
| Parsers.Parser.ClearFrames | src/libwebvtt/parser.c:272-290 | every frame in use is cleared and its value released, from the top down; the frames above stay as they were |
| Parsers.Parser.CleanupStack | src/libwebvtt/parser.c:269-307 | releases every frame's value; a heap stack is left (zeroed `astack` restored), otherwise `astack` holds the cleared frames; reports and delivered cues are untouched |
| Parsers.Parser.FinishCue | src/libwebvtt/parser.c:247-259 | a held cue is delivered when valid and released otherwise, and the slot is emptied; nothing happens without a cue |
| Parsers.Parser.ParseHeaderFrame | src/libwebvtt/parser.c:59-137 | the header loop on a stack frame gives the result and the new frame that `HeaderSteps` gives, and appends its reports to the parser's |
| Parsers.Parser.ParseCueParams | src/libwebvtt/parser.c:457-899 | writes to the cue, the log and the column exactly what `Run` computes, and returns its result; what `Run` writes for each setting is stated by `ExecSetting`, `ExecValue` and `ExecBadValue` |
| Nodes.GrownAlloc | src/libwebvtt/node_list.c:105-145 | the first push allocates 8 slots; growth doubles the slots exactly when the new length reaches two thirds of them; a valid list always has room afterwards |
| Nodes.LoadBelowTwoThirds | src/libwebvtt/node_list.c:105-145 | a push onto a list below two-thirds load leaves it below two-thirds load |
| Nodes.NodeListPush | src/libwebvtt/node_list.c:105-145 | NULL gives `WEBVTT_INVALID_PARAM`; out of memory exactly when growth is needed and refused; on success the node is appended after the old children and gains a reference, and its other fields are unchanged; a failure changes nothing |
| Nodes.DropNode | src/libwebvtt/node.c:183-194 | one reference goes; at zero the node is freed, with its text or its classes and annotation, and its child list loses a reference (its children nulled if that was the last); no reference count in the graph rises; nothing of a higher rank changes |
| Nodes.DropInternalData | src/libwebvtt/node.c:186-192 | the classes and annotation are cleared, the child list loses a reference (its children nulled if that was the last), and the node no longer has data; no reference count rises |
| Nodes.DropList | src/libwebvtt/node_list.c:82-103 | one reference goes; at zero every child slot is nulled and the list is freed, and `released` is the non-null children in slot order, each of which ends with fewer references than it had; no reference count rises |
| Nodes.DropChildren | src/libwebvtt/node_list.c:94-99 | the loop nulls every slot; `released` is the non-null children in index order, and each ends with fewer references than before the loop; no reference count rises (loop invariant: a node in `released` has lost at least one reference) |
| Nodes.DropChild | src/libwebvtt/node_list.c:96 | the child loses exactly one reference (freed at zero) and its slot is nulled; a null slot changes nothing; no other count rises |
| Nodes.ReleaseNode | src/libwebvtt/node.c:173-196 | a NULL slot or node is left alone; otherwise the node loses a reference (freed at zero, when its child list also loses one) and the slot is nulled; nothing of a higher rank changes |
| Nodes.ReleaseNodeList | src/libwebvtt/node_list.c:82-103 | a NULL slot or list is left alone; otherwise the list loses a reference and the slot is nulled; at zero every child it held has fewer references than before and every slot is null; no reference count rises; nothing of a higher rank changes |
| Nodes.InitNodeList | src/libwebvtt/node_list.c:38-48 | unless the slot is NULL or already holds the shared empty list, what it holds is released and it points at the empty list, which gains a reference (a NULL slot or an empty list outside the released tree's lower ranks) |
| Nodes.CreateNodeList | src/libwebvtt/node_list.c:50-72 | NULL gives `WEBVTT_INVALID_PARAM`, and a failed allocation `WEBVTT_OUT_OF_MEMORY` with the slot unchanged; otherwise the slot holds a fresh empty list with one reference |
| Nodes.RefNode | src/libwebvtt/node.c:39-49 | adds one reference and changes nothing else |
| Nodes.InitNode | src/libwebvtt/node.c:51-61 | the slot ends holding the shared empty node; whatever it held before is released, and the empty node gains a reference unless it was already there (when the old node was released: unless the empty node lies below it in rank within the released tree) |
| Nodes.CopyNode | src/libwebvtt/node.c:63-70 | the destination shares the source node, which gains a reference and is otherwise unchanged; nothing happens with NULL |
| Nodes.CreateNode | src/libwebvtt/node.c:72-93 | NULL slot or failed allocation are reported and leave the slot alone; otherwise a fresh node of the kind and parent with one reference |
| Nodes.CreateTimestampNode | src/libwebvtt/node.c:139-154 | the same, for a `TimeStamp` node carrying the time |
| Nodes.CreateTextNode | src/libwebvtt/node.c:156-171 | the same, for a `Text` node carrying the text |
| Nodes.CreateInternalNode | src/libwebvtt/node.c:95-121 | a node with internal data holding the classes, the annotation and the shared empty list; if the data allocation fails, the call fails with the bare node already in the slot |
| Nodes.CreateHeadNode | src/libwebvtt/node.c:123-137 | an internal head node without parent, classes or annotation |
| Nodes.AttachNode | src/libwebvtt/node.c:198-209 | NULL parent or child, or a leaf parent, gives `WEBVTT_INVALID_PARAM` and changes nothing; otherwise the child is pushed onto the parent's list, gaining a reference with its other fields unchanged, keeping the node graph closed |
| Nodes.PushInOrder | test/unit/nodelist_unittest.cpp:106-113 | two nodes pushed onto a new list are its children in push order, with two references each and 8 slots |

## Left out

- The lexer (`webvtt_lex`) is not part of this model. `parse_cueparams` and the header automaton take the tokens it would return, and lexing a token moves the column by the token's length.
- Reading a line (`webvtt_string_getline`) in `webvtt_parse_header` is an input: each loop pass has an event with its token, its `getline` result, and its line and column. The rewind of `pos` in the end-of-line state is not modelled.
- `webvtt_parse_id`, `webvtt_parse_cue`, `webvtt_parse_body`, `webvtt_parse_chunk`, the three `webvtt_read_*` stubs and `webvtt_delete_parser` are outside the modelled core.
- Cue validation (`webvtt_validate_cue`), the read callback, `webvtt_release_cue` and `webvtt_release_string` are calls into code this model does not have. Validation is a predicate parameter. The other calls made by `finish_cue` and `cleanup_stack` are recorded in the `delivered` and `released` sequences.
- The header state codes and the `ERROR_AT_COLUMN` macro come from parser_internal.h, which is not part of this model. The codes are taken as 1, 2 and 3, and `ERROR_AT_COLUMN(e, col)` is taken to behave as `ERROR(e)` (parser.h) with the column `col` in place of `self->column`.
- The cuesettings states `CP_SD` and `CP_SV` are declared but never entered, and are not modelled.
- Parsers.Parser.Push: the `back` argument of `do_push` is not stored, and the size of the inline `astack` is a constructor parameter. For a `V_TEXT` value the source stores the string's buffer (`->d`); the model stores the value it is given.
- Parsers.Parser.ParseHeaderFrame: the comment state's `webvtt_init_string` and its two `webvtt_release_string` calls on the frame's text are not recorded; only the value type becomes `V_TEXT`. The same holds for Parsers.HeaderStep.
- CueParams.PreSetting: after a bad token the source skips one byte (`++pos`); the model, which works on tokens, drops the whole next token.
- Allocation is an oracle, a boolean or a function of the requested size, rather than a real allocator. Freed memory is a `dead` flag, and the freed storage stays reachable so that the model can state what happened to it.
- Nodes.DropNode: releasing the class list and the annotation is modelled as clearing them, since `webvtt_release_stringlist` and `webvtt_release_string` are not part of this model.
- Nodes.DropList: each released child is stated to end with fewer references, not with exactly one fewer. One node may be reached through several slots and through the cascade, so its exact final count is not stated.
- Nodes.InitNode, Nodes.InitNodeList: when the old value is released, the empty value's extra reference is stated only when it lies outside the released tree's lower ranks. Otherwise the cascade could also reach it.
- Nodes.AttachNode: the source passes the address of the internal data's `node_list` pointer where `webvtt_node_list_push` expects the list itself. The model pushes onto the parent's list, as evidently intended. It also leaves out a parent whose internal data is missing.
- Nodes.AttachNode: a fresh internal node's list is the shared empty list (`empty_node_list` in node_list.c), and `webvtt_node_list_push` grows whatever list it is given. So the first child attached to any such node is pushed onto the list every empty node shares, in the source as in this model. The model states that push and no more: it neither gives the node a list of its own nor claims that other empty nodes keep an empty list.
- include/webvtt/node.h is not part of this model. Leaves (`WEBVTT_IS_LEAF`) are taken to be the text and timestamp nodes.
- The node-list functions declared in include/webvtt/node_list.h without a body in node_list.c (pop, top, shift, unshift, front) are not modelled.
- Timestamp arithmetic uses mathematical integers. `parse_int` does not wrap at 64 bits. The timestamp sum is reduced modulo 2^64 as the unsigned `webvtt_timestamp` receives it.
- `webvtt_uint` is taken to be 32 bits wide. Setting values are stored modulo 2^32.
- Strings are values (`seq<char>`, or `seq<byte>` for buffers), so string reference counting is not modelled.
- Concurrency and I/O are out of scope. The library's only input is the buffer it is given.

## Findings

| source | as written | input that shows it | evidently intended | confidence | as-written member | corrected member |
|---|---|---|---|---|---|---|
| src/libwebvtt/parser.c:389-423 | `do_push` allocates a block of twice `stack_alloc` frames when the stack is full, but never stores the new capacity | two inline frames with one in use, then three pushes: the second growth copies only two frames, so the third frame is lost, and a fourth push writes past the block | the capacity is doubled along with the block | not executed | Parsers.PushAsWritten, Parsers.PushAsWrittenLosesFrame | Parsers.Parser.Push |
| src/libwebvtt/parser.c:581-592 | in `CP_T4`, a token other than whitespace is reported and re-examined with the state still `CP_T4`, so it is reported again on every pass | "00:01.000 -->00:02.000" with a callback that returns 0 | report once, then read the token as the end time in `CP_T5` | not executed | CueParams.T4AsWritten, CueParamsProperties.T4AsWrittenNeverLeaves | CueParamsProperties.ExecT4Timestamp |
| src/libwebvtt/parser.c:363-373 | `find_bytes` compares at offset 0 before checking the length, reads `slen` bytes at each offset, and stops at a NUL | memory "\0-->" with `len` 4 (missed), and memory "-->" with `len` 2 (found beyond the length) | find the pattern exactly within the first `len` bytes | not executed | Bytes.FindBytesAsWritten, Bytes.FindBytesStopsAtNul, Bytes.FindBytesReadsPastLength | Bytes.FindBytes |

=== FILE: bytes.dfy ===
/**
 * Bytes and the byte scanners of the WebVTT parser: the ASCII constants it
 * compares against, NUL-terminated reads, and the three scanners
 * `find_newline`, `find_next_whitespace` and `find_bytes` of
 * src/libwebvtt/parser.c.
 */
module Bytes {

  type byte = b: int | 0 <= b < 0x100

  const NUL: byte := 0x00
  const TAB: byte := 0x09
  const LF: byte := 0x0A
  const CR: byte := 0x0D
  const SPACE: byte := 0x20
  const DASH: byte := 0x2D
  const PERIOD: byte := 0x2E
  const COLON: byte := 0x3A
  const GT: byte := 0x3E
  const DIGIT_ZERO: byte := 0x30

  predicate IsDigit(b: byte) { 0x30 <= b <= 0x39 }

  function DigitValue(b: byte): (d: nat)
    requires IsDigit(b)
    ensures d < 10
  {
    b - 0x30
  }

  predicate IsNewline(b: byte) { b == CR || b == LF }

  /** The stop bytes of `find_next_whitespace`: CR, LF, SPACE and TAB. */
  predicate IsBreak(b: byte) { b == CR || b == LF || b == SPACE || b == TAB }

  /**
   * The byte a C pointer into a NUL-terminated buffer `s` sees at offset `i`:
   * the terminating NUL (and anything after it) reads as 0.
   */
  function At(s: seq<byte>, i: nat): (b: byte)
    ensures i < |s| ==> b == s[i]
    ensures i >= |s| ==> b == NUL
  {
    if i < |s| then s[i] else NUL
  }

  /**
   * `find_newline`: advance the cursor to the first CR or LF at or after it
   * (result 1) or, when there is none before `len`, to `len` (result -1).
   * A cursor already at or past `len` is left where it is.
   */
  method FindNewline(buffer: seq<byte>, pos: nat, len: nat) returns (r: int, newPos: nat)
    requires len <= |buffer|
    ensures r == 1 || r == -1
    ensures pos <= newPos
    ensures r == 1 ==> newPos < len && IsNewline(buffer[newPos])
    ensures r == -1 ==> newPos == if pos < len then len else pos
    ensures forall j :: pos <= j < newPos ==> !IsNewline(buffer[j])
  {
    newPos := pos;
    while newPos < len
      invariant pos <= newPos
      invariant pos < len ==> newPos <= len
      invariant pos >= len ==> newPos == pos
      invariant forall j :: pos <= j < newPos ==> !IsNewline(buffer[j])
    {
      if buffer[newPos] == CR || buffer[newPos] == LF {
        return 1, newPos;
      }
      newPos := newPos + 1;
    }
    r := -1;
  }

  /**
   * `find_next_whitespace`: advance the cursor to the first CR, LF, SPACE or
   * TAB at or after it, or to `len` when there is none; never backwards.
   */
  method FindNextWhitespace(buffer: seq<byte>, pos: nat, len: nat) returns (newPos: nat)
    requires len <= |buffer|
    ensures pos <= newPos
    ensures pos >= len ==> newPos == pos
    ensures pos < len ==> newPos <= len
    ensures newPos < len ==> IsBreak(buffer[newPos])
    ensures forall j :: pos <= j < newPos ==> !IsBreak(buffer[j])
  {
    newPos := pos;
    while newPos < len
      invariant pos <= newPos
      invariant pos < len ==> newPos <= len
      invariant pos >= len ==> newPos == pos
      invariant forall j :: pos <= j < newPos ==> !IsBreak(buffer[j])
    {
      var c := buffer[newPos];
      if c == CR || c == LF || c == SPACE || c == TAB {
        break;
      }
      newPos := newPos + 1;
    }
  }

  /** `pattern` starts at offset `k` of `s`. */
  predicate MatchAt(s: seq<byte>, pattern: seq<byte>, k: nat)
  {
    k + |pattern| <= |s| && s[k..k + |pattern|] == pattern
  }

  /** `pattern` occurs somewhere in `s`: what `find_bytes` is used to decide. */
  ghost predicate Occurs(s: seq<byte>, pattern: seq<byte>)
  {
    exists k: nat :: MatchAt(s, pattern, k)
  }

  /**
   * `find_bytes` with its intended contract: 1 exactly when `pattern` occurs
   * within the first `len` bytes of `buffer`.
   */
  method FindBytes(buffer: seq<byte>, len: nat, pattern: seq<byte>) returns (found: bool)
    requires len <= |buffer|
    requires |pattern| >= 1
    ensures found <==> Occurs(buffer[..len], pattern)
  {
    var k := 0;
    while k + |pattern| <= len
      invariant k <= len
      invariant forall j: nat :: j < k ==> !MatchAt(buffer[..len], pattern, j)
    {
      if buffer[k..k + |pattern|] == pattern {
        assert MatchAt(buffer[..len], pattern, k) by {
          assert buffer[..len][k..k + |pattern|] == buffer[k..k + |pattern|];
        }
        return true;
      }
      assert buffer[..len][k..k + |pattern|] == buffer[k..k + |pattern|];
      k := k + 1;
    }
    found := false;
    assert forall j: nat :: MatchAt(buffer[..len], pattern, j) ==> j < k;
  }

  /**
   * `find_bytes` as written: a do-while that tests offset 0 before looking at
   * `len`, compares `|pattern|` bytes at each offset it tests, and continues to
   * the next offset only while `len-- >= slen` and the byte just tested is not
   * NUL. `memory` is the buffer followed by whatever bytes lie after it, so the
   * reads past `len` the loop makes are part of the model. `rem` is the
   * counter `len` as the loop has decremented it when offset `k` is tested.
   */
  function FindBytesFrom(memory: seq<byte>, pattern: seq<byte>, k: nat, rem: nat): (found: bool)
    requires |pattern| >= 1
    requires k + |pattern| <= |memory| && k + rem < |memory|
    decreases rem
  {
    if memory[k] == pattern[0] && memory[k + 1..k + |pattern|] == pattern[1..] then true
    else if rem >= |pattern| && memory[k] != NUL then FindBytesFrom(memory, pattern, k + 1, rem - 1)
    else false
  }

  function FindBytesAsWritten(memory: seq<byte>, len: nat, pattern: seq<byte>): (found: bool)
    requires |pattern| >= 1
    requires |pattern| <= |memory| && len < |memory|
  {
    FindBytesFrom(memory, pattern, 0, len)
  }

  /**
   * The NUL test stops the scan: "\0-->" holds the separator within its four
   * bytes, and `find_bytes` as written answers 0.
   */
  lemma FindBytesStopsAtNul()
    ensures var memory: seq<byte> := [NUL, DASH, DASH, GT, NUL];
      Occurs(memory[..4], [DASH, DASH, GT]) && !FindBytesAsWritten(memory, 4, [DASH, DASH, GT])
  {
    var memory: seq<byte> := [NUL, DASH, DASH, GT, NUL];
    var pattern: seq<byte> := [DASH, DASH, GT];
    assert MatchAt(memory[..4], pattern, 1) by {
      assert memory[..4][1..4] == pattern;
    }
  }

  /**
   * Offset 0 is compared before `len` is looked at, and each offset compares
   * all `|pattern|` bytes: a two-byte buffer "--" that happens to be followed
   * in memory by '>' is reported to contain "-->".
   */
  lemma FindBytesReadsPastLength()
    ensures var memory: seq<byte> := [DASH, DASH, GT];
      !Occurs(memory[..2], [DASH, DASH, GT]) && FindBytesAsWritten(memory, 2, [DASH, DASH, GT])
  {
    var memory: seq<byte> := [DASH, DASH, GT];
    var pattern: seq<byte> := [DASH, DASH, GT];
    assert memory[1..3] == pattern[1..];
    forall k: nat | MatchAt(memory[..2], pattern, k)
      ensures false
    {
    }
  }
}

=== FILE: cueparams.dfy ===
/**
 * The cue timings and settings automaton of src/libwebvtt/parser.c
 * (`parse_cueparams`): start timestamp, whitespace, "-->", whitespace, end
 * timestamp, then `keyword:value` settings, with one error report for each
 * offending token.
 *
 * The lexer is not part of this model: the input is the sequence of tokens it
 * would return, each with its kind and its bytes. Lexing a token advances the
 * parser's column by the token's length. Where the source skips raw bytes up
 * to the next space or tab, the model drops tokens up to the next WHITESPACE
 * token; the single byte skipped after a bad token in the pre-setting state
 * is one dropped token. Skipping never updates the column, as in the source.
 */
module CueParams {
  import opened Bytes
  import opened Errors
  import opened Timestamp

  /** The token kinds of src/libwebvtt/parser.h, with COLON, LEFT and RIGHT that the parser also uses. */
  datatype TokenKind =
    | BadToken | Unfinished | Bom | Webvtt | Integer | Newline | Whitespace | FullStop
    | Position | Align | Size | Line | Vertical | Rl | Lr | Start | Middle | End
    | Separator | TimestampToken | Percentage | Colon | Left | Right

  /** A token as the lexer hands it over: its kind and the bytes of `self->token`. */
  datatype Token = Token(kind: TokenKind, text: seq<byte>)

  datatype Option<T> = None | Some(value: T)

  /** The last byte of `self->token` (NUL for an empty token). */
  function LastByte(text: seq<byte>): byte
  {
    if text == [] then NUL else text[|text| - 1]
  }

  /** `webvtt_uint`: a 32-bit unsigned integer. */
  type uint32 = x: int | 0 <= x < 0x1_0000_0000

  /** The conversion `(webvtt_uint)v` (and the bit pattern of `(webvtt_int)v`): modulo 2^32. */
  function ToUint32(v: int): (u: uint32)
    ensures 0 <= v < 0x1_0000_0000 ==> u == v
  {
    v % 0x1_0000_0000
  }

  datatype Writing = Horizontal | VerticalLr | VerticalRl
  datatype Alignment = AlignStart | AlignMiddle | AlignEnd | AlignLeft | AlignRight

  /** The `CUE_HAVE_*` bits: which settings the cue has received. */
  datatype CueFlag = HaveVertical | HaveSize | HavePosition | HaveLine | HaveAlign

  /**
   * The parts of a cue `parse_cueparams` writes. `line` is the 32-bit union
   * `settings.line`, written either as the signed line number or as the
   * unsigned relative position; both store the same bit pattern.
   */
  datatype CueFields = CueFields(
    from: nat, until: nat,
    vertical: Writing, position: uint32, align: Alignment, size: uint32,
    lineIsRelative: bool, line: uint32,
    flags: set<CueFlag>)

  /** `enum cp_state`; the declared states CP_SD and CP_SV are never entered and are not modelled. */
  datatype CpState = T1 | T2 | T3 | T4 | T5 | CS0 | V1 | P1 | A1 | S1 | L1 | V2 | P2 | A2 | S2 | L2

  /** `state < CP_CS0`: still reading the cue timings. */
  predicate InTimings(s: CpState)
  {
    s.T1? || s.T2? || s.T3? || s.T4? || s.T5?
  }

  /** Where `parse_cueparams` stands between two tokens. */
  datatype Machine = Machine(
    state: CpState,
    haveWs: nat,        // column of the whitespace before the current setting, 0 for none
    badDelim: nat,      // column of the first bad delimiter since the last state change, 0 for none
    unexpectedWs: bool, // a leading whitespace has been reported
    line: nat,
    column: nat,        // self->column
    cue: CueFields,
    log: seq<Report>)   // every report raised so far, in order, whether or not a callback received it

  function Initial(cue: CueFields, line: nat, column: nat): Machine
  {
    Machine(T1, 0, 0, false, line, column, cue, [])
  }

  /** `SETST`: change state and forget the bad delimiter. */
  function SetState(m: Machine, s: CpState): Machine
  {
    m.(state := s, badDelim := 0)
  }

  /**
   * The report `ERROR_AT_COLUMN(e, col)` raises; `ERROR(e)` is the same at
   * `self->column`. It is logged whether or not there is a callback to
   * receive it; `Continues` says whether the call goes on.
   */
  function Raise(m: Machine, e: ErrorKind, col: nat): (m': Machine)
    ensures m' == m.(log := m.log + [Report(e, m.line, col)])
  {
    m.(log := m.log + [Report(e, m.line, col)])
  }

  /** What `parse_cueparams` returns: 0, -1, or WEBVTT_PARSE_ERROR when the callback stops it. */
  datatype ParamsResult = Done | Rejected | Aborted

  /** After one token: go on with the state and the tokens left, or return. */
  datatype Outcome = Continue(m: Machine, rest: seq<Token>) | Return(result: ParamsResult, m: Machine)

  /** Drop tokens up to (not including) the next WHITESPACE token. */
  function SkipToBlank(toks: seq<Token>): (r: seq<Token>)
    ensures |r| <= |toks| && r == toks[|toks| - |r|..]
    ensures r == [] || r[0].kind == Whitespace
    ensures forall i :: 0 <= i < |toks| - |r| ==> toks[i].kind != Whitespace
  {
    if toks == [] || toks[0].kind == Whitespace then toks else SkipToBlank(toks[1..])
  }

  /** The error a value of the wrong form raises, per setting. */
  function BadValueError(f: CueFlag): ErrorKind
  {
    match f
    case HaveVertical => VerticalBadValue
    case HaveSize => SizeBadValue
    case HavePosition => PositionBadValue
    case HaveLine => LineBadValue
    case HaveAlign => AlignBadValue
  }

  /** The error a second value for a setting raises. */
  function AlreadySetError(f: CueFlag): ErrorKind
  {
    match f
    case HaveVertical => VerticalAlreadySet
    case HaveSize => SizeAlreadySet
    case HavePosition => PositionAlreadySet
    case HaveLine => LineAlreadySet
    case HaveAlign => AlignAlreadySet
  }

  /** The keyword state a setting keyword leads to. */
  function KeywordState(k: TokenKind): (s: CpState)
    requires k in {Vertical, Position, Align, Size, Line}
  {
    match k
    case Vertical => V1
    case Position => P1
    case Align => A1
    case Size => S1
    case Line => L1
  }

  /** The value state that follows each keyword state's ':'. */
  function ValueState(s: CpState): CpState
    requires s.V1? || s.P1? || s.A1? || s.S1? || s.L1?
  {
    match s
    case V1 => V2
    case P1 => P2
    case A1 => A2
    case S1 => S2
    case L1 => L2
  }

  /** The setting a value state reads. */
  function FlagOf(s: CpState): CueFlag
    requires s.V2? || s.P2? || s.A2? || s.S2? || s.L2?
  {
    match s
    case V2 => HaveVertical
    case P2 => HavePosition
    case A2 => HaveAlign
    case S2 => HaveSize
    case L2 => HaveLine
  }

  /**
   * A timestamp token in CP_T1 (the start time, next CP_T2) or CP_T5 (the end
   * time, next CP_CS0). The parsed value is stored whatever its quality; a
   * malformed timestamp is reported and parsing goes on (after skipping to
   * the next blank when the token does not end in a digit); the sentinel
   * reports EXPECTED_TIMESTAMP and returns -1.
   */
  function ReadTime(m: Machine, tok: Token, lastColumn: nat, rest: seq<Token>, h: ErrorHandler,
                    isEnd: bool): (o: Outcome)
    ensures o.Continue? ==> |o.rest| <= |rest|
  {
    var ts := TimestampOf(tok.text);
    var m1 := if isEnd then m.(cue := m.cue.(until := ts.value)) else m.(cue := m.cue.(from := ts.value));
    var next := if isEnd then CS0 else T2;
    if ts.ok then Continue(SetState(m1, next), rest)
    else
      var m2 := Raise(m1, if ts.value == Sentinel then ExpectedTimestamp else MalformedTimestamp, lastColumn);
      if !Continues(h, m2.log) then Return(Aborted, m2)
      else if ts.value == Sentinel then Return(Rejected, m2)
      else Continue(SetState(m2, next), if IsDigit(LastByte(tok.text)) then rest else SkipToBlank(rest))
  }

  /** A token where a timestamp is due but none came: EXPECTED_TIMESTAMP, then -1. */
  function NoTimestamp(m: Machine, lastColumn: nat, h: ErrorHandler): (o: Outcome)
    ensures o.Return?
  {
    var m1 := Raise(m, ExpectedTimestamp, lastColumn);
    Return(if Continues(h, m1.log) then Rejected else Aborted, m1)
  }

  /** CP_T1: one leading whitespace is reported once; then a timestamp is due. */
  function StartTime(m: Machine, tok: Token, lastColumn: nat, rest: seq<Token>, h: ErrorHandler): (o: Outcome)
    ensures o.Continue? ==> |o.rest| <= |rest|
  {
    if tok.kind == Whitespace && !m.unexpectedWs then
      var m1 := Raise(m, UnexpectedWhitespace, m.column);
      if Continues(h, m1.log) then Continue(m1.(unexpectedWs := true), rest) else Return(Aborted, m1)
    else if tok.kind == TimestampToken then ReadTime(m, tok, lastColumn, rest, h, false)
    else NoTimestamp(m, lastColumn, h)
  }

  /** CP_T5: whitespace is ignored; then a timestamp is due. */
  function EndTime(m: Machine, tok: Token, lastColumn: nat, rest: seq<Token>, h: ErrorHandler): (o: Outcome)
    ensures o.Continue? ==> |o.rest| <= |rest|
  {
    if tok.kind == Whitespace then Continue(m, rest)
    else if tok.kind == TimestampToken then ReadTime(m, tok, lastColumn, rest, h, true)
    else NoTimestamp(m, lastColumn, h)
  }

  /** Raise `e` at `col`; go on with `next` unless the callback says stop. */
  function RaiseThen(m: Machine, e: ErrorKind, col: nat, h: ErrorHandler): (r: (Machine, bool))
    ensures r.0 == Raise(m, e, col) && (r.1 <==> Continues(h, r.0.log))
  {
    var m1 := Raise(m, e, col);
    (m1, Continues(h, m1.log))
  }

  /**
   * `CHKDELIM`, before a setting keyword: a bad delimiter seen since the last
   * state change is reported at its column, or else a missing whitespace.
   */
  function CheckDelimiter(m: Machine, lastColumn: nat, h: ErrorHandler): (r: (Machine, bool))
  {
    if m.badDelim != 0 then RaiseThen(m, InvalidCuesettingDelimiter, m.badDelim, h)
    else if m.haveWs == 0 then RaiseThen(m, ExpectedWhitespace, lastColumn, h)
    else (m, true)
  }

  /** CP_CS0: whitespace, then a setting keyword. */
  function PreSetting(m: Machine, tok: Token, lastColumn: nat, rest: seq<Token>, h: ErrorHandler): (o: Outcome)
    ensures o.Continue? ==> |o.rest| <= |rest|
  {
    if tok.kind == Whitespace then Continue(m.(haveWs := lastColumn), rest)
    else if tok.kind == Colon then
      var (m1, go) := RaiseThen(m, MissingCuesettingKeyword, lastColumn, h);
      if go then Continue(m1, rest) else Return(Aborted, m1)
    else if tok.kind in {Vertical, Position, Align, Size, Line} then Keyword(m, tok.kind, lastColumn, rest, h)
    else if m.haveWs != 0 then
      var (m1, go) := RaiseThen(m, InvalidCuesetting, lastColumn, h);
      if go then Continue(m1, SkipToBlank(rest)) else Return(Aborted, m1)
    else if tok.kind == BadToken then
      Continue(if m.badDelim == 0 then m.(badDelim := lastColumn) else m, if rest == [] then [] else rest[1..])
    else Continue(m, rest)
  }

  /** A setting keyword in CP_CS0: check the delimiter, forget the whitespace, enter the keyword state. */
  function Keyword(m: Machine, k: TokenKind, lastColumn: nat, rest: seq<Token>, h: ErrorHandler): (o: Outcome)
    requires k in {Vertical, Position, Align, Size, Line}
    ensures o.Continue? ==> o.rest == rest
  {
    var (m1, go) := CheckDelimiter(m, lastColumn, h);
    if go then Continue(SetState(m1.(haveWs := 0), KeywordState(k)), rest) else Return(Aborted, m1)
  }

  /**
   * `CS1`, in a keyword state: ':' leads to the value state (whitespace before
   * it is reported); one whitespace is remembered; a value with no ':' is a
   * missing delimiter; anything else is an invalid delimiter and is skipped.
   */
  function Delimiter(m: Machine, tok: Token, lastColumn: nat, rest: seq<Token>, h: ErrorHandler): (o: Outcome)
    requires m.state.V1? || m.state.P1? || m.state.A1? || m.state.S1? || m.state.L1?
    ensures o.Continue? ==> |o.rest| <= |rest|
  {
    if tok.kind == Colon then
      var (m1, go) := if m.haveWs != 0 then RaiseThen(m, UnexpectedWhitespace, m.haveWs, h) else (m, true);
      if go then Continue(SetState(m1, ValueState(m.state)).(haveWs := 0), rest) else Return(Aborted, m1)
    else if tok.kind == Whitespace && m.haveWs == 0 then
      Continue(m.(haveWs := lastColumn), rest)
    else if tok.kind in {Lr, Rl, Integer, Percentage, Start, Middle, End, Left, Right} then
      var (m1, go) := RaiseThen(m, MissingCuesettingDelimiter, if m.haveWs != 0 then m.haveWs else lastColumn, h);
      if go then Continue(m1.(haveWs := 0), rest) else Return(Aborted, m1)
    else
      var (m1, go) := RaiseThen(m, InvalidCuesettingDelimiter, lastColumn, h);
      if go then Continue(m1.(haveWs := 0), SkipToBlank(rest)) else Return(Aborted, m1)
  }

  /** `BV`: report a bad value, skip to the next blank, back to CP_CS0. */
  function BadValue(m: Machine, e: ErrorKind, lastColumn: nat, rest: seq<Token>, h: ErrorHandler): (o: Outcome)
    ensures o.Continue? ==> |o.rest| <= |rest|
  {
    var (m1, go) := RaiseThen(m, e, lastColumn, h);
    if go then Continue(SetState(m1, CS0), SkipToBlank(rest)) else Return(Aborted, m1)
  }

  /** Store a setting value: the field, back to CP_CS0, the `CUE_HAVE_*` bit. */
  function Store(m: Machine, cue: CueFields, f: CueFlag): Machine
  {
    SetState(m.(cue := cue.(flags := cue.flags + {f})), CS0)
  }

  /**
   * A percentage or integer value: `parse_int` on the token's bytes. For
   * position, size and a line percentage a negative value also raises the
   * bad-value error (position's, for a line percentage) and skips, yet the
   * value is stored and the bit set all the same.
   */
  function NumericValue(m: Machine, tok: Token, lastColumn: nat, rest: seq<Token>, h: ErrorHandler): (o: Outcome)
    requires m.state.P2? || m.state.S2? || m.state.L2?
    requires tok.kind == Percentage || (m.state.L2? && tok.kind == Integer)
    ensures o.Continue? ==> |o.rest| <= |rest|
  {
    var v := ScanInt(tok.text, 0).value;
    if m.state.L2? && tok.kind == Integer then
      Continue(Store(m, m.cue.(lineIsRelative := false, line := ToUint32(v)), HaveLine), rest)
    else
      var bad := if v < 0 then BadValue(m, if m.state.S2? then SizeBadValue else PositionBadValue, lastColumn, rest, h)
                 else Continue(m, rest);
      match bad
      case Return(r, m1) => Return(r, m1)
      case Continue(m1, rest1) =>
        var cue := match m.state
          case P2 => m1.cue.(position := ToUint32(v))
          case S2 => m1.cue.(size := ToUint32(v))
          case L2 => m1.cue.(line := ToUint32(v));
        Continue(Store(m1, cue, FlagOf(m.state)), rest1)
  }

  /**
   * A value state: a second value for a setting is reported (`HV`) on every
   * token, whatever the token; then the token itself is examined.
   */
  function Value(m: Machine, tok: Token, lastColumn: nat, rest: seq<Token>, h: ErrorHandler): (o: Outcome)
    requires m.state.V2? || m.state.P2? || m.state.A2? || m.state.S2? || m.state.L2?
    ensures o.Continue? ==> |o.rest| <= |rest|
  {
    var f := FlagOf(m.state);
    var (m1, go) := if f in m.cue.flags then RaiseThen(m, AlreadySetError(f), lastColumn, h) else (m, true);
    if go then ValueToken(m1, tok, lastColumn, rest, h) else Return(Aborted, m1)
  }

  /**
   * The token in a value state: one whitespace is reported (`WS`), a value of
   * the right form is stored, and anything else is a bad value (`BV`).
   */
  function ValueToken(m: Machine, tok: Token, lastColumn: nat, rest: seq<Token>, h: ErrorHandler): (o: Outcome)
    requires m.state.V2? || m.state.P2? || m.state.A2? || m.state.S2? || m.state.L2?
    ensures o.Continue? ==> |o.rest| <= |rest|
  {
    if tok.kind == Whitespace then
      if m.haveWs == 0 then
        var (m1, go) := RaiseThen(m, UnexpectedWhitespace, lastColumn, h);
        if go then Continue(m1.(haveWs := lastColumn), rest) else Return(Aborted, m1)
      else Continue(m, rest)
    else if m.state.V2? || m.state.A2? then KeywordValue(m, tok, lastColumn, rest, h)
    else MeasureValue(m, tok, lastColumn, rest, h)
  }

  /** The value of `vertical` ("lr", "rl") or `align` (start, middle, end, left, right). */
  function KeywordValue(m: Machine, tok: Token, lastColumn: nat, rest: seq<Token>, h: ErrorHandler): (o: Outcome)
    requires m.state.V2? || m.state.A2?
    ensures o.Continue? ==> |o.rest| <= |rest|
  {
    var f := FlagOf(m.state);
    if m.state.V2? then
      if tok.kind == Lr then Continue(Store(m.(haveWs := 0), m.cue.(vertical := VerticalLr), f), rest)
      else if tok.kind == Rl then Continue(Store(m.(haveWs := 0), m.cue.(vertical := VerticalRl), f), rest)
      else BadValue(m, VerticalBadValue, lastColumn, rest, h)
    else if tok.kind in {Start, Middle, End, Left, Right} then
      var a := match tok.kind
        case Start => AlignStart
        case Middle => AlignMiddle
        case End => AlignEnd
        case Left => AlignLeft
        case Right => AlignRight;
      Continue(Store(m.(haveWs := 0), m.cue.(align := a), f), rest)
    else BadValue(m, AlignBadValue, lastColumn, rest, h)
  }

  /**
   * The value of `position` or `size` (a percentage) or `line` (a percentage
   * or an integer).
   */
  function MeasureValue(m: Machine, tok: Token, lastColumn: nat, rest: seq<Token>, h: ErrorHandler): (o: Outcome)
    requires m.state.P2? || m.state.S2? || m.state.L2?
    ensures o.Continue? ==> |o.rest| <= |rest|
  {
    if tok.kind == Percentage || (m.state.L2? && tok.kind == Integer) then NumericValue(m, tok, lastColumn, rest, h)
    else BadValue(m, BadValueError(FlagOf(m.state)), lastColumn, rest, h)
  }

  /**
   * One pass of the `switch( state )` for a token already lexed (`m.column` is
   * the column after it, `lastColumn` the one before). In CP_T4 a token other
   * than whitespace is reported and then examined again as the end time (see
   * `T4AsWritten` for the source, which examines it again in CP_T4).
   */
  function Dispatch(m: Machine, tok: Token, lastColumn: nat, rest: seq<Token>, h: ErrorHandler): (o: Outcome)
    ensures o.Continue? ==> |o.rest| <= |rest|
  {
    match m.state
    case T1 => StartTime(m, tok, lastColumn, rest, h)
    case T2 =>
      if tok.kind == Separator then
        var (m1, go) := RaiseThen(m, ExpectedWhitespace, lastColumn, h);
        if go then Continue(SetState(m1, T4), rest) else Return(Aborted, m1)
      else if tok.kind == Whitespace then Continue(SetState(m, T3), rest)
      else Continue(m, rest)
    case T3 =>
      if tok.kind == Whitespace then Continue(m, rest)
      else if tok.kind == Separator then Continue(SetState(m, T4), rest)
      else if tok.kind == TimestampToken then
        var (m1, go) := RaiseThen(m, MissingCuetimeSeparator, m.column, h);
        if go then EndTime(SetState(m1, T5), tok, lastColumn, rest, h) else Return(Aborted, m1)
      else
        var (m1, go) := RaiseThen(m, ExpectedCuetimeSeparator, lastColumn, h);
        Return(if go then Rejected else Aborted, m1)
    case T4 =>
      if tok.kind == Whitespace then Continue(SetState(m, T5), rest)
      else
        var (m1, go) := RaiseThen(m, ExpectedWhitespace, lastColumn, h);
        if go then EndTime(SetState(m1, T5), tok, lastColumn, rest, h) else Return(Aborted, m1)
    case T5 => EndTime(m, tok, lastColumn, rest, h)
    case CS0 => PreSetting(m, tok, lastColumn, rest, h)
    case V1 => Delimiter(m, tok, lastColumn, rest, h)
    case P1 => Delimiter(m, tok, lastColumn, rest, h)
    case A1 => Delimiter(m, tok, lastColumn, rest, h)
    case S1 => Delimiter(m, tok, lastColumn, rest, h)
    case L1 => Delimiter(m, tok, lastColumn, rest, h)
    case V2 => Value(m, tok, lastColumn, rest, h)
    case P2 => Value(m, tok, lastColumn, rest, h)
    case A2 => Value(m, tok, lastColumn, rest, h)
    case S2 => Value(m, tok, lastColumn, rest, h)
    case L2 => Value(m, tok, lastColumn, rest, h)
  }

  /** Lex the next token (the column moves past it), then dispatch on it. */
  function Step(m: Machine, toks: seq<Token>, h: ErrorHandler): (o: Outcome)
    requires toks != []
    ensures o.Continue? ==> |o.rest| < |toks|
  {
    Dispatch(m.(column := m.column + |toks[0].text|), toks[0], m.column, toks[1..], h)
  }

  /** The `while( pos < len )` loop: every token, or until a `return`. */
  function Exec(m: Machine, toks: seq<Token>, h: ErrorHandler): (o: Outcome)
    ensures o.Continue? ==> o.rest == []
    decreases |toks|
  {
    if toks == [] then Continue(m, [])
    else
      match Step(m, toks, h)
      case Return(r, m1) => Return(r, m1)
      case Continue(m1, rest) => Exec(m1, rest, h)
  }

  /**
   * CP_T4 as written: a token other than whitespace is reported as
   * EXPECTED_WHITESPACE and re-examined with the state left at CP_T4, so it is
   * reported again on every pass until the callback asks to stop. `fuel`
   * bounds the passes modelled; the answer is the machine after them and
   * whether the call has returned (with WEBVTT_PARSE_ERROR).
   */
  function T4AsWritten(m: Machine, lastColumn: nat, h: ErrorHandler, fuel: nat): (r: (bool, Machine))
    decreases fuel
  {
    if fuel == 0 then (false, m)
    else
      var (m1, go) := RaiseThen(m, ExpectedWhitespace, lastColumn, h);
      if go then T4AsWritten(m1, lastColumn, h, fuel - 1) else (true, m1)
  }

  /**
   * After the last token: unfinished timings are reported (`ERROR`, at the
   * current column) and give -1; an unfinished setting is reported with its
   * bad-value error (or INVALID_CUESETTING in a keyword state) and parsing
   * goes on; in CP_CS0 a pending bad delimiter is reported.
   */
  function Finish(m: Machine, h: ErrorHandler): (r: (ParamsResult, Machine))
  {
    if m.state != CS0 then
      if InTimings(m.state) then
        var (m1, go) := RaiseThen(m, UnfinishedCuetimes, m.column, h);
        (if go then Rejected else Aborted, m1)
      else
        var e := if m.state.V2? || m.state.P2? || m.state.A2? || m.state.S2? || m.state.L2?
          then BadValueError(FlagOf(m.state)) else InvalidCuesetting;
        var (m1, go) := RaiseThen(m, e, m.column, h);
        (if go then Done else Aborted, m1)
    else if m.badDelim != 0 then
      var (m1, go) := RaiseThen(m, InvalidCuesettingDelimiter, m.badDelim, h);
      (if go then Done else Aborted, m1)
    else (Done, m)
  }

  /** `parse_cueparams` from a given machine: what it returns and where it leaves everything. */
  function Run(m: Machine, toks: seq<Token>, h: ErrorHandler): (ParamsResult, Machine)
  {
    match Exec(m, toks, h)
    case Return(r, m1) => (r, m1)
    case Continue(m1, _) => Finish(m1, h)
  }

  /** The cue object `parse_cueparams` writes through its `cue` pointer. */
  class Cue {
    var from: nat
    var until: nat
    var vertical: Writing
    var position: uint32
    var align: Alignment
    var size: uint32
    var lineIsRelative: bool
    var line: uint32
    var flags: set<CueFlag>

    constructor (c: CueFields)
      ensures Fields() == c
    {
      from, until := c.from, c.until;
      vertical, position, align, size := c.vertical, c.position, c.align, c.size;
      lineIsRelative, line, flags := c.lineIsRelative, c.line, c.flags;
    }

    function Fields(): CueFields
      reads this
    {
      CueFields(from, until, vertical, position, align, size, lineIsRelative, line, flags)
    }

    /** Write back the fields a step of the parser has changed. */
    method Write(c: CueFields)
      modifies this
      ensures Fields() == c
    {
      from, until := c.from, c.until;
      vertical, position, align, size := c.vertical, c.position, c.align, c.size;
      lineIsRelative, line, flags := c.lineIsRelative, c.line, c.flags;
    }
  }
}

=== FILE: cueparams_props.dfy ===
/**
 * What `parse_cueparams` guarantees, proved about the automaton of module
 * CueParams: the error protocol with the callback, what the settings part may
 * and may not change, and the outcome of well-formed and faulty cue lines.
 */
module CueParamsProperties {
  import opened Bytes
  import opened Errors
  import opened Timestamp
  import opened CueParams

  // ---------------------------------------------------------------------
  // The error protocol: every report the parser went on after was accepted
  // by the callback, and it stops exactly at the first refused one.

  predicate Extends(log: seq<Report>, log': seq<Report>)
  {
    |log| <= |log'| && log'[..|log|] == log
  }

  /** The callback accepted every report from index `n` of `log` on. */
  predicate AcceptedFrom(h: ErrorHandler, log: seq<Report>, n: nat)
  {
    forall k :: n < k <= |log| ==> Continues(h, log[..k])
  }

  /**
   * `o`, reached from `m`, keeps to the protocol of the `ERROR` macro: the log
   * only grows; going on (or returning 0 or -1) means every new report was
   * accepted; returning WEBVTT_PARSE_ERROR means the last report was refused
   * and all before it accepted.
   */
  predicate Protocol(h: ErrorHandler, log: seq<Report>, r: ParamsResult, log': seq<Report>)
  {
    Extends(log, log') &&
    if r == Aborted then
      |log| < |log'| && AcceptedFrom(h, log'[..|log'| - 1], |log|) && !Continues(h, log')
    else AcceptedFrom(h, log', |log|)
  }

  predicate Sound(m: Machine, o: Outcome, h: ErrorHandler)
  {
    match o
    case Continue(m', _) => Protocol(h, m.log, Done, m'.log)
    case Return(r, m') => Protocol(h, m.log, r, m'.log)
  }

  lemma RaiseThenSound(m: Machine, e: ErrorKind, col: nat, h: ErrorHandler)
    ensures var (m1, go) := RaiseThen(m, e, col, h);
      Protocol(h, m.log, if go then Done else Aborted, m1.log)
  {
    var (m1, go) := RaiseThen(m, e, col, h);
    assert m1.log[..|m1.log| - 1] == m.log;
    assert m1.log[..|m.log|] == m.log;
    assert m1.log[..|m1.log|] == m1.log;
  }

  lemma ProtocolTrans(h: ErrorHandler, a: seq<Report>, b: seq<Report>, c: seq<Report>, r: ParamsResult)
    requires Protocol(h, a, Done, b) && Protocol(h, b, r, c)
    ensures Protocol(h, a, r, c)
  {
    assert c[..|b|][..|a|] == c[..|a|];
    if r == Aborted {
      var d := c[..|c| - 1];
      forall k | |a| < k <= |d|
        ensures Continues(h, d[..k])
      {
        if k <= |b| {
          assert d[..k] == b[..k];
        } else {
          assert d[..k] == d[..k];
        }
      }
    } else {
      forall k | |a| < k <= |c|
        ensures Continues(h, c[..k])
      {
        if k <= |b| {
          assert c[..k] == b[..k];
        }
      }
    }
  }

  lemma ProtocolRefl(h: ErrorHandler, a: seq<Report>)
    ensures Protocol(h, a, Done, a) && Protocol(h, a, Rejected, a)
  {
    assert a[..|a|] == a;
  }

  lemma ReadTimeSound(m: Machine, tok: Token, lc: nat, rest: seq<Token>, h: ErrorHandler, isEnd: bool)
    ensures Sound(m, ReadTime(m, tok, lc, rest, h, isEnd), h)
  {
    var ts := TimestampOf(tok.text);
    var m1 := if isEnd then m.(cue := m.cue.(until := ts.value)) else m.(cue := m.cue.(from := ts.value));
    ProtocolRefl(h, m.log);
    RaiseThenSound(m1, if ts.value == Sentinel then ExpectedTimestamp else MalformedTimestamp, lc, h);
  }

  lemma DispatchSound(m: Machine, tok: Token, lc: nat, rest: seq<Token>, h: ErrorHandler)
    ensures Sound(m, Dispatch(m, tok, lc, rest, h), h)
  {
    if InTimings(m.state) {
      TimingsSound(m, tok, lc, rest, h);
    } else {
      SettingsSound(m, tok, lc, rest, h);
    }
  }

  lemma TimingsSound(m: Machine, tok: Token, lc: nat, rest: seq<Token>, h: ErrorHandler)
    requires InTimings(m.state)
    ensures Sound(m, Dispatch(m, tok, lc, rest, h), h)
  {
    ProtocolRefl(h, m.log);
    match m.state {
      case T1 =>
        StartTimeSound(m, tok, lc, rest, h);
        assert Dispatch(m, tok, lc, rest, h) == StartTime(m, tok, lc, rest, h);
      case T2 =>
        RaiseThenSound(m, ExpectedWhitespace, lc, h);
      case T3 =>
        SeparatorSound(m, tok, lc, rest, h);
      case T4 =>
        var (m1, go) := RaiseThen(m, ExpectedWhitespace, lc, h);
        RaiseThenSound(m, ExpectedWhitespace, lc, h);
        if go {
          EndTimeAfter(m, SetState(m1, T5), tok, lc, rest, h);
        }
      case T5 =>
        EndTimeAfter(m, m, tok, lc, rest, h);
    }
  }

  lemma StartTimeSound(m: Machine, tok: Token, lc: nat, rest: seq<Token>, h: ErrorHandler)
    ensures Sound(m, StartTime(m, tok, lc, rest, h), h)
  {
    ProtocolRefl(h, m.log);
    RaiseThenSound(m, UnexpectedWhitespace, m.column, h);
    RaiseThenSound(m, ExpectedTimestamp, lc, h);
    ReadTimeSound(m, tok, lc, rest, h, false);
  }

  /** CP_T3, where "-->" is due. */
  lemma SeparatorSound(m: Machine, tok: Token, lc: nat, rest: seq<Token>, h: ErrorHandler)
    requires m.state.T3?
    ensures Sound(m, Dispatch(m, tok, lc, rest, h), h)
  {
    ProtocolRefl(h, m.log);
    var (m1, go) := RaiseThen(m, MissingCuetimeSeparator, m.column, h);
    RaiseThenSound(m, MissingCuetimeSeparator, m.column, h);
    RaiseThenSound(m, ExpectedCuetimeSeparator, lc, h);
    if go {
      EndTimeAfter(m, SetState(m1, T5), tok, lc, rest, h);
    }
  }

  lemma SettingsSound(m: Machine, tok: Token, lc: nat, rest: seq<Token>, h: ErrorHandler)
    requires !InTimings(m.state)
    ensures Sound(m, Dispatch(m, tok, lc, rest, h), h)
  {
    match m.state {
      case CS0 =>
        PreSettingSound(m, tok, lc, rest, h);
      case V1 => DelimiterSound(m, tok, lc, rest, h);
      case P1 => DelimiterSound(m, tok, lc, rest, h);
      case A1 => DelimiterSound(m, tok, lc, rest, h);
      case S1 => DelimiterSound(m, tok, lc, rest, h);
      case L1 => DelimiterSound(m, tok, lc, rest, h);
      case V2 => ValueSound(m, tok, lc, rest, h);
      case P2 => ValueSound(m, tok, lc, rest, h);
      case A2 => ValueSound(m, tok, lc, rest, h);
      case S2 => ValueSound(m, tok, lc, rest, h);
      case L2 => ValueSound(m, tok, lc, rest, h);
    }
  }

  /** CP_T5's handling, entered from `m0` by a step that kept the protocol. */
  lemma EndTimeAfter(m0: Machine, m: Machine, tok: Token, lc: nat, rest: seq<Token>, h: ErrorHandler)
    requires Protocol(h, m0.log, Done, m.log)
    ensures Sound(m0, EndTime(m, tok, lc, rest, h), h)
  {
    ProtocolRefl(h, m.log);
    RaiseThenSound(m, ExpectedTimestamp, lc, h);
    ReadTimeSound(m, tok, lc, rest, h, true);
    var o := EndTime(m, tok, lc, rest, h);
    assert Sound(m, o, h);
    match o {
      case Continue(m', _) => ProtocolTrans(h, m0.log, m.log, m'.log, Done);
      case Return(r, m') => ProtocolTrans(h, m0.log, m.log, m'.log, r);
    }
  }

  lemma PreSettingSound(m: Machine, tok: Token, lc: nat, rest: seq<Token>, h: ErrorHandler)
    ensures Sound(m, PreSetting(m, tok, lc, rest, h), h)
  {
    ProtocolRefl(h, m.log);
    RaiseThenSound(m, MissingCuesettingKeyword, lc, h);
    RaiseThenSound(m, InvalidCuesetting, lc, h);
    RaiseThenSound(m, InvalidCuesettingDelimiter, m.badDelim, h);
    RaiseThenSound(m, ExpectedWhitespace, lc, h);
  }

  lemma DelimiterSound(m: Machine, tok: Token, lc: nat, rest: seq<Token>, h: ErrorHandler)
    requires m.state.V1? || m.state.P1? || m.state.A1? || m.state.S1? || m.state.L1?
    ensures Sound(m, Delimiter(m, tok, lc, rest, h), h)
  {
    ProtocolRefl(h, m.log);
    RaiseThenSound(m, UnexpectedWhitespace, m.haveWs, h);
    RaiseThenSound(m, MissingCuesettingDelimiter, if m.haveWs != 0 then m.haveWs else lc, h);
    RaiseThenSound(m, InvalidCuesettingDelimiter, lc, h);
  }

  lemma BadValueSound(m: Machine, e: ErrorKind, lc: nat, rest: seq<Token>, h: ErrorHandler)
    ensures Sound(m, BadValue(m, e, lc, rest, h), h)
  {
    RaiseThenSound(m, e, lc, h);
  }

  lemma NumericValueSound(m: Machine, tok: Token, lc: nat, rest: seq<Token>, h: ErrorHandler)
    requires m.state.P2? || m.state.S2? || m.state.L2?
    requires tok.kind == Percentage || (m.state.L2? && tok.kind == Integer)
    ensures Sound(m, NumericValue(m, tok, lc, rest, h), h)
  {
    ProtocolRefl(h, m.log);
    BadValueSound(m, if m.state.S2? then SizeBadValue else PositionBadValue, lc, rest, h);
  }

  lemma KeywordValueSound(m: Machine, tok: Token, lc: nat, rest: seq<Token>, h: ErrorHandler)
    requires m.state.V2? || m.state.A2?
    ensures Sound(m, KeywordValue(m, tok, lc, rest, h), h)
  {
    ProtocolRefl(h, m.log);
    if m.state.V2? {
      BadValueSound(m, VerticalBadValue, lc, rest, h);
    } else {
      BadValueSound(m, AlignBadValue, lc, rest, h);
    }
  }

  lemma MeasureValueSound(m: Machine, tok: Token, lc: nat, rest: seq<Token>, h: ErrorHandler)
    requires m.state.P2? || m.state.S2? || m.state.L2?
    ensures Sound(m, MeasureValue(m, tok, lc, rest, h), h)
  {
    if tok.kind == Percentage || (m.state.L2? && tok.kind == Integer) {
      NumericValueSound(m, tok, lc, rest, h);
    } else if m.state.P2? {
      BadValueSound(m, PositionBadValue, lc, rest, h);
    } else if m.state.S2? {
      BadValueSound(m, SizeBadValue, lc, rest, h);
    } else {
      BadValueSound(m, LineBadValue, lc, rest, h);
    }
  }

  lemma ValueTokenSound(m: Machine, tok: Token, lc: nat, rest: seq<Token>, h: ErrorHandler)
    requires m.state.V2? || m.state.P2? || m.state.A2? || m.state.S2? || m.state.L2?
    ensures Sound(m, ValueToken(m, tok, lc, rest, h), h)
  {
    if tok.kind == Whitespace {
      ProtocolRefl(h, m.log);
      RaiseThenSound(m, UnexpectedWhitespace, lc, h);
    } else if m.state.V2? || m.state.A2? {
      KeywordValueSound(m, tok, lc, rest, h);
    } else {
      MeasureValueSound(m, tok, lc, rest, h);
    }
  }

  lemma ValueSound(m: Machine, tok: Token, lc: nat, rest: seq<Token>, h: ErrorHandler)
    requires m.state.V2? || m.state.P2? || m.state.A2? || m.state.S2? || m.state.L2?
    ensures Sound(m, Value(m, tok, lc, rest, h), h)
  {
    var f := FlagOf(m.state);
    var (m1, go) := if f in m.cue.flags then RaiseThen(m, AlreadySetError(f), lc, h) else (m, true);
    ProtocolRefl(h, m.log);
    RaiseThenSound(m, AlreadySetError(f), lc, h);
    if go {
      var o := ValueToken(m1, tok, lc, rest, h);
      ValueTokenSound(m1, tok, lc, rest, h);
      match o {
        case Continue(m', _) => ProtocolTrans(h, m.log, m1.log, m'.log, Done);
        case Return(r, m') => ProtocolTrans(h, m.log, m1.log, m'.log, r);
      }
    }
  }

  /** The machine after lexing the first token, before the state's handling. */
  function Lexed(m: Machine, toks: seq<Token>): Machine
    requires toks != []
  {
    m.(column := m.column + |toks[0].text|)
  }

  /** Soundness speaks only of the log. */
  lemma SoundSameLog(m: Machine, m': Machine, o: Outcome, h: ErrorHandler)
    requires m.log == m'.log && Sound(m, o, h)
    ensures Sound(m', o, h)
  {
  }

  lemma StepSound(m: Machine, toks: seq<Token>, h: ErrorHandler)
    requires toks != []
    ensures Sound(m, Step(m, toks, h), h)
  {
    var lexed := Lexed(m, toks);
    DispatchSound(lexed, toks[0], m.column, toks[1..], h);
    SoundSameLog(lexed, m, Dispatch(lexed, toks[0], m.column, toks[1..], h), h);
  }

  lemma {:induction false} ExecSound(m: Machine, toks: seq<Token>, h: ErrorHandler)
    ensures Sound(m, Exec(m, toks, h), h)
    decreases |toks|
  {
    if toks == [] {
      ProtocolRefl(h, m.log);
    } else {
      var o := Step(m, toks, h);
      StepSound(m, toks, h);
      if o.Continue? {
        var o2 := Exec(o.m, o.rest, h);
        ExecSound(o.m, o.rest, h);
        assert Exec(m, toks, h) == o2;
        match o2 {
          case Continue(m2, _) => ProtocolTrans(h, m.log, o.m.log, m2.log, Done);
          case Return(r, m2) => ProtocolTrans(h, m.log, o.m.log, m2.log, r);
        }
      }
    }
  }

  /**
   * The error protocol of the whole call: the reports form an extension of
   * the log; when the call returns 0 or -1 the callback accepted every one of
   * them, and when it returns WEBVTT_PARSE_ERROR the callback (or its absence)
   * refused the last one and accepted all before it.
   */
  lemma {:induction false} RunProtocol(m: Machine, toks: seq<Token>, h: ErrorHandler)
    ensures var (r, m') := Run(m, toks, h); Protocol(h, m.log, r, m'.log)
  {
    ExecSound(m, toks, h);
    match Exec(m, toks, h) {
      case Return(r, m1) =>
      case Continue(m1, _) =>
        var (r, m2) := Finish(m1, h);
        ProtocolRefl(h, m1.log);
        RaiseThenSound(m1, UnfinishedCuetimes, m1.column, h);
        RaiseThenSound(m1, InvalidCuesettingDelimiter, m1.badDelim, h);
        if !(m1.state.CS0? || InTimings(m1.state)) {
          var e := if m1.state.V2? || m1.state.P2? || m1.state.A2? || m1.state.S2? || m1.state.L2?
            then BadValueError(FlagOf(m1.state)) else InvalidCuesetting;
          RaiseThenSound(m1, e, m1.column, h);
        }
        assert Protocol(h, m1.log, r, m2.log);
        ProtocolTrans(h, m.log, m1.log, m2.log, r);
    }
  }

  /** Without a callback the first error ends the call with WEBVTT_PARSE_ERROR. */
  lemma {:induction false} NoHandlerStopsAtFirstError(m: Machine, toks: seq<Token>)
    ensures var (r, m') := Run(m, toks, NoHandler);
      r != Aborted ==> m'.log == m.log
    ensures var (r, m') := Run(m, toks, NoHandler);
      r == Aborted ==> |m'.log| == |m.log| + 1 && m'.log[..|m.log|] == m.log
  {
    RunProtocol(m, toks, NoHandler);
    var (r, m') := Run(m, toks, NoHandler);
    if r != Aborted {
      NothingAccepted(m'.log, |m.log|);
    } else {
      NothingAccepted(m'.log[..|m'.log| - 1], |m.log|);
    }
  }

  lemma NoHandlerRefuses(log: seq<Report>)
    ensures !Continues(NoHandler, log)
  {
  }

  /** Without a callback no report is ever accepted. */
  lemma NothingAccepted(log: seq<Report>, n: nat)
    requires AcceptedFrom(NoHandler, log, n)
    ensures |log| <= n
  {
    if n < |log| {
      NoHandlerRefuses(log[..n + 1]);
      assert false;
    }
  }

  // ---------------------------------------------------------------------
  // What the settings part may change.

  /**
   * From cue `c` to cue `c'`: no `CUE_HAVE_*` bit is cleared, and every
   * setting whose value changed has its bit set.
   */
  predicate Recorded(c: CueFields, c': CueFields)
  {
    && c.flags <= c'.flags
    && (c'.vertical != c.vertical ==> HaveVertical in c'.flags)
    && (c'.position != c.position ==> HavePosition in c'.flags)
    && (c'.align != c.align ==> HaveAlign in c'.flags)
    && (c'.size != c.size ==> HaveSize in c'.flags)
    && (c'.line != c.line || c'.lineIsRelative != c.lineIsRelative ==> HaveLine in c'.flags)
  }

  /**
   * One token's worth of change from `m` to `m'`: settings recorded, and once
   * the timings are done they stay done and stay as they are.
   */
  predicate Keeps(m: Machine, m': Machine)
  {
    && Recorded(m.cue, m'.cue)
    && (!InTimings(m.state) ==>
          !InTimings(m'.state) && m'.cue.from == m.cue.from && m'.cue.until == m.cue.until)
  }

  predicate KeepsOutcome(m: Machine, o: Outcome)
  {
    match o
    case Continue(m', _) => Keeps(m, m')
    case Return(r, m') => Keeps(m, m') && (!InTimings(m.state) ==> r != Rejected)
  }

  /** From cue `c` to cue `c'` only the cue times may differ. */
  predicate TimingsOnly(c: CueFields, c': CueFields)
  {
    c' == c.(from := c'.from, until := c'.until)
  }

  /**
   * What a value of setting `f` writes into cue `c`, setting by setting: the
   * `cue->settings` field the token names and the `CUE_HAVE_*` bit. `None`
   * for a token that is not a value of the setting. A `line` percentage
   * writes the relative position and leaves `line_is_relative` as it was.
   */
  function Setting(c: CueFields, f: CueFlag, tok: Token): Option<CueFields>
  {
    var c1 := c.(flags := c.flags + {f});
    var v := ToUint32(ScanInt(tok.text, 0).value);
    match f
    case HaveVertical =>
      if tok.kind == Lr then Some(c1.(vertical := VerticalLr))
      else if tok.kind == Rl then Some(c1.(vertical := VerticalRl))
      else None
    case HaveAlign =>
      if tok.kind == Start then Some(c1.(align := AlignStart))
      else if tok.kind == Middle then Some(c1.(align := AlignMiddle))
      else if tok.kind == End then Some(c1.(align := AlignEnd))
      else if tok.kind == Left then Some(c1.(align := AlignLeft))
      else if tok.kind == Right then Some(c1.(align := AlignRight))
      else None
    case HavePosition => if tok.kind == Percentage then Some(c1.(position := v)) else None
    case HaveSize => if tok.kind == Percentage then Some(c1.(size := v)) else None
    case HaveLine =>
      if tok.kind == Integer then Some(c1.(lineIsRelative := false, line := v))
      else if tok.kind == Percentage then Some(c1.(line := v))
      else None
  }

  /**
   * The token `tok` in the value state of setting `f` leads to `o`: when the
   * call goes on, a value of the setting has been written as `Setting` says
   * and anything else but whitespace has led back to CP_CS0; otherwise the
   * cue is untouched.
   */
  predicate WritesSetting(m: Machine, f: CueFlag, tok: Token, o: Outcome)
  {
    && (o.Continue? && tok.kind != Whitespace ==> o.m.state.CS0?)
    && o.m.cue == (if o.Continue? && Setting(m.cue, f, tok).Some? then Setting(m.cue, f, tok).value else m.cue)
  }

  /** A time token writes its value into `from` (start) or `until` (end), whatever its quality, and nothing else. */
  lemma ReadTimeKeeps(m: Machine, tok: Token, lc: nat, rest: seq<Token>, h: ErrorHandler, isEnd: bool)
    requires InTimings(m.state)
    ensures KeepsOutcome(m, ReadTime(m, tok, lc, rest, h, isEnd))
    ensures var v := TimestampOf(tok.text).value;
      ReadTime(m, tok, lc, rest, h, isEnd).m.cue == if isEnd then m.cue.(until := v) else m.cue.(from := v)
  {
  }

  lemma EndTimeKeeps(m: Machine, tok: Token, lc: nat, rest: seq<Token>, h: ErrorHandler)
    requires InTimings(m.state)
    ensures KeepsOutcome(m, EndTime(m, tok, lc, rest, h))
    ensures TimingsOnly(m.cue, EndTime(m, tok, lc, rest, h).m.cue)
    ensures EndTime(m, tok, lc, rest, h).m.cue.from == m.cue.from
  {
    ReadTimeKeeps(m, tok, lc, rest, h, true);
  }

  /** CP_T1: at most the start time changes. */
  lemma StartTimeKeeps(m: Machine, tok: Token, lc: nat, rest: seq<Token>, h: ErrorHandler)
    requires m.state.T1?
    ensures KeepsOutcome(m, StartTime(m, tok, lc, rest, h))
    ensures TimingsOnly(m.cue, StartTime(m, tok, lc, rest, h).m.cue)
  {
    if tok.kind == TimestampToken && !(tok.kind == Whitespace && !m.unexpectedWs) {
      ReadTimeKeeps(m, tok, lc, rest, h, false);
    }
  }

  lemma TimingsKeep(m: Machine, tok: Token, lc: nat, rest: seq<Token>, h: ErrorHandler)
    requires InTimings(m.state)
    ensures KeepsOutcome(m, Dispatch(m, tok, lc, rest, h))
    ensures TimingsOnly(m.cue, Dispatch(m, tok, lc, rest, h).m.cue)
  {
    var o := Dispatch(m, tok, lc, rest, h);
    match m.state {
      case T1 =>
        StartTimeKeeps(m, tok, lc, rest, h);
        assert o == StartTime(m, tok, lc, rest, h);
      case T2 =>
        assert o.m.cue == m.cue;
      case T3 =>
        if tok.kind == TimestampToken {
          var (m1, go) := RaiseThen(m, MissingCuetimeSeparator, m.column, h);
          EndTimeKeeps(SetState(m1, T5), tok, lc, rest, h);
          assert o == if go then EndTime(SetState(m1, T5), tok, lc, rest, h) else Return(Aborted, m1);
        } else {
          assert o.m.cue == m.cue;
        }
      case T4 =>
        if tok.kind != Whitespace {
          var (m1, go) := RaiseThen(m, ExpectedWhitespace, lc, h);
          EndTimeKeeps(SetState(m1, T5), tok, lc, rest, h);
          assert o == if go then EndTime(SetState(m1, T5), tok, lc, rest, h) else Return(Aborted, m1);
        } else {
          assert o.m.cue == m.cue;
        }
      case T5 =>
        EndTimeKeeps(m, tok, lc, rest, h);
    }
  }

  lemma PreSettingKeeps(m: Machine, tok: Token, lc: nat, rest: seq<Token>, h: ErrorHandler)
    requires m.state.CS0?
    ensures KeepsOutcome(m, PreSetting(m, tok, lc, rest, h))
    ensures PreSetting(m, tok, lc, rest, h).m.cue == m.cue
  {
    var o := PreSetting(m, tok, lc, rest, h);
    if tok.kind in {Vertical, Position, Align, Size, Line} {
      var (m1, go) := CheckDelimiter(m, lc, h);
      assert m1.cue == m.cue;
    }
    assert o.m.cue == m.cue && !InTimings(o.m.state);
  }

  lemma DelimiterKeeps(m: Machine, tok: Token, lc: nat, rest: seq<Token>, h: ErrorHandler)
    requires m.state.V1? || m.state.P1? || m.state.A1? || m.state.S1? || m.state.L1?
    ensures KeepsOutcome(m, Delimiter(m, tok, lc, rest, h))
    ensures Delimiter(m, tok, lc, rest, h).m.cue == m.cue
  {
  }

  lemma BadValueKeeps(m: Machine, e: ErrorKind, lc: nat, rest: seq<Token>, h: ErrorHandler)
    requires !InTimings(m.state)
    ensures KeepsOutcome(m, BadValue(m, e, lc, rest, h))
    ensures BadValue(m, e, lc, rest, h).m.cue == m.cue
  {
  }

  lemma NumericValueKeeps(m: Machine, tok: Token, lc: nat, rest: seq<Token>, h: ErrorHandler)
    requires m.state.P2? || m.state.S2? || m.state.L2?
    requires tok.kind == Percentage || (m.state.L2? && tok.kind == Integer)
    ensures KeepsOutcome(m, NumericValue(m, tok, lc, rest, h))
    ensures WritesSetting(m, FlagOf(m.state), tok, NumericValue(m, tok, lc, rest, h))
  {
    if m.state.L2? && tok.kind == Integer {
      assert NumericValue(m, tok, lc, rest, h).m.cue == Setting(m.cue, HaveLine, tok).value;
    } else {
      PercentageKeeps(m, tok, lc, rest, h);
    }
  }

  /** The percentage case of NumericValue, which may report a negative value first. */
  lemma PercentageKeeps(m: Machine, tok: Token, lc: nat, rest: seq<Token>, h: ErrorHandler)
    requires m.state.P2? || m.state.S2? || m.state.L2?
    requires tok.kind == Percentage
    ensures KeepsOutcome(m, NumericValue(m, tok, lc, rest, h))
    ensures WritesSetting(m, FlagOf(m.state), tok, NumericValue(m, tok, lc, rest, h))
  {
    var f := FlagOf(m.state);
    if ScanInt(tok.text, 0).value >= 0 {
      var cue := Setting(m.cue, f, tok).value;
      assert NumericValue(m, tok, lc, rest, h) == Continue(Store(m, cue.(flags := m.cue.flags), f), rest);
    } else {
      NegativePercentageKeeps(m, tok, lc, rest, h);
    }
  }

  /** A negative percentage: the bad-value report, then, if accepted, the value is stored all the same. */
  lemma NegativePercentageKeeps(m: Machine, tok: Token, lc: nat, rest: seq<Token>, h: ErrorHandler)
    requires m.state.P2? || m.state.S2? || m.state.L2?
    requires tok.kind == Percentage && ScanInt(tok.text, 0).value < 0
    ensures KeepsOutcome(m, NumericValue(m, tok, lc, rest, h))
    ensures WritesSetting(m, FlagOf(m.state), tok, NumericValue(m, tok, lc, rest, h))
  {
    var f := FlagOf(m.state);
    var o := NumericValue(m, tok, lc, rest, h);
    var cue := Setting(m.cue, f, tok).value;
    var e := if m.state.S2? then SizeBadValue else PositionBadValue;
    var bad := BadValue(m, e, lc, rest, h);
    BadValueKeeps(m, e, lc, rest, h);
    if bad.Continue? {
      assert o == Continue(Store(bad.m, cue.(flags := m.cue.flags), f), bad.rest);
    } else {
      assert o == bad;
    }
  }

  lemma KeywordValueKeeps(m: Machine, tok: Token, lc: nat, rest: seq<Token>, h: ErrorHandler)
    requires m.state.V2? || m.state.A2?
    ensures KeepsOutcome(m, KeywordValue(m, tok, lc, rest, h))
    ensures WritesSetting(m, FlagOf(m.state), tok, KeywordValue(m, tok, lc, rest, h))
  {
    var f := FlagOf(m.state);
    var o := KeywordValue(m, tok, lc, rest, h);
    if m.state.V2? {
      if tok.kind == Lr || tok.kind == Rl {
        assert o.Continue? && o.m.state.CS0? && o.m.cue == Setting(m.cue, f, tok).value;
      } else {
        BadValueKeeps(m, VerticalBadValue, lc, rest, h);
        assert Setting(m.cue, f, tok).None?;
      }
    } else if tok.kind in {Start, Middle, End, Left, Right} {
      assert o.Continue? && o.m.state.CS0? && o.m.cue == Setting(m.cue, f, tok).value;
    } else {
      BadValueKeeps(m, AlignBadValue, lc, rest, h);
      assert Setting(m.cue, f, tok).None?;
    }
  }

  lemma MeasureValueKeeps(m: Machine, tok: Token, lc: nat, rest: seq<Token>, h: ErrorHandler)
    requires m.state.P2? || m.state.S2? || m.state.L2?
    ensures KeepsOutcome(m, MeasureValue(m, tok, lc, rest, h))
    ensures WritesSetting(m, FlagOf(m.state), tok, MeasureValue(m, tok, lc, rest, h))
  {
    if tok.kind == Percentage || (m.state.L2? && tok.kind == Integer) {
      NumericValueKeeps(m, tok, lc, rest, h);
    } else if m.state.P2? {
      BadValueKeeps(m, PositionBadValue, lc, rest, h);
    } else if m.state.S2? {
      BadValueKeeps(m, SizeBadValue, lc, rest, h);
    } else {
      BadValueKeeps(m, LineBadValue, lc, rest, h);
    }
  }

  lemma ValueTokenKeeps(m: Machine, tok: Token, lc: nat, rest: seq<Token>, h: ErrorHandler)
    requires m.state.V2? || m.state.P2? || m.state.A2? || m.state.S2? || m.state.L2?
    ensures KeepsOutcome(m, ValueToken(m, tok, lc, rest, h))
    ensures WritesSetting(m, FlagOf(m.state), tok, ValueToken(m, tok, lc, rest, h))
  {
    if tok.kind == Whitespace {
    } else if m.state.V2? || m.state.A2? {
      KeywordValueKeeps(m, tok, lc, rest, h);
    } else {
      MeasureValueKeeps(m, tok, lc, rest, h);
    }
  }

  lemma ValueKeeps(m: Machine, tok: Token, lc: nat, rest: seq<Token>, h: ErrorHandler)
    requires m.state.V2? || m.state.P2? || m.state.A2? || m.state.S2? || m.state.L2?
    ensures KeepsOutcome(m, Value(m, tok, lc, rest, h))
    ensures WritesSetting(m, FlagOf(m.state), tok, Value(m, tok, lc, rest, h))
  {
    var f := FlagOf(m.state);
    var (m1, go) := if f in m.cue.flags then RaiseThen(m, AlreadySetError(f), lc, h) else (m, true);
    if go {
      ValueTokenKeeps(m1, tok, lc, rest, h);
      assert m1.cue == m.cue && m1.state == m.state;
    }
  }

  lemma DispatchKeeps(m: Machine, tok: Token, lc: nat, rest: seq<Token>, h: ErrorHandler)
    ensures KeepsOutcome(m, Dispatch(m, tok, lc, rest, h))
  {
    if InTimings(m.state) {
      TimingsKeep(m, tok, lc, rest, h);
    } else {
      match m.state {
        case CS0 => PreSettingKeeps(m, tok, lc, rest, h);
        case V1 => DelimiterKeeps(m, tok, lc, rest, h);
        case P1 => DelimiterKeeps(m, tok, lc, rest, h);
        case A1 => DelimiterKeeps(m, tok, lc, rest, h);
        case S1 => DelimiterKeeps(m, tok, lc, rest, h);
        case L1 => DelimiterKeeps(m, tok, lc, rest, h);
        case V2 => ValueKeeps(m, tok, lc, rest, h);
        case P2 => ValueKeeps(m, tok, lc, rest, h);
        case A2 => ValueKeeps(m, tok, lc, rest, h);
        case S2 => ValueKeeps(m, tok, lc, rest, h);
        case L2 => ValueKeeps(m, tok, lc, rest, h);
      }
    }
  }

  /** Keeping speaks only of the cue and the state. */
  lemma KeepsSameStart(m: Machine, m': Machine, o: Outcome)
    requires m.cue == m'.cue && m.state == m'.state && KeepsOutcome(m, o)
    ensures KeepsOutcome(m', o)
  {
  }

  lemma StepKeeps(m: Machine, toks: seq<Token>, h: ErrorHandler)
    requires toks != []
    ensures KeepsOutcome(m, Step(m, toks, h))
  {
    var lexed := Lexed(m, toks);
    DispatchKeeps(lexed, toks[0], m.column, toks[1..], h);
    KeepsSameStart(lexed, m, Dispatch(lexed, toks[0], m.column, toks[1..], h));
  }

  lemma KeepsTrans(a: Machine, b: Machine, c: Machine)
    requires Keeps(a, b) && Keeps(b, c)
    ensures Keeps(a, c)
  {
  }

  lemma {:induction false} ExecKeeps(m: Machine, toks: seq<Token>, h: ErrorHandler)
    ensures KeepsOutcome(m, Exec(m, toks, h))
    decreases |toks|
  {
    if toks != [] {
      var o := Step(m, toks, h);
      StepKeeps(m, toks, h);
      if o.Continue? {
        var o2 := Exec(o.m, o.rest, h);
        ExecKeeps(o.m, o.rest, h);
        assert Exec(m, toks, h) == o2;
        KeepsTrans(m, o.m, o2.m);
      }
    }
  }

  /**
   * Over a whole call: no `CUE_HAVE_*` bit is ever cleared and every setting
   * that changed has its bit set; once the cue timings are read, the call can
   * no longer return -1 nor change `from` or `until`.
   */
  lemma {:induction false} RunKeeps(m: Machine, toks: seq<Token>, h: ErrorHandler)
    ensures var (r, m') := Run(m, toks, h);
      && Recorded(m.cue, m'.cue)
      && (!InTimings(m.state) ==> r != Rejected && m'.cue.from == m.cue.from && m'.cue.until == m.cue.until)
  {
    ExecKeeps(m, toks, h);
    match Exec(m, toks, h) {
      case Return(r, m1) =>
      case Continue(m1, _) =>
        var (r, m2) := Finish(m1, h);
        assert m2.cue == m1.cue;
    }
  }

  // ---------------------------------------------------------------------
  // Cue timings.

  /** Processing a token that does not end the call leaves the rest to the loop. */
  lemma ExecStep(m: Machine, toks: seq<Token>, h: ErrorHandler)
    requires toks != [] && Step(m, toks, h).Continue?
    ensures Exec(m, toks, h) == Exec(Step(m, toks, h).m, Step(m, toks, h).rest, h)
  {
  }

  lemma ExecStartTime(m: Machine, toks: seq<Token>, h: ErrorHandler)
    requires m.state.T1? && toks != [] && toks[0].kind == TimestampToken && TimestampOf(toks[0].text).ok
    ensures Exec(m, toks, h) == Exec(
      SetState(Lexed(m, toks).(cue := Lexed(m, toks).cue.(from := TimestampOf(toks[0].text).value)), T2),
      toks[1..], h)
  {
    ExecStep(m, toks, h);
  }

  lemma ExecEndTime(m: Machine, toks: seq<Token>, h: ErrorHandler)
    requires m.state.T5? && toks != [] && toks[0].kind == TimestampToken && TimestampOf(toks[0].text).ok
    ensures Exec(m, toks, h) == Exec(
      SetState(Lexed(m, toks).(cue := Lexed(m, toks).cue.(until := TimestampOf(toks[0].text).value)), CS0),
      toks[1..], h)
  {
    ExecStep(m, toks, h);
  }

  lemma ExecBlank(m: Machine, toks: seq<Token>, h: ErrorHandler)
    requires (m.state.T2? || m.state.T4?) && toks != [] && toks[0].kind == Whitespace
    ensures Exec(m, toks, h) == Exec(SetState(Lexed(m, toks), if m.state.T2? then T3 else T5), toks[1..], h)
  {
    ExecStep(m, toks, h);
  }

  lemma ExecArrow(m: Machine, toks: seq<Token>, h: ErrorHandler)
    requires m.state.T3? && toks != [] && toks[0].kind == Separator
    ensures Exec(m, toks, h) == Exec(SetState(Lexed(m, toks), T4), toks[1..], h)
  {
    ExecStep(m, toks, h);
  }

  /** The three steps over whitespace, "-->" and whitespace, machine by machine. */
  lemma ExecSeparatorSteps(m: Machine, toks: seq<Token>, h: ErrorHandler)
    requires m.state.T2? && |toks| >= 3
    requires toks[0].kind == Whitespace && toks[1].kind == Separator && toks[2].kind == Whitespace
    ensures Exec(m, toks, h) == Exec(
      SetState(Lexed(SetState(Lexed(SetState(Lexed(m, toks), T3), toks[1..]), T4), toks[2..]), T5), toks[2..][1..], h)
  {
    ExecBlank(m, toks, h);
    var m2 := SetState(Lexed(m, toks), T3);
    ExecArrow(m2, toks[1..], h);
    assert toks[1..][1..] == toks[2..];
    var m3 := SetState(Lexed(m2, toks[1..]), T4);
    ExecBlank(m3, toks[2..], h);
  }

  /** Whitespace, "-->", whitespace after the start time: on to the end time, nothing reported. */
  lemma ExecSeparator(m: Machine, toks: seq<Token>, h: ErrorHandler)
    requires m.state.T2? && |toks| >= 3
    requires toks[0].kind == Whitespace && toks[1].kind == Separator && toks[2].kind == Whitespace
    ensures Exec(m, toks, h) == Exec(
      m.(state := T5, badDelim := 0, column := m.column + |toks[0].text| + |toks[1].text| + |toks[2].text|),
      toks[3..], h)
  {
    ExecSeparatorSteps(m, toks, h);
    assert toks[2..][1..] == toks[3..];
    assert SetState(Lexed(SetState(Lexed(SetState(Lexed(m, toks), T3), toks[1..]), T4), toks[2..]), T5)
      == m.(state := T5, badDelim := 0, column := m.column + |toks[0].text| + |toks[1].text| + |toks[2].text|);
  }

  /** The end time as the last token: the timings are complete and the loop ends. */
  lemma ExecLastTime(m: Machine, toks: seq<Token>, h: ErrorHandler)
    requires m.state.T5? && |toks| == 1 && toks[0].kind == TimestampToken
    requires TimestampOf(toks[0].text).ok
    ensures Exec(m, toks, h) == Continue(
      m.(state := CS0, badDelim := 0, column := m.column + |toks[0].text|,
         cue := m.cue.(until := TimestampOf(toks[0].text).value)), [])
  {
    ExecEndTime(m, toks, h);
    assert toks[1..] == [];
  }

  /** " --> end" after the start time: the end time is stored and the settings begin. */
  lemma ExecSeparatorAndEnd(m: Machine, toks: seq<Token>, h: ErrorHandler)
    requires m.state.T2? && |toks| == 4
    requires toks[0].kind == Whitespace && toks[1].kind == Separator && toks[2].kind == Whitespace
    requires toks[3].kind == TimestampToken && TimestampOf(toks[3].text).ok
    ensures Exec(m, toks, h) == Continue(
      m.(state := CS0, badDelim := 0,
         column := m.column + |toks[0].text| + |toks[1].text| + |toks[2].text| + |toks[3].text|,
         cue := m.cue.(until := TimestampOf(toks[3].text).value)), [])
  {
    ExecSeparator(m, toks, h);
    var m4 := m.(state := T5, badDelim := 0, column := m.column + |toks[0].text| + |toks[1].text| + |toks[2].text|);
    ExecLastTime(m4, toks[3..], h);
  }

  /**
   * "start --> end" with well-formed timestamps and single blanks: the call
   * returns 0 without a report, with `from` and `until` parsed from the two
   * tokens and nothing else of the cue changed.
   */
  lemma {:induction false} WellFormedTimings(c: CueFields, line: nat, col: nat, toks: seq<Token>, h: ErrorHandler)
    requires |toks| == 5 && toks[0].kind == TimestampToken && toks[4].kind == TimestampToken
    requires toks[1].kind == Whitespace && toks[2].kind == Separator && toks[3].kind == Whitespace
    requires TimestampOf(toks[0].text).ok && TimestampOf(toks[4].text).ok
    ensures var (r, m') := Run(Initial(c, line, col), toks, h);
      && r == Done && m'.log == [] && m'.state == CS0
      && m'.cue == c.(from := TimestampOf(toks[0].text).value, until := TimestampOf(toks[4].text).value)
  {
    var m0 := Initial(c, line, col);
    ExecStartTime(m0, toks, h);
    var m1 := SetState(Lexed(m0, toks).(cue := Lexed(m0, toks).cue.(from := TimestampOf(toks[0].text).value)), T2);
    assert toks[1..][3] == toks[4];
    ExecSeparatorAndEnd(m1, toks[1..], h);
  }

  /** A token that ends the call ends the loop with it. */
  lemma ExecStop(m: Machine, toks: seq<Token>, h: ErrorHandler)
    requires toks != [] && Step(m, toks, h).Return?
    ensures Exec(m, toks, h) == Step(m, toks, h)
  {
  }

  /**
   * Anything but whitespace or a timestamp first: EXPECTED_TIMESTAMP at the
   * column the token starts at, and -1 (or WEBVTT_PARSE_ERROR when the
   * callback refuses the report); the cue is untouched.
   */
  lemma {:induction false} NotATimestamp(c: CueFields, line: nat, col: nat, toks: seq<Token>, h: ErrorHandler)
    requires toks != [] && toks[0].kind != Whitespace && toks[0].kind != TimestampToken
    ensures var (r, m') := Run(Initial(c, line, col), toks, h);
      && m'.log == [Report(ExpectedTimestamp, line, col)] && m'.cue == c
      && r == (if Continues(h, [Report(ExpectedTimestamp, line, col)]) then Rejected else Aborted)
  {
    var m0 := Initial(c, line, col);
    ExecStop(m0, toks, h);
  }

  /** After the last token, timings still unfinished: UNFINISHED_CUETIMES at the current column. */
  lemma FinishInTimings(m: Machine, h: ErrorHandler)
    requires InTimings(m.state)
    ensures var m1 := Raise(m, UnfinishedCuetimes, m.column);
      Finish(m, h) == (if Continues(h, m1.log) then Rejected else Aborted, m1)
  {
  }

  /** A timestamp where "-->" is due: the separator is reported and, if the callback accepts, the token is read as the end time. */
  lemma ExecMissingArrow(m: Machine, toks: seq<Token>, h: ErrorHandler)
    requires m.state.T3? && toks != [] && toks[0].kind == TimestampToken && TimestampOf(toks[0].text).ok
    requires Continues(h, Raise(Lexed(m, toks), MissingCuetimeSeparator, Lexed(m, toks).column).log)
    ensures var m2 := SetState(Raise(Lexed(m, toks), MissingCuetimeSeparator, Lexed(m, toks).column), T5);
      Exec(m, toks, h) ==
        Exec(SetState(m2.(cue := m2.cue.(until := TimestampOf(toks[0].text).value)), CS0), toks[1..], h)
  {
    ExecStep(m, toks, h);
  }

  /** ... and if the callback refuses the report, the call ends there. */
  lemma ExecMissingArrowRefused(m: Machine, toks: seq<Token>, h: ErrorHandler)
    requires m.state.T3? && toks != [] && toks[0].kind == TimestampToken
    requires !Continues(h, Raise(Lexed(m, toks), MissingCuetimeSeparator, Lexed(m, toks).column).log)
    ensures Exec(m, toks, h) == Return(Aborted, Raise(Lexed(m, toks), MissingCuetimeSeparator, Lexed(m, toks).column))
  {
    ExecStop(m, toks, h);
  }

  /**
   * CP_T4 with the state set to CP_T5 before the token is re-examined: a
   * timestamp right after "-->" is reported once as EXPECTED_WHITESPACE, at
   * the column it starts at, and, when the callback accepts, read as the end time.
   */
  lemma ExecT4Timestamp(m: Machine, toks: seq<Token>, h: ErrorHandler)
    requires m.state.T4? && toks != [] && toks[0].kind == TimestampToken && TimestampOf(toks[0].text).ok
    requires Continues(h, m.log + [Report(ExpectedWhitespace, m.line, m.column)])
    ensures var m2 := SetState(Raise(Lexed(m, toks), ExpectedWhitespace, m.column), T5);
      Exec(m, toks, h) ==
        Exec(SetState(m2.(cue := m2.cue.(until := TimestampOf(toks[0].text).value)), CS0), toks[1..], h)
  {
    ExecStep(m, toks, h);
  }

  // ---------------------------------------------------------------------
  // Faulty cue times and leading whitespace, through the whole loop.

  /**
   * A start or end timestamp that only yields the sentinel: its value is
   * stored, EXPECTED_TIMESTAMP is reported at the column the token starts at,
   * and the call returns -1 (WEBVTT_PARSE_ERROR if the callback refuses).
   */
  lemma ExecSentinelTime(m: Machine, toks: seq<Token>, h: ErrorHandler)
    requires (m.state.T1? || m.state.T5?) && toks != [] && toks[0].kind == TimestampToken
    requires !TimestampOf(toks[0].text).ok && TimestampOf(toks[0].text).value == Sentinel
    ensures var l := Lexed(m, toks);
      var m1 := Raise(if m.state.T5? then l.(cue := l.cue.(until := Sentinel)) else l.(cue := l.cue.(from := Sentinel)),
                      ExpectedTimestamp, m.column);
      Exec(m, toks, h) == Return(if Continues(h, m1.log) then Rejected else Aborted, m1)
  {
    ExecStop(m, toks, h);
  }

  /**
   * A malformed start or end timestamp that is not the sentinel: its value is
   * stored, MALFORMED_TIMESTAMP is reported at the column the token starts at,
   * and, if the callback accepts, parsing goes on in the next state, skipping
   * to the next blank when the token does not end in a digit.
   */
  lemma ExecMalformedTime(m: Machine, toks: seq<Token>, h: ErrorHandler)
    requires (m.state.T1? || m.state.T5?) && toks != [] && toks[0].kind == TimestampToken
    requires !TimestampOf(toks[0].text).ok && TimestampOf(toks[0].text).value != Sentinel
    ensures var l := Lexed(m, toks);
      var v := TimestampOf(toks[0].text).value;
      var m1 := Raise(if m.state.T5? then l.(cue := l.cue.(until := v)) else l.(cue := l.cue.(from := v)),
                      MalformedTimestamp, m.column);
      var rest := if IsDigit(LastByte(toks[0].text)) then toks[1..] else SkipToBlank(toks[1..]);
      Exec(m, toks, h) ==
        if Continues(h, m1.log) then Exec(SetState(m1, if m.state.T5? then CS0 else T2), rest, h)
        else Return(Aborted, m1)
  {
    var l := Lexed(m, toks);
    var v := TimestampOf(toks[0].text).value;
    var m1 := Raise(if m.state.T5? then l.(cue := l.cue.(until := v)) else l.(cue := l.cue.(from := v)),
                    MalformedTimestamp, m.column);
    if Continues(h, m1.log) {
      ExecStep(m, toks, h);
    } else {
      ExecStop(m, toks, h);
    }
  }

  /**
   * The first whitespace before the start time is reported as
   * UNEXPECTED_WHITESPACE at the column after it, and remembered.
   */
  lemma ExecLeadingBlank(m: Machine, toks: seq<Token>, h: ErrorHandler)
    requires m.state.T1? && !m.unexpectedWs && toks != [] && toks[0].kind == Whitespace
    ensures var m1 := Raise(Lexed(m, toks), UnexpectedWhitespace, Lexed(m, toks).column);
      Exec(m, toks, h) ==
        if Continues(h, m1.log) then Exec(m1.(unexpectedWs := true), toks[1..], h) else Return(Aborted, m1)
  {
    var m1 := Raise(Lexed(m, toks), UnexpectedWhitespace, Lexed(m, toks).column);
    if Continues(h, m1.log) {
      ExecStep(m, toks, h);
    } else {
      ExecStop(m, toks, h);
    }
  }

  /** ... and is reported only once: a second whitespace is where a timestamp is due. */
  lemma ExecSecondBlank(m: Machine, toks: seq<Token>, h: ErrorHandler)
    requires m.state.T1? && m.unexpectedWs && toks != [] && toks[0].kind == Whitespace
    ensures var m1 := Raise(Lexed(m, toks), ExpectedTimestamp, m.column);
      Exec(m, toks, h) == Return(if Continues(h, m1.log) then Rejected else Aborted, m1)
  {
    ExecStop(m, toks, h);
  }

  /**
   * Where the end time is due, anything but whitespace or a timestamp:
   * EXPECTED_TIMESTAMP at the column the token starts at, and -1 (or
   * WEBVTT_PARSE_ERROR when the callback refuses); the cue is untouched.
   */
  lemma ExecNotAnEndTime(m: Machine, toks: seq<Token>, h: ErrorHandler)
    requires m.state.T5? && toks != [] && toks[0].kind != Whitespace && toks[0].kind != TimestampToken
    ensures var m1 := Raise(Lexed(m, toks), ExpectedTimestamp, m.column);
      && Exec(m, toks, h) == Return(if Continues(h, m1.log) then Rejected else Aborted, m1)
      && m1.cue == m.cue
  {
    ExecStop(m, toks, h);
  }

  /**
   * Where "-->" is due, anything but whitespace, "-->" or a timestamp:
   * EXPECTED_CUETIME_SEPARATOR at the column the token starts at, and -1 (or
   * WEBVTT_PARSE_ERROR when the callback refuses); the cue is untouched.
   */
  lemma ExecNotAnArrow(m: Machine, toks: seq<Token>, h: ErrorHandler)
    requires m.state.T3? && toks != []
    requires toks[0].kind != Whitespace && toks[0].kind != Separator && toks[0].kind != TimestampToken
    ensures var m1 := Raise(Lexed(m, toks), ExpectedCuetimeSeparator, m.column);
      && Exec(m, toks, h) == Return(if Continues(h, m1.log) then Rejected else Aborted, m1)
      && m1.cue == m.cue
  {
    ExecStop(m, toks, h);
  }

  // ---------------------------------------------------------------------
  // One `keyword:value` setting, through the whole loop.

  /** A setting keyword after whitespace, with no bad delimiter pending: the keyword state, no report. */
  lemma ExecKeyword(m: Machine, toks: seq<Token>, h: ErrorHandler)
    requires m.state.CS0? && m.haveWs != 0 && m.badDelim == 0
    requires toks != [] && toks[0].kind in {Vertical, Position, Align, Size, Line}
    ensures Exec(m, toks, h) == Exec(SetState(Lexed(m, toks).(haveWs := 0), KeywordState(toks[0].kind)), toks[1..], h)
  {
    assert Step(m, toks, h) == PreSetting(Lexed(m, toks), toks[0], m.column, toks[1..], h);
    ExecStep(m, toks, h);
  }

  /** ':' right after a setting keyword: the value state, no report. */
  lemma ExecColon(m: Machine, toks: seq<Token>, h: ErrorHandler)
    requires m.state.V1? || m.state.P1? || m.state.A1? || m.state.S1? || m.state.L1?
    requires m.haveWs == 0 && toks != [] && toks[0].kind == Colon
    ensures Exec(m, toks, h) == Exec(SetState(Lexed(m, toks), ValueState(m.state)), toks[1..], h)
  {
    assert Step(m, toks, h) == Delimiter(Lexed(m, toks), toks[0], m.column, toks[1..], h);
    ExecStep(m, toks, h);
  }

  /**
   * After whitespace and with no bad delimiter pending, a setting keyword and
   * ':' lead, with no report, to the keyword's value state.
   */
  lemma ExecKeywordColon(m: Machine, toks: seq<Token>, h: ErrorHandler)
    requires m.state.CS0? && m.haveWs != 0 && m.badDelim == 0
    requires |toks| >= 2 && toks[0].kind in {Vertical, Position, Align, Size, Line} && toks[1].kind == Colon
    ensures Exec(m, toks, h) == Exec(
      m.(state := ValueState(KeywordState(toks[0].kind)), haveWs := 0,
         column := m.column + |toks[0].text| + |toks[1].text|),
      toks[2..], h)
  {
    var m1 := SetState(Lexed(m, toks).(haveWs := 0), KeywordState(toks[0].kind));
    ExecKeyword(m, toks, h);
    assert toks[1..][0] == toks[1] && toks[1..][1..] == toks[2..];
    ExecColon(m1, toks[1..], h);
    assert SetState(Lexed(m1, toks[1..]), ValueState(m1.state)) ==
      m.(state := ValueState(KeywordState(toks[0].kind)), haveWs := 0,
         column := m.column + |toks[0].text| + |toks[1].text|);
  }

  /** A value token of the right form: the field and bit `Setting` says, back to CP_CS0, no report. */
  lemma ValueTokenWrites(m: Machine, tok: Token, lc: nat, rest: seq<Token>, h: ErrorHandler)
    requires m.state.V2? || m.state.P2? || m.state.A2? || m.state.S2? || m.state.L2?
    requires tok.kind != Whitespace && Setting(m.cue, FlagOf(m.state), tok).Some?
    requires tok.kind == Percentage ==> ScanInt(tok.text, 0).value >= 0
    ensures ValueToken(m, tok, lc, rest, h) ==
      Continue(m.(state := CS0, badDelim := 0, haveWs := if m.state.V2? || m.state.A2? then 0 else m.haveWs,
                  cue := Setting(m.cue, FlagOf(m.state), tok).value), rest)
  {
    if m.state.V2? || m.state.A2? {
      assert ValueToken(m, tok, lc, rest, h) == KeywordValue(m, tok, lc, rest, h);
    } else {
      assert ValueToken(m, tok, lc, rest, h) == NumericValue(m, tok, lc, rest, h);
    }
  }

  /** A value token of the wrong form: the setting's bad-value path. */
  lemma ValueTokenBad(m: Machine, tok: Token, lc: nat, rest: seq<Token>, h: ErrorHandler)
    requires m.state.V2? || m.state.P2? || m.state.A2? || m.state.S2? || m.state.L2?
    requires tok.kind != Whitespace && Setting(m.cue, FlagOf(m.state), tok).None?
    ensures ValueToken(m, tok, lc, rest, h) == BadValue(m, BadValueError(FlagOf(m.state)), lc, rest, h)
  {
    if m.state.V2? || m.state.A2? {
      assert ValueToken(m, tok, lc, rest, h) == KeywordValue(m, tok, lc, rest, h);
    } else {
      assert ValueToken(m, tok, lc, rest, h) == MeasureValue(m, tok, lc, rest, h);
    }
  }

  /** In a value state, the lexed token goes to the value handling. */
  lemma StepValue(m: Machine, toks: seq<Token>, h: ErrorHandler)
    requires m.state.V2? || m.state.P2? || m.state.A2? || m.state.S2? || m.state.L2?
    requires toks != []
    ensures Step(m, toks, h) == Value(Lexed(m, toks), toks[0], m.column, toks[1..], h)
  {
  }

  /**
   * A value of the right form for a setting not yet set: the field and its
   * `CUE_HAVE_*` bit are written as `Setting` says, nothing is reported, and
   * parsing goes on in CP_CS0.
   */
  lemma ExecValue(m: Machine, toks: seq<Token>, h: ErrorHandler)
    requires m.state.V2? || m.state.P2? || m.state.A2? || m.state.S2? || m.state.L2?
    requires FlagOf(m.state) !in m.cue.flags
    requires toks != [] && toks[0].kind != Whitespace && Setting(m.cue, FlagOf(m.state), toks[0]).Some?
    requires toks[0].kind == Percentage ==> ScanInt(toks[0].text, 0).value >= 0
    ensures Exec(m, toks, h) == Exec(
      Lexed(m, toks).(state := CS0, badDelim := 0, haveWs := if m.state.V2? || m.state.A2? then 0 else m.haveWs,
                      cue := Setting(m.cue, FlagOf(m.state), toks[0]).value),
      toks[1..], h)
  {
    StepValue(m, toks, h);
    ValueTokenWrites(Lexed(m, toks), toks[0], m.column, toks[1..], h);
    ExecStep(m, toks, h);
  }

  /**
   * A second value for a setting: its ALREADY_SET error is reported at the
   * column the token starts at; if the callback accepts, a value of the right
   * form then overwrites the first one, as for a setting not yet set.
   */
  lemma ExecAlreadySet(m: Machine, toks: seq<Token>, h: ErrorHandler)
    requires m.state.V2? || m.state.P2? || m.state.A2? || m.state.S2? || m.state.L2?
    requires FlagOf(m.state) in m.cue.flags && toks != []
    ensures var m1 := Raise(Lexed(m, toks), AlreadySetError(FlagOf(m.state)), m.column);
      !Continues(h, m1.log) ==> Exec(m, toks, h) == Return(Aborted, m1)
    ensures var m1 := Raise(Lexed(m, toks), AlreadySetError(FlagOf(m.state)), m.column);
      Continues(h, m1.log) && toks[0].kind != Whitespace && Setting(m.cue, FlagOf(m.state), toks[0]).Some? &&
      (toks[0].kind == Percentage ==> ScanInt(toks[0].text, 0).value >= 0) ==>
        Exec(m, toks, h) == Exec(
          m1.(state := CS0, badDelim := 0, haveWs := if m.state.V2? || m.state.A2? then 0 else m.haveWs,
              cue := Setting(m.cue, FlagOf(m.state), toks[0]).value),
          toks[1..], h)
  {
    var m1 := Raise(Lexed(m, toks), AlreadySetError(FlagOf(m.state)), m.column);
    StepValue(m, toks, h);
    if !Continues(h, m1.log) {
      ExecStop(m, toks, h);
    } else if toks[0].kind != Whitespace && Setting(m.cue, FlagOf(m.state), toks[0]).Some? &&
              (toks[0].kind == Percentage ==> ScanInt(toks[0].text, 0).value >= 0) {
      ValueTokenWrites(m1, toks[0], m.column, toks[1..], h);
      ExecStep(m, toks, h);
    }
  }

  /**
   * A value of the wrong form for a setting not yet set: the setting's
   * BAD_VALUE error is reported at the column the token starts at, the cue is
   * left as it was, and, if the callback accepts, parsing goes on in CP_CS0
   * after skipping to the next blank.
   */
  lemma ExecBadValue(m: Machine, toks: seq<Token>, h: ErrorHandler)
    requires m.state.V2? || m.state.P2? || m.state.A2? || m.state.S2? || m.state.L2?
    requires FlagOf(m.state) !in m.cue.flags
    requires toks != [] && toks[0].kind != Whitespace && Setting(m.cue, FlagOf(m.state), toks[0]).None?
    ensures var m1 := Raise(Lexed(m, toks), BadValueError(FlagOf(m.state)), m.column);
      Exec(m, toks, h) ==
        if Continues(h, m1.log) then Exec(SetState(m1, CS0), SkipToBlank(toks[1..]), h) else Return(Aborted, m1)
  {
    var m1 := Raise(Lexed(m, toks), BadValueError(FlagOf(m.state)), m.column);
    StepValue(m, toks, h);
    ValueTokenBad(Lexed(m, toks), toks[0], m.column, toks[1..], h);
    if Continues(h, m1.log) {
      ExecStep(m, toks, h);
    } else {
      ExecStop(m, toks, h);
    }
  }

  /** `ExecValue`, with the machine it leads to given by the caller. */
  lemma ExecValueFrom(m: Machine, toks: seq<Token>, h: ErrorHandler, m': Machine)
    requires m.state.V2? || m.state.P2? || m.state.A2? || m.state.S2? || m.state.L2?
    requires FlagOf(m.state) !in m.cue.flags && m.haveWs == 0
    requires toks != [] && toks[0].kind != Whitespace && Setting(m.cue, FlagOf(m.state), toks[0]).Some?
    requires toks[0].kind == Percentage ==> ScanInt(toks[0].text, 0).value >= 0
    requires m' == Lexed(m, toks).(state := CS0, badDelim := 0, cue := Setting(m.cue, FlagOf(m.state), toks[0]).value)
    ensures Exec(m, toks, h) == Exec(m', toks[1..], h)
  {
    ExecValue(m, toks, h);
  }

  /**
   * A whole new setting after whitespace in CP_CS0: keyword, ':' and a value
   * of the right form write the field and its `CUE_HAVE_*` bit as `Setting`
   * says and return to CP_CS0, with nothing reported.
   */
  lemma ExecSetting(m: Machine, toks: seq<Token>, h: ErrorHandler)
    requires m.state.CS0? && m.haveWs != 0 && m.badDelim == 0
    requires |toks| >= 3 && toks[0].kind in {Vertical, Position, Align, Size, Line} && toks[1].kind == Colon
    requires var f := FlagOf(ValueState(KeywordState(toks[0].kind)));
      && f !in m.cue.flags && toks[2].kind != Whitespace && Setting(m.cue, f, toks[2]).Some?
      && (toks[2].kind == Percentage ==> ScanInt(toks[2].text, 0).value >= 0)
    ensures Exec(m, toks, h) == Exec(
      m.(state := CS0, haveWs := 0, column := m.column + |toks[0].text| + |toks[1].text| + |toks[2].text|,
         cue := Setting(m.cue, FlagOf(ValueState(KeywordState(toks[0].kind))), toks[2]).value),
      toks[3..], h)
  {
    var m2 := m.(state := ValueState(KeywordState(toks[0].kind)), haveWs := 0,
                 column := m.column + |toks[0].text| + |toks[1].text|);
    var m3 := m.(state := CS0, haveWs := 0, column := m2.column + |toks[2].text|,
                 cue := Setting(m.cue, FlagOf(m2.state), toks[2]).value);
    assert toks[2..][0] == toks[2] && toks[2..][1..] == toks[3..];
    ExecValueFrom(m2, toks[2..], h, m3);
    ExecKeywordColon(m, toks, h);
    assert Exec(m, toks, h) == Exec(m2, toks[2..], h);
    assert Exec(m, toks, h) == Exec(m3, toks[3..], h);
    assert m3 == m.(state := CS0, haveWs := 0, column := m.column + |toks[0].text| + |toks[1].text| + |toks[2].text|,
                    cue := Setting(m.cue, FlagOf(ValueState(KeywordState(toks[0].kind))), toks[2]).value);
  }

  /** `n` copies of one report. */
  function Repeated(r: Report, n: nat): (s: seq<Report>)
    ensures |s| == n && forall i :: 0 <= i < n ==> s[i] == r
  {
    seq(n, _ => r)
  }

  /**
   * CP_T4 as written, with a callback that accepts every report (one that
   * always returns 0, say): however
   * many passes are allowed, the call has not returned, and each pass has
   * added one more EXPECTED_WHITESPACE report for the same token.
   */
  lemma {:induction false} T4AsWrittenNeverLeaves(m: Machine, lastColumn: nat, h: ErrorHandler, fuel: nat)
    requires forall log :: Continues(h, log)
    ensures T4AsWritten(m, lastColumn, h, fuel) ==
      (false, m.(log := m.log + Repeated(Report(ExpectedWhitespace, m.line, lastColumn), fuel)))
    decreases fuel
  {
    if fuel > 0 {
      var rep := Report(ExpectedWhitespace, m.line, lastColumn);
      var m1 := Raise(m, ExpectedWhitespace, lastColumn);
      T4AsWrittenNeverLeaves(m1, lastColumn, h, fuel - 1);
      assert m1.log + Repeated(rep, fuel - 1) == m.log + Repeated(rep, fuel);
    } else {
      assert m.log + Repeated(Report(ExpectedWhitespace, m.line, lastColumn), 0) == m.log;
    }
  }
}

=== FILE: errors.dfy ===
/**
 * Error kinds, the message table behind `webvtt_strerror`
 * (src/libwebvtt/error.c), and the error callback the parser reports
 * through (the `ERROR` macro of src/libwebvtt/parser.h).
 */
module Errors {

  /**
   * The `webvtt_error` enumeration of include/webvtt/error.h, in order, followed
   * by five kinds src/libwebvtt/parser.c reports that the enumeration does not
   * declare (they have no code and no message).
   */
  datatype ErrorKind =
    | AllocationFailed
    | MalformedTag
    | ExpectedEol
    | ExpectedWhitespace
    | LongComment
    | IdTruncated
    | MalformedTimestamp
    | ExpectedTimestamp
    | MissingCuetimeSeparator
    | MissingCuesettingDelimiter
    | InvalidEndtime
    | InvalidCuesetting
    | VerticalAlreadySet
    | VerticalBadValue
    | LineAlreadySet
    | LineBadValue
    | PositionAlreadySet
    | PositionBadValue
    | SizeAlreadySet
    | SizeBadValue
    | AlignAlreadySet
    | AlignBadValue
    | CueContainsSeparator
    | CueIncomplete
    // used by parse_cueparams, absent from the enumeration
    | UnexpectedWhitespace
    | ExpectedCuetimeSeparator
    | InvalidCuesettingDelimiter
    | MissingCuesettingKeyword
    | UnfinishedCuetimes

  /** The enumerators of `webvtt_error`, indexed by their numeric value. */
  const Enumerators: seq<ErrorKind> := [
    AllocationFailed, MalformedTag, ExpectedEol, ExpectedWhitespace, LongComment,
    IdTruncated, MalformedTimestamp, ExpectedTimestamp, MissingCuetimeSeparator,
    MissingCuesettingDelimiter, InvalidEndtime, InvalidCuesetting,
    VerticalAlreadySet, VerticalBadValue, LineAlreadySet, LineBadValue,
    PositionAlreadySet, PositionBadValue, SizeAlreadySet, SizeBadValue,
    AlignAlreadySet, AlignBadValue, CueContainsSeparator, CueIncomplete
  ]

  predicate InErrorEnum(e: ErrorKind)
  {
    !(e.UnexpectedWhitespace? || e.ExpectedCuetimeSeparator? || e.InvalidCuesettingDelimiter?
      || e.MissingCuesettingKeyword? || e.UnfinishedCuetimes?)
  }

  /** The numeric value C gives an enumerator (`WEBVTT_ALLOCATION_FAILED = 0`, then +1 each). */
  function Code(e: ErrorKind): (c: nat)
    requires InErrorEnum(e)
  {
    match e
    case AllocationFailed => 0
    case MalformedTag => 1
    case ExpectedEol => 2
    case ExpectedWhitespace => 3
    case LongComment => 4
    case IdTruncated => 5
    case MalformedTimestamp => 6
    case ExpectedTimestamp => 7
    case MissingCuetimeSeparator => 8
    case MissingCuesettingDelimiter => 9
    case InvalidEndtime => 10
    case InvalidCuesetting => 11
    case VerticalAlreadySet => 12
    case VerticalBadValue => 13
    case LineAlreadySet => 14
    case LineBadValue => 15
    case PositionAlreadySet => 16
    case PositionBadValue => 17
    case SizeAlreadySet => 18
    case SizeBadValue => 19
    case AlignAlreadySet => 20
    case AlignBadValue => 21
    case CueContainsSeparator => 22
    case CueIncomplete => 23
  }

  /** Each enumerator sits in the table at its code. */
  lemma CodeIsPosition(e: ErrorKind)
    requires InErrorEnum(e)
    ensures Code(e) < |Enumerators| && Enumerators[Code(e)] == e
  {
  }

  /** The C `int` an enumeration value is held in. */
  type int32 = x: int | -0x8000_0000 <= x < 0x8000_0000

  /** `errstr`: one message per enumerator, in enumeration order. */
  const Messages: seq<string> := [
    "error allocating object",
    "malformed 'WEBVTT' tag",
    "expected newline",
    "expected whitespace",
    "very long tag-comment",
    "webvtt-cue-id truncated",
    "malformed webvtt-timestamp",
    "expected webvtt-timestamp",
    "missing webvtt-cuetime-separator `-->'",
    "missing whitespace before webvtt-cuesetting",
    "webvtt-cue end-time must have value greater than start-time",
    "unrecognized webvtt-cue-setting",
    "'vertical' cue-setting already used",
    "'vertical' setting must have a value of either 'lr' or 'rl'",
    "'line' cue-setting already used",
    "'line' cue-setting must have a value that is an integer (signed) line number, or percentage (%) from top of video display",
    "'position' cue-setting already used",
    "'position' cue-setting must be a percentage (%) value representing the position in the direction orthogonal to the 'line' setting",
    "'size' cue-setting already used",
    "'size' cue-setting must have percentage (%) value",
    "'align' cue-setting already used",
    "'align' cue-setting must have a value of either 'start', 'middle', or 'end'",
    "cue-text line contains unescaped timestamp separator '-->'",
    "cue contains cue-id, but is missing cuetimes or cue text"
  ]

  lemma MessagesNonEmpty()
    ensures |Messages| == 24
    ensures forall i :: 0 <= i < |Messages| ==> |Messages[i]| > 0
  {
  }

  /**
   * `webvtt_strerror`: the code is compared, as an unsigned size, with the
   * table length; a code outside the table (a negative one included, which the
   * comparison turns into a huge unsigned value) gives the empty string.
   */
  function StrError(code: int32): (r: string)
    ensures r == "" <==> code < 0 || code >= |Messages|
    ensures 0 <= code < |Messages| ==> r == Messages[code]
  {
    var unsigned := code % 0x1_0000_0000_0000_0000;
    MessagesNonEmpty();
    if unsigned >= |Messages| then "" else Messages[unsigned]
  }

  /** Every enumerator has its own non-empty message: the one at its code. */
  lemma {:induction false} MessageOfEachError(e: ErrorKind)
    requires InErrorEnum(e)
    ensures |Messages| == |Enumerators|
    ensures StrError(Code(e)) != "" && StrError(Code(e)) == Messages[Code(e)]
  {
    CodeIsPosition(e);
  }

  /** The `webvtt_status` values the modelled functions return. */
  datatype Status = Success | OutOfMemory | InvalidParam | ParseError

  /** One error event as the callback receives it. */
  datatype Report = Report(error: ErrorKind, line: nat, column: nat)

  /**
   * The parser's error callback, or none. The callback may keep state of its
   * own, so its answer is a function of every report it has been given, the
   * new one last; a negative answer asks the parser to stop.
   */
  datatype ErrorHandler = NoHandler | Handler(decide: seq<Report> -> int)

  /**
   * The `ERROR` macro: after `log` has received the new report, parsing goes on
   * only when there is a callback and it returned a non-negative value.
   */
  predicate Continues(h: ErrorHandler, log: seq<Report>)
  {
    h.Handler? && h.decide(log) >= 0
  }
}

=== FILE: nodes.dfy ===
/**
 * The reference-counted cue-text nodes of src/libwebvtt/node.c and the
 * growable child lists of src/libwebvtt/node_list.c.
 *
 * A C pointer that a function writes through (`webvtt_node **`,
 * `webvtt_node_list **`) is a slot object holding a possibly-null reference.
 * Freeing an object marks it `dead`; its storage stays reachable in the model
 * so that what happened to it can be stated. Allocation is an oracle that may
 * refuse.
 *
 * Releasing a node can release its child list, which releases the children,
 * and so on down. Each node and list carries a ghost `rank`: a node's list has
 * a lower rank than the node, and a list's children lower ranks than the list.
 * `Closed` says this of a set of nodes and lists, and the rank is what the
 * recursive release decreases.
 */
module Nodes {
  import opened Errors

  /**
   * `webvtt_node_kind`. Only the kinds node.c names are distinguished; the
   * markup kinds the cue-text parser builds are the internal ones.
   */
  datatype NodeKind =
    | Class | Italic | Bold | Underline | Ruby | RubyText | Voice | Lang
    | HeadNode | Text | TimeStamp | EmptyNode

  /** `WEBVTT_IS_LEAF`: text and timestamp nodes hold a value, not children. */
  predicate IsLeaf(k: NodeKind)
  {
    k == Text || k == TimeStamp
  }

  class Node {
    var refs: int
    var kind: NodeKind
    var parent: Node?
    var timestamp: nat
    var text: string
    var cssClasses: seq<string>
    var annotation: string
    /** The child list of the internal data; null when there is no internal data. */
    var list: NodeList?
    var dead: bool
    ghost const rank: nat

    /** `webvtt_alloc0` of a node: every field zero. */
    constructor (ghost rank: nat)
      ensures refs == 0 && kind == Class && parent == null && timestamp == 0
      ensures text == "" && cssClasses == [] && annotation == "" && list == null
      ensures !dead && this.rank == rank
    {
      refs, kind, parent, timestamp := 0, Class, null, 0;
      text, cssClasses, annotation, list := "", [], "", null;
      dead := false;
      this.rank := rank;
    }
  }

  class NodeList {
    var refs: int
    var alloc: nat
    var length: nat
    /** The `children` array: `alloc` slots, the first `length` in use. */
    var children: seq<Node?>
    var dead: bool
    ghost const rank: nat

    /** What `webvtt_create_node_list` and `webvtt_node_list_push` keep. */
    predicate Valid()
      reads this
    {
      |children| == alloc && (if alloc == 0 then length == 0 else length < alloc)
    }

    /** `webvtt_alloc0` of a list: every field zero. */
    constructor (ghost rank: nat)
      ensures refs == 0 && alloc == 0 && length == 0 && children == [] && !dead
      ensures this.rank == rank
    {
      refs, alloc, length, children, dead := 0, 0, 0, [], false;
      this.rank := rank;
    }
  }

  /** A `webvtt_node **` a function writes through. */
  class NodeSlot {
    var node: Node?
    constructor (node: Node?)
      ensures this.node == node
    {
      this.node := node;
    }
  }

  /** A `webvtt_node_list **` a function writes through. */
  class ListSlot {
    var list: NodeList?
    constructor (list: NodeList?)
      ensures this.list == list
    {
      this.list := list;
    }
  }

  /**
   * Nodes `N` and lists `L` are closed under the links a release follows, and
   * the ranks go down along them.
   */
  ghost predicate Closed(N: set<Node>, L: set<NodeList>)
    reads N, L
  {
    (forall n :: n in N && n.list != null ==> n.list in L && n.list.rank < n.rank) &&
    (forall l :: l in L ==> l.length <= |l.children|) &&
    (forall l, i :: l in L && 0 <= i < l.length && l.children[i] != null ==>
       l.children[i] in N && l.children[i].rank < l.rank)
  }

  /**
   * The slot count a successful push leaves: 8 for a list without storage,
   * twice as many when the new length would reach two thirds of them.
   */
  function GrownAlloc(alloc: nat, length: nat): (a: nat)
    ensures alloc == 0 && length == 0 ==> a == 8
    ensures alloc != 0 ==> a == alloc || a == 2 * alloc
    ensures a == 2 * alloc <==> alloc != 0 && length + 1 >= (alloc / 3) * 2
    ensures (alloc == 0 ==> length == 0) && (alloc != 0 ==> length < alloc) ==> length + 1 < a
  {
    var first := if alloc == 0 then 8 else alloc;
    if length + 1 >= (first / 3) * 2 then 2 * first else first
  }

  /**
   * `webvtt_node_list_push`: a NULL list or node is refused; the first push
   * allocates 8 slots, and a push that finds the list two-thirds full
   * allocates twice the slots and copies the children over. The node goes in
   * at index `length` and gains a reference.
   */
  method NodeListPush(list: NodeList?, node: Node?, allocOk: nat -> bool) returns (status: Status)
    requires list != null ==> list.Valid()
    modifies list, node
    ensures list == null || node == null ==> status == InvalidParam
    ensures list != null ==> list.Valid()
    ensures status != Success && list != null ==> unchanged(list)
    ensures status != Success && node != null ==> unchanged(node)
    ensures list != null && node != null ==>
      var grown := GrownAlloc(old(list.alloc), old(list.length));
      status == (if grown != old(list.alloc) && !allocOk(grown) then OutOfMemory else Success)
    ensures status == Success ==>
      && list.length == old(list.length) + 1
      && list.children[..list.length] == old(list.children[..list.length]) + [node]
      && list.alloc == GrownAlloc(old(list.alloc), old(list.length))
      && node.refs == old(node.refs) + 1 && node.list == old(node.list)
      && list.refs == old(list.refs)
      && list.dead == old(list.dead)
    ensures node != null ==>
      unchanged(node`kind, node`parent, node`timestamp, node`text, node`cssClasses, node`annotation, node`list, node`dead)
  {
    if list == null || node == null {
      return InvalidParam;
    }
    if list.alloc == 0 {
      if !allocOk(8) {
        return OutOfMemory;
      }
      list.children := seq(8, _ => null);
      list.alloc := 8;
    }
    if list.length + 1 >= (list.alloc / 3) * 2 {
      if !allocOk(list.alloc * 2) {
        return OutOfMemory;
      }
      list.children := list.children[..list.length] + seq(list.alloc * 2 - list.length, _ => null);
      list.alloc := list.alloc * 2;
    }
    list.children := list.children[list.length := node];
    list.length := list.length + 1;
    node.refs := node.refs + 1;
    return Success;
  }

  /**
   * `webvtt_release_node` once the slot has been read: one reference goes;
   * at zero the node is freed, and with it its text (a text node) or its
   * classes, annotation and child list (an internal node with internal data).
   */
  method DropNode(n: Node, ghost N: set<Node>, ghost L: set<NodeList>)
    requires n in N && Closed(N, L)
    modifies N, L
    decreases n.rank, 1
    ensures Closed(N, L)
    ensures forall m :: m in N ==> m.refs <= old(m.refs)
    ensures n.refs == old(n.refs) - 1
    ensures n.dead == (old(n.dead) || n.refs == 0)
    ensures n.kind == old(n.kind) && n.parent == old(n.parent) && n.timestamp == old(n.timestamp)
    ensures n.text == (if n.refs == 0 && n.kind == Text then "" else old(n.text))
    ensures n.refs == 0 && !IsLeaf(n.kind) && old(n.list) != null ==>
      n.list == null && n.cssClasses == [] && n.annotation == ""
    ensures n.refs != 0 || IsLeaf(n.kind) || old(n.list) == null ==>
      n.list == old(n.list) && n.cssClasses == old(n.cssClasses) && n.annotation == old(n.annotation)
    ensures n.refs != 0 ==> unchanged(N - {n}, L)
    ensures var l := old(n.list);
      n.refs == 0 && !IsLeaf(n.kind) && l != null ==>
        && l.refs == old(l.refs) - 1
        && l.dead == (old(l.dead) || l.refs == 0)
        && (l.refs == 0 ==> forall i :: 0 <= i < l.length ==> l.children[i] == null)
    ensures unchanged(set m | m in N && m != n && m.rank >= n.rank)
    ensures unchanged(set k | k in L && k.rank >= n.rank)
  {
    n.refs := n.refs - 1;
    if n.refs == 0 {
      if n.kind == Text {
        n.text := "";
      } else if !IsLeaf(n.kind) && n.list != null {
        DropInternalData(n, N, L);
      }
      n.dead := true;
    }
  }

  /**
   * The internal data of a node being freed: the classes and annotation go,
   * the child list loses a reference, and the node no longer has data.
   */
  method DropInternalData(n: Node, ghost N: set<Node>, ghost L: set<NodeList>)
    requires n in N && Closed(N, L) && n.list != null
    modifies N, L
    decreases n.rank, 0
    ensures Closed(N, L)
    ensures forall m :: m in N ==> m.refs <= old(m.refs)
    ensures n.list == null && n.cssClasses == [] && n.annotation == ""
    ensures unchanged(n`refs, n`dead, n`kind, n`parent, n`timestamp, n`text)
    ensures var l := old(n.list);
      && l.refs == old(l.refs) - 1
      && l.dead == (old(l.dead) || l.refs == 0)
      && (l.refs == 0 ==> forall i :: 0 <= i < l.length ==> l.children[i] == null)
    ensures unchanged(set m | m in N && m != n && m.rank >= n.rank)
    ensures unchanged(set k | k in L && k.rank >= n.rank)
  {
    var l := n.list;
    n.cssClasses, n.annotation := [], "";
    ghost var released := DropList(l, N, L);
    n.list := null;
  }

  /**
   * `webvtt_release_node_list` once the slot has been read: one reference
   * goes; at zero each of the `length` children is released (its slot
   * nulled), in order, and the list is freed. `released` lists the children
   * released; each child in the `length` slots has lost at least one
   * reference, and no count rises.
   */
  method DropList(l: NodeList, ghost N: set<Node>, ghost L: set<NodeList>) returns (ghost released: seq<Node>)
    requires l in L && Closed(N, L)
    modifies N, L
    decreases l.rank, 3
    ensures Closed(N, L)
    ensures forall m :: m in N ==> m.refs <= old(m.refs)
    ensures l.refs == old(l.refs) - 1
    ensures l.dead == (old(l.dead) || l.refs == 0)
    ensures l.alloc == old(l.alloc) && l.length == old(l.length) && |l.children| == old(|l.children|)
    ensures l.refs == 0 ==> forall i :: 0 <= i < l.length ==> l.children[i] == null
    ensures l.refs != 0 ==> l.children == old(l.children) && unchanged(N, L - {l})
    ensures released == if l.refs == 0 then Present(old(l.children[..l.length])) else []
    ensures forall c :: c in released && c in N ==> c.refs < old(c.refs)
    ensures unchanged(set m | m in N && m.rank >= l.rank)
    ensures unchanged(set k | k in L && k != l && k.rank >= l.rank)
  {
    released := [];
    l.refs := l.refs - 1;
    if l.refs == 0 {
      released := DropChildren(l, N, L);
      l.dead := true;
    }
  }

  /** The loop of `webvtt_release_node_list`: release each of the `length` children in turn. */
  method DropChildren(l: NodeList, ghost N: set<Node>, ghost L: set<NodeList>) returns (ghost released: seq<Node>)
    requires l in L && Closed(N, L)
    modifies N, L
    decreases l.rank, 2
    ensures Closed(N, L)
    ensures forall m :: m in N ==> m.refs <= old(m.refs)
    ensures l.refs == old(l.refs) && l.alloc == old(l.alloc) && l.dead == old(l.dead)
    ensures l.length == old(l.length) && |l.children| == old(|l.children|)
    ensures forall i :: 0 <= i < l.length ==> l.children[i] == null
    ensures released == Present(old(l.children[..l.length]))
    ensures forall c :: c in released && c in N ==> c.refs < old(c.refs)
    ensures unchanged(set m | m in N && m.rank >= l.rank)
    ensures unchanged(set k | k in L && k != l && k.rank >= l.rank)
  {
    ghost var kids := l.children[..l.length];
    released := [];
    var i := 0;
    while i < l.length
      invariant 0 <= i <= l.length == old(l.length) <= |l.children| == old(|l.children|)
      invariant Closed(N, L)
      invariant l.refs == old(l.refs) && l.alloc == old(l.alloc) && l.dead == old(l.dead)
      invariant forall j :: 0 <= j < i ==> l.children[j] == null
      invariant forall j :: i <= j < l.length ==> l.children[j] == kids[j]
      invariant released == Present(kids[..i])
      invariant forall m :: m in N ==> m.refs + (if m in released then 1 else 0) <= old(m.refs)
      invariant unchanged(set m | m in N && m.rank >= l.rank)
      invariant unchanged(set k | k in L && k != l && k.rank >= l.rank)
    {
      ghost var c := DropChild(l, i, N, L);
      assert kids[..i + 1] == kids[..i] + [c];
      if c != null {
        released := released + [c];
      }
      i := i + 1;
    }
    assert kids[..i] == kids;
  }

  /** The non-null entries of `s`, in order. */
  function Present(s: seq<Node?>): (r: seq<Node>)
    ensures |r| <= |s|
    ensures forall i :: 0 <= i < |r| ==> r[i] in s
    ensures forall i :: 0 <= i < |s| && s[i] != null ==> s[i] in r
  {
    if s == [] then []
    else Present(s[..|s| - 1]) + (if s[|s| - 1] == null then [] else [s[|s| - 1]])
  }

  /** `webvtt_release_node( nl->children + i )`: release one child and null its slot. */
  method DropChild(l: NodeList, i: nat, ghost N: set<Node>, ghost L: set<NodeList>) returns (ghost c: Node?)
    requires l in L && Closed(N, L) && i < l.length
    modifies N, L
    decreases l.rank, 1
    ensures Closed(N, L)
    ensures forall m :: m in N ==> m.refs <= old(m.refs)
    ensures c == old(l.children[i])
    ensures c != null ==> c.refs == old(c.refs) - 1 && c.dead == (old(c.dead) || c.refs == 0)
    ensures c == null ==> unchanged(N, L)
    ensures l.children == old(l.children)[i := null]
    ensures l.refs == old(l.refs) && l.alloc == old(l.alloc) && l.length == old(l.length)
    ensures l.dead == old(l.dead)
    ensures unchanged(set m | m in N && m.rank >= l.rank)
    ensures unchanged(set k | k in L && k != l && k.rank >= l.rank)
  {
    var child := l.children[i];
    c := child;
    if child != null {
      DropNode(child, N, L);
      l.children := l.children[i := null];
    }
  }

  /**
   * The load stays under two thirds: a push onto a list below that load,
   * growing it as `GrownAlloc` says, leaves it below that load again.
   */
  lemma LoadBelowTwoThirds(alloc: nat, length: nat)
    requires (alloc == 0 && length == 0) || (alloc >= 3 && length < (alloc / 3) * 2)
    ensures length + 1 < (GrownAlloc(alloc, length) / 3) * 2
  {
    var a := GrownAlloc(alloc, length);
    if alloc != 0 && a == 2 * alloc {
      assert (2 * alloc) / 3 >= 2 * (alloc / 3);
    }
  }

  /** `webvtt_release_node`: a NULL slot or node is left alone; otherwise one reference goes and the slot is nulled. */
  method ReleaseNode(slot: NodeSlot?, ghost N: set<Node>, ghost L: set<NodeList>)
    requires slot != null && slot.node != null ==> slot.node in N && Closed(N, L)
    modifies slot, N, L
    ensures slot != null ==> slot.node == null
    ensures slot == null || old(slot.node) == null ==> unchanged(N, L)
    ensures slot != null && old(slot.node) != null ==>
      var n := old(slot.node);
      && Closed(N, L)
      && n.refs == old(n.refs) - 1
      && n.dead == (old(n.dead) || n.refs == 0)
      && (n.refs != 0 ==> unchanged(N - {n}, L))
      && (n.refs == 0 && !IsLeaf(n.kind) && old(n.list) != null ==>
            old(n.list).refs == old(n.list.refs) - 1 && old(n.list).dead == (old(n.list.dead) || old(n.list).refs == 0))
      && unchanged(set m | m in N && m != n && m.rank >= n.rank)
      && unchanged(set k | k in L && k.rank >= n.rank)
  {
    if slot == null || slot.node == null {
      return;
    }
    DropNode(slot.node, N, L);
    slot.node := null;
  }

  /** `webvtt_release_node_list`: a NULL slot or list is left alone; otherwise one reference goes and the slot is nulled. */
  method ReleaseNodeList(slot: ListSlot?, ghost N: set<Node>, ghost L: set<NodeList>)
    requires slot != null && slot.list != null ==> slot.list in L && Closed(N, L)
    modifies slot, N, L
    ensures slot != null ==> slot.list == null
    ensures slot == null || old(slot.list) == null ==> unchanged(N, L)
    ensures slot != null && old(slot.list) != null ==>
      var l := old(slot.list);
      && Closed(N, L)
      && l.refs == old(l.refs) - 1
      && l.dead == (old(l.dead) || l.refs == 0)
      && (l.refs == 0 ==> forall i :: 0 <= i < l.length ==> l.children[i] == null)
      && (l.refs == 0 ==> forall i :: 0 <= i < old(l.length) && old(l.children[i]) != null ==>
            old(l.children[i]).refs < old(l.children[i].refs))
      && (forall m :: m in N ==> m.refs <= old(m.refs))
      && (l.refs != 0 ==> unchanged(N, L - {l}) && l.children == old(l.children))
      && unchanged(set m | m in N && m.rank >= l.rank)
      && unchanged(set k | k in L && k != l && k.rank >= l.rank)
  {
    if slot == null || slot.list == null {
      return;
    }
    ghost var released := DropList(slot.list, N, L);
    slot.list := null;
  }

  /**
   * `webvtt_init_node_list`: unless the slot is NULL or already holds the
   * shared empty list, release what it holds and point it at the empty list,
   * which gains a reference.
   */
  method InitNodeList(slot: ListSlot?, empty: NodeList, ghost N: set<Node>, ghost L: set<NodeList>)
    requires slot != null && slot.list != null && slot.list != empty ==> slot.list in L && Closed(N, L)
    modifies slot, empty, N, L
    ensures slot == null || old(slot.list) == empty ==>
      (slot != null ==> unchanged(slot)) && unchanged(empty) && unchanged(N, L)
    ensures slot != null && old(slot.list) != empty ==> slot.list == empty
    ensures slot != null && old(slot.list) == null ==>
      empty.refs == old(empty.refs) + 1 && unchanged(N, L - {empty})
    ensures slot != null && old(slot.list) != null && old(slot.list) != empty ==>
      var l := old(slot.list);
      && l.refs == old(l.refs) - 1
      && l.dead == (old(l.dead) || l.refs == 0)
      && (empty !in L || empty.rank >= l.rank ==> empty.refs == old(empty.refs) + 1)
  {
    if slot == null || slot.list == empty {
      return;
    }
    if slot.list != null {
      ReleaseNodeList(slot, N, L);
    }
    slot.list := empty;
    empty.refs := empty.refs + 1;
  }

  /** `webvtt_create_node_list`: a fresh list with no storage and one reference, stored in the slot. */
  method CreateNodeList(slot: ListSlot?, allocOk: bool, ghost rank: nat) returns (status: Status)
    modifies slot
    ensures status == (if slot == null then InvalidParam else if !allocOk then OutOfMemory else Success)
    ensures status != Success && slot != null ==> unchanged(slot)
    ensures status == Success ==>
      && fresh(slot.list)
      && slot.list.refs == 1 && slot.list.alloc == 0 && slot.list.length == 0
      && slot.list.Valid() && !slot.list.dead && slot.list.rank == rank
  {
    if slot == null {
      return InvalidParam;
    }
    if !allocOk {
      return OutOfMemory;
    }
    var nl := new NodeList(rank);
    nl.refs := nl.refs + 1;
    slot.list := nl;
    return Success;
  }

  /** `webvtt_ref_node`: one more reference to a node; nothing for NULL. */
  method RefNode(n: Node?)
    modifies n
    ensures n != null ==> n.refs == old(n.refs) + 1
    ensures n != null ==>
      unchanged(n`kind, n`parent, n`timestamp, n`text, n`cssClasses, n`annotation, n`list, n`dead)
  {
    if n != null {
      n.refs := n.refs + 1;
    }
  }

  /**
   * `webvtt_init_node`: unless the slot already holds the shared empty node,
   * release what it holds and point it at the empty node, which gains a
   * reference. The slot is read before it is checked, so it must not be NULL.
   */
  method InitNode(slot: NodeSlot, empty: Node, ghost N: set<Node>, ghost L: set<NodeList>)
    requires slot.node != null && slot.node != empty ==> slot.node in N && Closed(N, L)
    modifies slot, empty, N, L
    ensures old(slot.node) == empty ==> unchanged(slot) && unchanged(empty) && unchanged(N, L)
    ensures slot.node == empty
    ensures old(slot.node) == null ==> empty.refs == old(empty.refs) + 1 && unchanged(N - {empty}, L)
    ensures old(slot.node) != null && old(slot.node) != empty ==>
      var n := old(slot.node);
      && n.refs == old(n.refs) - 1
      && n.dead == (old(n.dead) || n.refs == 0)
      && (empty !in N || empty.rank >= n.rank ==> empty.refs == old(empty.refs) + 1)
  {
    if slot.node != empty {
      if slot.node != null {
        ReleaseNode(slot, N, L);
      }
      slot.node := empty;
      RefNode(slot.node);
    }
  }

  /**
   * `webvtt_copy_node`: the destination slot shares the source node, which
   * gains a reference; nothing happens when either is NULL. What the slot held
   * before is not released.
   */
  method CopyNode(dest: NodeSlot?, src: Node?)
    modifies dest, src
    ensures dest == null || src == null ==> (dest != null ==> unchanged(dest)) && (src != null ==> unchanged(src))
    ensures dest != null && src != null ==>
      dest.node == src && src.refs == old(src.refs) + 1 && src.list == old(src.list)
    ensures src != null ==>
      unchanged(src`kind, src`parent, src`timestamp, src`text, src`cssClasses, src`annotation, src`list, src`dead)
  {
    if dest != null && src != null {
      RefNode(src);
      dest.node := src;
    }
  }

  /**
   * `webvtt_create_node`: a fresh node of the given kind and parent with one
   * reference, stored in the slot; a NULL slot is refused and a failed
   * allocation leaves the slot alone.
   */
  method CreateNode(slot: NodeSlot?, kind: NodeKind, parent: Node?, allocOk: bool, ghost rank: nat)
    returns (status: Status)
    modifies slot
    ensures status == (if slot == null then InvalidParam else if !allocOk then OutOfMemory else Success)
    ensures status != Success && slot != null ==> unchanged(slot)
    ensures status == Success ==>
      && fresh(slot.node)
      && slot.node.refs == 1 && slot.node.kind == kind && slot.node.parent == parent
      && slot.node.timestamp == 0 && slot.node.text == "" && slot.node.list == null
      && slot.node.cssClasses == [] && slot.node.annotation == ""
      && !slot.node.dead && slot.node.rank == rank
  {
    if slot == null {
      return InvalidParam;
    }
    if !allocOk {
      return OutOfMemory;
    }
    var n := new Node(rank);
    RefNode(n);
    n.kind := kind;
    n.parent := parent;
    slot.node := n;
    return Success;
  }

  /** `webvtt_create_timestamp_node`: a `TimeStamp` node carrying the time. */
  method CreateTimestampNode(slot: NodeSlot?, parent: Node?, time: nat, allocOk: bool, ghost rank: nat)
    returns (status: Status)
    modifies slot
    ensures status == (if slot == null then InvalidParam else if !allocOk then OutOfMemory else Success)
    ensures status != Success && slot != null ==> unchanged(slot)
    ensures status == Success ==>
      && fresh(slot.node)
      && slot.node.refs == 1 && slot.node.kind == TimeStamp && slot.node.parent == parent
      && slot.node.timestamp == time && slot.node.list == null && slot.node.rank == rank
  {
    status := CreateNode(slot, TimeStamp, parent, allocOk, rank);
    if status != Success {
      return;
    }
    slot.node.timestamp := time;
  }

  /** `webvtt_create_text_node`: a `Text` node carrying a copy of the string. */
  method CreateTextNode(slot: NodeSlot?, parent: Node?, text: string, allocOk: bool, ghost rank: nat)
    returns (status: Status)
    modifies slot
    ensures status == (if slot == null then InvalidParam else if !allocOk then OutOfMemory else Success)
    ensures status != Success && slot != null ==> unchanged(slot)
    ensures status == Success ==>
      && fresh(slot.node)
      && slot.node.refs == 1 && slot.node.kind == Text && slot.node.parent == parent
      && slot.node.text == text && slot.node.list == null && slot.node.rank == rank
  {
    status := CreateNode(slot, Text, parent, allocOk, rank);
    if status != Success {
      return;
    }
    slot.node.text := text;
  }

  /**
   * `webvtt_create_internal_node`: a node with internal data holding the
   * classes, the annotation and the shared empty list, which gains a
   * reference. When the internal data cannot be allocated the call fails, but
   * the new node without data is already in the slot.
   */
  method CreateInternalNode(slot: NodeSlot?, parent: Node?, kind: NodeKind, cssClasses: seq<string>,
                            annotation: string, empty: NodeList, nodeOk: bool, dataOk: bool, ghost rank: nat)
    returns (status: Status)
    modifies slot, empty
    ensures status == (if slot == null then InvalidParam else if !nodeOk || !dataOk then OutOfMemory else Success)
    ensures slot == null || !nodeOk ==> (slot != null ==> unchanged(slot)) && unchanged(empty)
    ensures slot != null && nodeOk ==>
      && fresh(slot.node)
      && slot.node.refs == 1 && slot.node.kind == kind && slot.node.parent == parent
      && slot.node.rank == rank
    ensures slot != null && nodeOk && !dataOk ==> slot.node.list == null && unchanged(empty)
    ensures status == Success ==>
      && slot.node.list == empty && empty.refs == old(empty.refs) + 1
      && slot.node.cssClasses == cssClasses && slot.node.annotation == annotation
  {
    status := CreateNode(slot, kind, parent, nodeOk, rank);
    if status != Success {
      return;
    }
    if !dataOk {
      return OutOfMemory;
    }
    var n := slot.node;
    n.cssClasses, n.annotation := cssClasses, annotation;
    n.list := empty;
    empty.refs := empty.refs + 1;
  }

  /** `webvtt_create_head_node`: an internal `HeadNode` without parent, classes or annotation. */
  method CreateHeadNode(slot: NodeSlot?, empty: NodeList, nodeOk: bool, dataOk: bool, ghost rank: nat)
    returns (status: Status)
    modifies slot, empty
    ensures status == (if slot == null then InvalidParam else if !nodeOk || !dataOk then OutOfMemory else Success)
    ensures status == Success ==>
      && fresh(slot.node)
      && slot.node.refs == 1 && slot.node.kind == HeadNode && slot.node.parent == null
      && slot.node.list == empty && empty.refs == old(empty.refs) + 1
      && slot.node.cssClasses == [] && slot.node.annotation == ""
  {
    status := CreateInternalNode(slot, null, HeadNode, [], "", empty, nodeOk, dataOk, rank);
  }

  /**
   * `webvtt_attach_node`: a NULL parent or child, or a leaf parent, is
   * refused; otherwise the child is pushed onto the parent's list. A push of
   * a lower-ranked node of `N` keeps `N` and `L` closed.
   */
  method AttachNode(parent: Node?, child: Node?, allocOk: nat -> bool, ghost N: set<Node>, ghost L: set<NodeList>)
    returns (status: Status)
    requires parent != null && child != null && !IsLeaf(parent.kind) ==>
      parent.list != null && parent.list.Valid()
    modifies if parent == null then {} else {parent.list}, child
    ensures parent == null || child == null || old(IsLeaf(parent.kind)) ==>
      && status == InvalidParam
      && (child != null ==> unchanged(child))
      && (parent != null && parent.list != null ==> unchanged(parent.list))
    ensures parent != null && child != null && !old(IsLeaf(parent.kind)) ==>
      var l := old(parent.list);
      var grown := GrownAlloc(old(l.alloc), old(l.length));
      && l == parent.list && l.Valid()
      && status == (if grown != old(l.alloc) && !allocOk(grown) then OutOfMemory else Success)
      && (status == Success ==>
            && l.children[..l.length] == old(l.children[..l.length]) + [child]
            && child.refs == old(child.refs) + 1)
      && (status == Success && old(Closed(N, L)) && parent in N && child in N && child.rank < l.rank ==>
            Closed(N, L))
    ensures child != null ==>
      unchanged(child`kind, child`parent, child`timestamp, child`text, child`cssClasses, child`annotation, child`list,
                child`dead)
  {
    if parent == null || child == null || IsLeaf(parent.kind) {
      return InvalidParam;
    }
    status := NodeListPush(parent.list, child, allocOk);
  }

  /**
   * The push scenario of the node-list unit test: two new head nodes pushed
   * in turn onto a new list sit in push order, each holding two references
   * (its creator's and the list's). Only the first push allocates.
   */
  method PushInOrder(allocOk: nat -> bool) returns (list: NodeList, a: Node, b: Node)
    requires allocOk(8)
    ensures list.Valid() && list.length == 2 && list.alloc == 8
    ensures list.children[..2] == [a, b] && a != b
    ensures a.refs == 2 && b.refs == 2
  {
    var sa := new NodeSlot(null);
    var sb := new NodeSlot(null);
    var sl := new ListSlot(null);
    var st := CreateNode(sa, HeadNode, null, true, 1);
    st := CreateNode(sb, HeadNode, null, true, 1);
    st := CreateNodeList(sl, true, 2);
    a, b, list := sa.node, sb.node, sl.list;
    st := NodeListPush(list, a, allocOk);
    st := NodeListPush(list, b, allocOk);
  }
}

=== FILE: parser.dfy ===
/**
 * The parser object of src/libwebvtt/parser.c: its stack of frames
 * (`do_push`, `do_pop`, `cleanup_stack`), its creation
 * (`webvtt_create_parser`), the hand-over of a finished cue (`finish_cue`),
 * the header automaton (`webvtt_parse_header`) and the token loop of
 * `parse_cueparams` writing into a cue in place.
 *
 * The lexer, `webvtt_string_getline`, `webvtt_validate_cue` and the release
 * functions for cues and strings are not part of this model: their answers
 * are parameters, and the calls made to the read callback and the releases
 * of frame values by the stack are kept in logs on the parser. The header
 * automaton's own initialisation and release of its comment string are not
 * modelled.
 */
module Parsers {
  import opened Errors
  import opened CueParams

  /** The continuation a frame resumes with; a zeroed frame has none. */
  datatype Callback = NoCallback | ParseHeader | ParseBody | ParseId | ParseCue

  /** `webvtt_state_value_type`. */
  datatype ValueType = VNone | VCue | VText | VInteger

  /**
   * One `webvtt_state` frame. `value` is the pointer held in the value union
   * (0 for NULL); `flags` is the sub-state of the frame's handler.
   */
  datatype Frame = Frame(callback: Callback, vtype: ValueType, value: nat,
                         token: int, line: nat, column: nat, flags: nat)

  /** A frame of memory cleared by `memset` or `webvtt_alloc0`. */
  const Zeroed: Frame := Frame(NoCallback, VNone, 0, 0, 0, 0, 0)

  /** A value handed to `webvtt_release_cue` or `webvtt_release_string`. */
  datatype Owned = OwnedCue(cue: nat) | OwnedText(text: nat)

  /** What `cleanup_stack` releases for one frame. */
  function OwnedBy(f: Frame): (r: seq<Owned>)
    ensures |r| <= 1
    ensures r != [] <==> f.vtype.VCue? || f.vtype.VText?
  {
    match f.vtype
    case VCue => [OwnedCue(f.value)]
    case VText => [OwnedText(f.value)]
    case _ => []
  }

  /** The releases `cleanup_stack` makes walking `fs` from its last frame down to its first. */
  function ReleasedFrom(fs: seq<Frame>): (r: seq<Owned>)
    ensures |r| <= |fs|
  {
    if fs == [] then [] else ReleasedFrom(fs[1..]) + OwnedBy(fs[0])
  }

  /** `s` with the frames above index `lo`, up to index `hi`, cleared. */
  ghost function ClearedAbove(s: seq<Frame>, lo: int, hi: int): (r: seq<Frame>)
    ensures |r| == |s|
  {
    seq(|s|, j requires 0 <= j < |s| => if lo < j <= hi then Cleared(s[j]) else s[j])
  }

  /** Clearing frame `lo` extends the cleared range down by one. */
  lemma ClearedAboveStep(s: seq<Frame>, lo: int, hi: int)
    requires 0 <= lo <= hi < |s|
    ensures ClearedAbove(s, lo, hi)[lo := Cleared(s[lo])] == ClearedAbove(s, lo - 1, hi)
  {
  }

  /** With every frame up to `hi` cleared, the stack is its cleared frames followed by the untouched rest. */
  lemma ClearedAboveAll(s: seq<Frame>, hi: int)
    requires -1 <= hi < |s|
    ensures ClearedAbove(s, -1, hi) == ClearedAll(s[..hi + 1]) + s[hi + 1..]
  {
  }

  /** The releases of frames `k` upwards, walking down from the last frame. */
  function ReleasedDown(fs: seq<Frame>, k: nat): (r: seq<Owned>)
    decreases |fs| - k
  {
    if k >= |fs| then [] else ReleasedDown(fs, k + 1) + OwnedBy(fs[k])
  }

  /** Walking down from frame `k` releases what `ReleasedFrom` says of the frames from `k` on. */
  lemma {:induction false} ReleasedDownFrom(fs: seq<Frame>, k: nat)
    requires k <= |fs|
    ensures ReleasedDown(fs, k) == ReleasedFrom(fs[k..])
    decreases |fs| - k
  {
    if k < |fs| {
      ReleasedDownFrom(fs, k + 1);
      assert fs[k..][1..] == fs[k + 1..];
    }
  }

  /** A frame as `cleanup_stack` leaves it: no value, no position, no token; callback and flags kept. */
  function Cleared(f: Frame): Frame
  {
    f.(vtype := VNone, value := 0, token := 0, line := 0, column := 0)
  }

  function ClearedAll(fs: seq<Frame>): (r: seq<Frame>)
    ensures |r| == |fs|
    ensures forall i :: 0 <= i < |fs| ==> r[i] == Cleared(fs[i])
  {
    seq(|fs|, i requires 0 <= i < |fs| => Cleared(fs[i]))
  }

  /** A release of a cue frame's value stands in the releases exactly when the frame holds a cue. */
  lemma {:induction false} ReleasedCue(fs: seq<Frame>, c: nat)
    ensures OwnedCue(c) in ReleasedFrom(fs) <==> exists i :: 0 <= i < |fs| && fs[i].vtype == VCue && fs[i].value == c
  {
    if fs != [] {
      ReleasedCue(fs[1..], c);
      assert forall i :: 1 <= i < |fs| ==> fs[i] == fs[1..][i - 1];
      if OwnedCue(c) in ReleasedFrom(fs[1..]) {
        var j :| 0 <= j < |fs[1..]| && fs[1..][j].vtype == VCue && fs[1..][j].value == c;
        assert fs[j + 1] == fs[1..][j];
      }
    }
  }

  /** The value union of `webvtt_state`, seen through a `webvtt_cue **` (`finish_cue`'s `pcue`). */
  class CueSlot {
    var cue: nat
    constructor (c: nat)
      ensures cue == c
    {
      cue := c;
    }
  }

  /** The four values `st->flags` takes in `webvtt_parse_header`. */
  datatype HeaderState = HeaderStart | HeaderTag | HeaderComment | HeaderEol

  /**
   * The codes of the header states in `st->flags`. 0 is the initial state;
   * the values of WEBVTT_HEADER_TAG, _COMMENT and _EOL come from
   * parser_internal.h, which is not part of this model, and are taken as 1, 2, 3.
   */
  function HeaderCode(s: HeaderState): (c: nat)
    ensures c < 4
  {
    match s
    case HeaderStart => 0
    case HeaderTag => 1
    case HeaderComment => 2
    case HeaderEol => 3
  }

  function HeaderOf(c: nat): (s: HeaderState)
    requires c < 4
    ensures HeaderCode(s) == c
  {
    if c == 0 then HeaderStart else if c == 1 then HeaderTag else if c == 2 then HeaderComment else HeaderEol
  }

  /**
   * What one pass of the `webvtt_parse_header` loop gets from the code it
   * calls: the token `webvtt_lex` returns, the answer of
   * `webvtt_string_getline` (read in the comment state only), and the
   * parser's line and column once they have been read.
   */
  datatype HeaderEvent = HeaderEvent(token: TokenKind, getline: int, line: nat, column: nat)

  /** The part of the parser and of the frame `webvtt_parse_header` reads and writes. */
  datatype HeaderView = HeaderView(
    state: HeaderState, callback: Callback, vtype: ValueType,
    line: nat, column: nat, log: seq<Report>)

  /** A `return` with a status, or the end of the loop, where the function ends without one. */
  datatype HeaderResult = Returned(status: Status) | FellOff

  function Reported(v: HeaderView, e: ErrorKind): (v': HeaderView)
    ensures v' == v.(log := v.log + [Report(e, v.line, v.column)])
  {
    v.(log := v.log + [Report(e, v.line, v.column)])
  }

  /** Where one pass of the loop leaves the header: returned with a status, or going round again. */
  datatype HeaderMove = Stop(status: Status, v: HeaderView) | Go(v: HeaderView)

  /** One pass of the `webvtt_parse_header` loop: the `switch( st->flags )`. */
  function HeaderStep(v: HeaderView, e: HeaderEvent, h: ErrorHandler): (r: HeaderMove)
  {
    var v1 := v.(line := e.line, column := e.column);
    match v.state
    case HeaderStart =>
      if e.token == Unfinished then Stop(Success, v1)
      else if e.token == Webvtt then Go(v1.(state := HeaderTag))
      else Stop(ParseError, Reported(v1, MalformedTag))
    case HeaderTag =>
      if e.token == Whitespace then Go(v1.(state := HeaderComment))
      else if e.token == Newline then Stop(Success, v1.(state := HeaderStart, callback := ParseBody))
      else Stop(ParseError, Reported(v1, MalformedTag))
    case HeaderComment =>
      var v2 := v1.(vtype := VText);
      if e.getline < 0 then
        var v3 := Reported(v2, AllocationFailed);
        Stop(if Continues(h, v3.log) then OutOfMemory else ParseError, v3)
      else if e.getline > 0 && e.token == Newline then Go(v2.(state := HeaderEol))
      else Go(v2)
    case HeaderEol =>
      if e.token == Newline then Stop(Success, v1.(state := HeaderStart, callback := ParseBody))
      else
        var v2 := Reported(v1, ExpectedEol);
        if Continues(h, v2.log) then Stop(Success, v2.(callback := ParseBody))
        else Stop(ParseError, v2)
  }

  /** `webvtt_parse_header`: its `while( *pos < len )` loop, one event per pass. */
  function HeaderSteps(v: HeaderView, events: seq<HeaderEvent>, h: ErrorHandler): (r: (HeaderResult, HeaderView))
    decreases |events|
  {
    if events == [] then (FellOff, v)
    else
      match HeaderStep(v, events[0], h)
      case Stop(status, v') => (Returned(status), v')
      case Go(v') => HeaderSteps(v', events[1..], h)
  }

  /** A pass that goes round again reports nothing and keeps the callback. */
  lemma GoKeepsLog(v: HeaderView, e: HeaderEvent, h: ErrorHandler)
    ensures HeaderStep(v, e, h).Go? ==> HeaderStep(v, e, h).v.log == v.log && HeaderStep(v, e, h).v.callback == v.callback
    ensures HeaderStep(v, e, h).Stop? ==>
      var v' := HeaderStep(v, e, h).v;
      && v.log <= v'.log && |v'.log| <= |v.log| + 1
      && (v'.callback != v.callback ==> HeaderStep(v, e, h).status == Success && v'.callback == ParseBody)
  {
  }

  /**
   * The header automaton reports at most one error, and only on its way
   * out; it hands the frame over to `webvtt_parse_body` only when it returns
   * WEBVTT_SUCCESS.
   */
  lemma {:induction false} HeaderReportsOnce(v: HeaderView, events: seq<HeaderEvent>, h: ErrorHandler)
    ensures var (res, v') := HeaderSteps(v, events, h);
      && v.log <= v'.log && |v'.log| <= |v.log| + 1
      && (|v'.log| == |v.log| + 1 ==> res.Returned?)
      && (v'.callback != v.callback ==> res == Returned(Success) && v'.callback == ParseBody)
    decreases |events|
  {
    if events != [] {
      GoKeepsLog(v, events[0], h);
      if HeaderStep(v, events[0], h).Go? {
        HeaderReportsOnce(HeaderStep(v, events[0], h).v, events[1..], h);
      }
    }
  }

  /**
   * "WEBVTT" then a newline: the header is accepted without a report and the
   * frame continues with `webvtt_parse_body` in state 0.
   */
  lemma HeaderTagThenNewline(v: HeaderView, e0: HeaderEvent, e1: HeaderEvent, rest: seq<HeaderEvent>, h: ErrorHandler)
    requires v.state == HeaderStart && e0.token == Webvtt && e1.token == Newline
    ensures var (res, v') := HeaderSteps(v, [e0, e1] + rest, h);
      res == Returned(Success) && v'.state == HeaderStart && v'.callback == ParseBody && v'.log == v.log
  {
    assert ([e0, e1] + rest)[1..] == [e1] + rest;
  }

  /**
   * A comment line ended by a newline, then anything but a newline: EXPECTED_EOL
   * is reported and, when the callback accepts it, the frame still moves on to
   * `webvtt_parse_body`, keeping the end-of-line state in its flags.
   */
  lemma CommentThenNoEol(v: HeaderView, e0: HeaderEvent, e1: HeaderEvent, h: ErrorHandler)
    requires v.state == HeaderComment && e0.getline > 0 && e0.token == Newline && e1.token != Newline
    ensures var (res, v') := HeaderSteps(v, [e0, e1], h);
      var rep := Report(ExpectedEol, e1.line, e1.column);
      && v'.log == v.log + [rep] && v'.state == HeaderEol && v'.vtype == VText
      && (Continues(h, v.log + [rep]) ==> res == Returned(Success) && v'.callback == ParseBody)
      && (!Continues(h, v.log + [rep]) ==> res == Returned(ParseError) && v'.callback == v.callback)
  {
    assert [e0, e1][1..] == [e1];
  }

  /**
   * `do_push` as written: when the stack is full it allocates a zeroed block
   * of twice `stack_alloc` frames and copies `stack_alloc` frames into it, but
   * never records the new capacity. None: the new frame is written past the
   * end of the block.
   */
  datatype StackMemory = StackMemory(block: seq<Frame>, alloc: nat, top: int)

  function PushAsWritten(s: StackMemory, f: Frame): (r: Option<StackMemory>)
    requires s.alloc <= |s.block| && -1 <= s.top < |s.block|
    ensures r.Some? ==> (r.value.alloc == s.alloc && r.value.top == s.top + 1
      && r.value.alloc <= |r.value.block| && r.value.top < |r.value.block|)
  {
    var block := if s.top + 1 >= s.alloc then s.block[..s.alloc] + seq(s.alloc, _ => Zeroed) else s.block;
    if s.top + 1 < |block| then Some(StackMemory(block[s.top + 1 := f], s.alloc, s.top + 1)) else None
  }

  /** The frames in use: the bottom one up to `top`. */
  function InUse(s: StackMemory): seq<Frame>
    requires -1 <= s.top < |s.block|
  {
    s.block[..s.top + 1]
  }

  /**
   * From two inline frames holding one frame, three pushes as written lose
   * the third frame (the second growth copies only the first two), and a
   * fourth writes past the block.
   */
  lemma PushAsWrittenLosesFrame(f0: Frame, f1: Frame, f2: Frame, f3: Frame, f4: Frame)
    requires f2 != Zeroed
    ensures var s0 := StackMemory([f0, Zeroed], 2, 0);
      var s1 := PushAsWritten(s0, f1);
      && s1.Some? && PushAsWritten(s1.value, f2).Some?
      && var s3 := PushAsWritten(PushAsWritten(s1.value, f2).value, f3);
      && s3.Some? && InUse(s3.value) == [f0, f1, Zeroed, f3] != [f0, f1, f2, f3]
      && PushAsWritten(s3.value, f4).None?
  {
    var s0 := StackMemory([f0, Zeroed], 2, 0);
    var s1 := PushAsWritten(s0, f1).value;
    assert s1.block == [f0, f1];
    var s2 := PushAsWritten(s1, f2).value;
    assert s2.block == [f0, f1, f2, Zeroed];
    var s3 := PushAsWritten(s2, f3).value;
    assert s3.block == [f0, f1, Zeroed, f3];
    assert InUse(s3) == [f0, f1, Zeroed, f3];
    assert InUse(s3)[2] != f2;
  }

  /** The parser object: its frame stack and the parts the modelled functions use. */
  class Parser {
    /** The inline array `astack`. */
    const astack: array<Frame>
    /** `stack`: `astack`, or a block on the heap once the stack has grown. */
    var stack: array<Frame>
    /** The block `top` points into (always `stack`, except after `cleanup_stack` left the heap). */
    var topBlock: array<Frame>
    /** `top - stack`: the index of the top frame, -1 when the stack is empty. */
    var top: int
    var stackAlloc: nat
    var line: nat
    var column: nat
    /** `error` (with `userdata`); WEBVTT_INVALID_PARAM keeps a missing callback out. */
    const handler: ErrorHandler
    /** Every report the parser raised, in order, whether or not a callback received it. */
    var log: seq<Report>
    /** Every cue handed to the read callback, in order. */
    var delivered: seq<nat>
    /** Every value handed to the release functions, in order. */
    var released: seq<Owned>

    ghost predicate Valid()
      reads this
    {
      && astack.Length >= 1
      && stack.Length == stackAlloc
      && topBlock == stack
      && stackAlloc >= 1
      && -1 <= top < stackAlloc
    }

    /** The frames in use, bottom first. */
    function Frames(): (fs: seq<Frame>)
      requires Valid()
      reads this, stack
      ensures |fs| == top + 1
    {
      stack[..top + 1]
    }

    constructor Init(h: ErrorHandler, inlineFrames: nat)
      requires inlineFrames >= 1
      ensures Valid() && handler == h && fresh(astack)
      ensures stack == astack && stackAlloc == inlineFrames && top == 0
      ensures astack[..] == [Zeroed.(callback := ParseHeader)] + seq(inlineFrames - 1, _ => Zeroed)
      ensures line == 1 && column == 1 && log == [] && delivered == [] && released == []
    {
      var a := new Frame[inlineFrames](_ => Zeroed);
      a[0] := Zeroed.(callback := ParseHeader);
      astack := a;
      stack := a;
      topBlock := a;
      top := 0;
      stackAlloc := inlineFrames;
      handler := h;
      line, column := 1, 1;
      log, delivered, released := [], [], [];
      new;
      assert a[..] == [Zeroed.(callback := ParseHeader)] + seq(inlineFrames - 1, _ => Zeroed);
    }

    /**
     * `webvtt_create_parser`: a missing read callback, error callback or
     * out-pointer gives WEBVTT_INVALID_PARAM, a failed allocation
     * WEBVTT_OUT_OF_MEMORY; otherwise the new parser has one frame, resuming
     * with `webvtt_parse_header`, in its zeroed inline array, and stands at
     * line 1, column 1.
     */
    static method Create(haveRead: bool, h: ErrorHandler, haveOut: bool, allocOk: bool, inlineFrames: nat)
      returns (status: Status, p: Parser?)
      requires inlineFrames >= 1
      ensures status == InvalidParam <==> !haveRead || h.NoHandler? || !haveOut
      ensures status == OutOfMemory <==> haveRead && h.Handler? && haveOut && !allocOk
      ensures status == Success <==> p != null
      ensures status == Success || status == InvalidParam || status == OutOfMemory
      ensures p != null ==> fresh(p) && fresh(p.astack) && p.Valid() && p.handler == h
      ensures p != null ==> p.Frames() == [Zeroed.(callback := ParseHeader)] && p.stack == p.astack
      ensures p != null ==> p.stackAlloc == inlineFrames && p.line == 1 && p.column == 1 && p.log == []
    {
      if !haveRead || h.NoHandler? || !haveOut {
        return InvalidParam, null;
      }
      if !allocOk {
        return OutOfMemory, null;
      }
      p := new Parser.Init(h, inlineFrames);
      status := Success;
      assert p.Frames() == p.astack[..][..1];
    }

    /**
     * `do_push` with the capacity it allocates recorded: when the frame
     * after `top` would not fit, the stack moves to a block twice as large,
     * the frames copied unchanged; the new frame is put on top with flags 0.
     * A failed allocation reports WEBVTT_ALLOCATION_FAILED and leaves the
     * stack as it was.
     */
    method Push(token: int, callback: Callback, data: nat, vtype: ValueType,
                frameLine: nat, frameColumn: nat, allocOk: bool) returns (status: Status)
      requires Valid()
      modifies this, stack
      ensures Valid()
      ensures line == old(line) && column == old(column)
      ensures delivered == old(delivered) && released == old(released)
      ensures status == Success <==> old(top) + 1 < old(stackAlloc) || allocOk
      ensures status == Success ==>
        && Frames() == old(Frames()) + [Frame(callback, vtype, data, token, frameLine, frameColumn, 0)]
        && log == old(log)
        && stackAlloc == (if old(top) + 1 < old(stackAlloc) then old(stackAlloc) else 2 * old(stackAlloc))
      ensures status == Success && old(top) + 1 >= old(stackAlloc) ==>
        fresh(stack) && stack[..old(stackAlloc)] == old(stack[..])
      ensures status != Success ==>
        && stack == old(stack) && top == old(top) && stackAlloc == old(stackAlloc)
        && stack[..] == old(stack[..])
        && log == old(log) + [Report(AllocationFailed, line, column)]
        && status == (if Continues(handler, log) then OutOfMemory else ParseError)
    {
      if top + 1 >= stackAlloc {
        if !allocOk {
          log := log + [Report(AllocationFailed, line, column)];
          status := if Continues(handler, log) then OutOfMemory else ParseError;
          return;
        }
        var grown := new Frame[2 * stackAlloc](_ => Zeroed);
        forall i | 0 <= i < stackAlloc {
          grown[i] := stack[i];
        }
        stack := grown;
        topBlock := grown;
        stackAlloc := 2 * stackAlloc;
      }
      top := top + 1;
      stack[top] := Frame(callback, vtype, data, token, frameLine, frameColumn, 0);
      status := Success;
    }

    /** `do_pop`: exactly one frame comes off; the count 1 is returned. */
    method Pop() returns (count: int)
      requires Valid() && top >= 0
      modifies this`top
      ensures Valid() && count == 1
      ensures Frames() == old(Frames())[..old(top)]
    {
      top := top - 1;
      count := 1;
    }

    /**
     * One pass of the `cleanup_stack` loop over the frames `fs` of the stack
     * `s0` it started from: release the top frame's value, clear the frame,
     * and step `top` down unless it is at the bottom.
     */
    method ClearTop(ghost s0: seq<Frame>, ghost t0: int, ghost r0: seq<Owned>)
      requires Valid() && 0 <= top <= t0 < |s0| == stack.Length
      requires stack[..] == ClearedAbove(s0, top, t0)
      requires released == r0 + ReleasedDown(s0[..t0 + 1], top + 1)
      modifies this`top, this`released, stack
      ensures Valid()
      ensures top == if old(top) > 0 then old(top) - 1 else 0
      ensures stack[..] == ClearedAbove(s0, old(top) - 1, t0)
      ensures released == r0 + ReleasedDown(s0[..t0 + 1], old(top))
    {
      ghost var fs := s0[..t0 + 1];
      assert stack[top] == fs[top] by {
        assert stack[top] == stack[..][top] == ClearedAbove(s0, top, t0)[top];
      }
      ClearedAboveStep(s0, top, t0);
      released := released + OwnedBy(stack[top]);
      assert released == r0 + ReleasedDown(fs, top);
      stack[top] := Cleared(stack[top]);
      if top > 0 {
        top := top - 1;
      }
    }

    /** The loop of `cleanup_stack`, from the top frame down to the bottom one. */
    method ClearFrames()
      requires Valid()
      modifies this`top, this`released, stack
      ensures Valid()
      ensures top == if old(top) >= 0 then 0 else -1
      ensures released == old(released) + ReleasedFrom(old(Frames()))
      ensures stack[..] == ClearedAll(old(Frames())) + old(stack[..])[old(top) + 1..]
    {
      ghost var fs := Frames();
      ghost var s0 := stack[..];
      ghost var t0 := top;
      ghost var r0 := released;
      var st := top;
      while st >= 0
        invariant -1 <= st <= t0 < stack.Length == |s0|
        invariant top == if st >= 0 then st else if t0 >= 0 then 0 else -1
        invariant stack[..] == ClearedAbove(s0, st, t0)
        invariant released == r0 + ReleasedDown(fs, st + 1)
        decreases st
      {
        ClearTop(s0, t0, r0);
        st := st - 1;
      }
      ReleasedDownFrom(fs, 0);
      assert fs[0..] == fs;
      ClearedAboveAll(s0, t0);
    }

    /**
     * `cleanup_stack`: every cue and text value from the top frame down is
     * released, each frame loses its value, token and position, `top` walks
     * down to the bottom frame, and a heap block is given up for the zeroed
     * inline array with its inline capacity. `top` is not re-pointed: it
     * stays in the block it was in.
     */
    method CleanupStack()
      requires Valid()
      modifies this, stack, astack
      ensures stack == astack && stackAlloc == astack.Length
      ensures topBlock == old(stack)
      ensures top == if old(top) >= 0 then 0 else -1
      ensures released == old(released) + ReleasedFrom(old(Frames()))
      ensures old(stack) != astack ==> astack[..] == seq(astack.Length, _ => Zeroed)
      ensures old(stack) == astack ==>
        astack[..] == ClearedAll(old(Frames())) + old(astack[..])[old(top) + 1..]
      ensures line == old(line) && column == old(column)
      ensures log == old(log) && delivered == old(delivered)
    {
      ghost var fs := Frames();
      ghost var before := stack[..];
      ClearFrames();
      assert stack[..] == ClearedAll(fs) + before[|fs|..];
      if stack != astack {
        forall i | 0 <= i < astack.Length {
          astack[i] := Zeroed;
        }
        stack := astack;
        stackAlloc := astack.Length;
      }
    }

    /**
     * `finish_cue`: a cue in the slot is handed to the read callback when it
     * validates and released otherwise, and the slot is cleared; a missing
     * slot or an empty one changes nothing.
     */
    method FinishCue(slot: CueSlot?, isValid: nat -> bool)
      modifies this`delivered, this`released, slot
      ensures slot == null || old(slot.cue) == 0 ==>
        delivered == old(delivered) && released == old(released) && (slot != null ==> slot.cue == 0)
      ensures slot != null && old(slot.cue) != 0 ==> slot.cue == 0
      ensures slot != null && old(slot.cue) != 0 && isValid(old(slot.cue)) ==>
        delivered == old(delivered) + [old(slot.cue)] && released == old(released)
      ensures slot != null && old(slot.cue) != 0 && !isValid(old(slot.cue)) ==>
        delivered == old(delivered) && released == old(released) + [OwnedCue(old(slot.cue))]
    {
      if slot != null {
        var cue := slot.cue;
        if cue != 0 {
          if isValid(cue) {
            delivered := delivered + [cue];
          } else {
            released := released + [OwnedCue(cue)];
          }
          slot.cue := 0;
        }
      }
    }

    /**
     * `webvtt_parse_header` on frame `k`: the loop of `HeaderSteps`, updating
     * the frame's flags, callback and value type and the parser's position and
     * reports as it goes.
     */
    method ParseHeaderFrame(k: nat, events: seq<HeaderEvent>) returns (r: HeaderResult)
      requires Valid() && k <= top && stack[k].flags < 4
      modifies this`line, this`column, this`log, stack
      ensures Valid()
      ensures var v0 := HeaderView(HeaderOf(old(stack[k].flags)), old(stack[k].callback), old(stack[k].vtype),
                                   old(line), old(column), old(log));
        var (res, v') := HeaderSteps(v0, events, handler);
        && r == res && line == v'.line && column == v'.column && log == v'.log
        && Frames() == old(Frames())[k := old(stack[k]).(flags := HeaderCode(v'.state),
                                                         callback := v'.callback, vtype := v'.vtype)]
    {
      ghost var fs := Frames();
      var f := stack[k];
      var v := HeaderView(HeaderOf(f.flags), f.callback, f.vtype, line, column, log);
      ghost var v0 := v;
      var i := 0;
      while i < |events|
        invariant 0 <= i <= |events|
        invariant HeaderSteps(v0, events, handler) == HeaderSteps(v, events[i..], handler)
        invariant line == v.line && column == v.column && log == v.log
        invariant Frames() == fs[k := f.(flags := HeaderCode(v.state), callback := v.callback, vtype := v.vtype)]
        decreases |events| - i
      {
        assert events[i..][0] == events[i] && events[i..][1..] == events[i + 1..];
        var move := HeaderStep(v, events[i], handler);
        v := move.v;
        stack[k] := f.(flags := HeaderCode(v.state), callback := v.callback, vtype := v.vtype);
        line, column, log := v.line, v.column, v.log;
        if move.Stop? {
          return Returned(move.status);
        }
        i := i + 1;
      }
      r := FellOff;
    }

    /**
     * `parse_cueparams`: token by token, the automaton's step is taken and
     * the cue, the column and the reports are updated in place; the call
     * returns what `Run` returns, with the cue, column and reports it ends with.
     */
    method ParseCueParams(cue: Cue, toks: seq<Token>) returns (r: ParamsResult)
      modifies this`column, this`log, cue
      ensures var (res, m') := Run(Initial(old(cue.Fields()), old(line), old(column)).(log := old(log)), toks, handler);
        r == res && cue.Fields() == m'.cue && column == m'.column && log == m'.log
    {
      var m := Initial(cue.Fields(), line, column).(log := log);
      ghost var m0 := m;
      var rest := toks;
      while rest != []
        invariant Exec(m0, toks, handler) == Exec(m, rest, handler)
        invariant cue.Fields() == m.cue && column == m.column && log == m.log
        decreases |rest|
      {
        var o := Step(m, rest, handler);
        match o
        case Return(res, m1) =>
          cue.Write(m1.cue);
          column, log := m1.column, m1.log;
          return res;
        case Continue(m1, rest1) =>
          m, rest := m1, rest1;
          cue.Write(m.cue);
          column, log := m.column, m.log;
      }
      var (res, m1) := Finish(m, handler);
      cue.Write(m1.cue);
      column, log := m1.column, m1.log;
      r := res;
    }
  }
}

=== FILE: timestamp.dfy ===
/**
 * The numeric micro-parsers of src/libwebvtt/parser.c: `parse_int`, which
 * reads an optionally negative decimal integer, and `parse_timestamp`, which
 * turns the bytes of a TIMESTAMP token into milliseconds following the
 * "collect a WebVTT timestamp" steps of the W3C WebVTT draft (2012), section
 * 6.3. Token bytes are NUL-terminated in the source; `At` reads the NUL.
 */
module Timestamp {
  import opened Bytes

  predicate AllDigits(ds: seq<byte>)
  {
    forall i :: 0 <= i < |ds| ==> IsDigit(ds[i])
  }

  /** The number a run of decimal digits denotes, most significant first. */
  function DecimalValue(ds: seq<byte>): nat
    requires AllDigits(ds)
  {
    if ds == [] then 0 else DecimalValue(ds[..|ds| - 1]) * 10 + DigitValue(ds[|ds| - 1])
  }

  /** The offset just past the longest run of digits starting at `i`. */
  function DigitRunEnd(s: seq<byte>, i: nat): (e: nat)
    requires i <= |s|
    ensures i <= e <= |s|
    ensures AllDigits(s[i..e])
    ensures !IsDigit(At(s, e))
    decreases |s| - i
  {
    if IsDigit(At(s, i)) then DigitRunEnd(s, i + 1) else i
  }

  /** Any digit run ending at a non-digit is the longest one. */
  lemma {:induction false} DigitRunEndIs(s: seq<byte>, i: nat, e: nat)
    requires i <= e <= |s|
    requires AllDigits(s[i..e]) && !IsDigit(At(s, e))
    ensures DigitRunEnd(s, i) == e
    decreases e - i
  {
    if i < e {
      assert s[i..e][0] == s[i];
      assert s[i + 1..e] == s[i..e][1..];
      DigitRunEndIs(s, i + 1, e);
    }
  }

  /** What `parse_int` reads: its value, its digit count, and where the cursor stops. */
  datatype IntScan = IntScan(value: int, digits: nat, end: nat)

  /**
   * `parse_int` from offset `i`: one leading '-' when it is the first byte,
   * then the longest run of digits; the value is negated when the dash was
   * read, and the digit count does not include the sign.
   */
  function ScanInt(s: seq<byte>, i: nat): (r: IntScan)
    requires i <= |s|
    ensures i <= r.end <= |s|
    ensures r.end == i + r.digits + (if At(s, i) == DASH then 1 else 0)
    ensures AllDigits(s[r.end - r.digits..r.end]) && !IsDigit(At(s, r.end))
    ensures r.value == (if At(s, i) == DASH then -1 else 1) * DecimalValue(s[r.end - r.digits..r.end])
  {
    var negative := At(s, i) == DASH;
    var start := if negative then i + 1 else i;
    var e := DigitRunEnd(s, start);
    var magnitude: int := DecimalValue(s[start..e]);
    IntScan(if negative then -magnitude else magnitude, e - start, e)
  }

  /** One more digit at the end of a run: the value shifts one decimal place. */
  lemma DigitRunGrows(s: seq<byte>, lo: nat, b: nat)
    requires lo <= b < |s| && AllDigits(s[lo..b]) && IsDigit(s[b])
    ensures AllDigits(s[lo..b + 1])
    ensures DecimalValue(s[lo..b + 1]) == DecimalValue(s[lo..b]) * 10 + DigitValue(s[b])
  {
    assert s[lo..b + 1][..b - lo] == s[lo..b];
  }

  /**
   * `parse_int`: the loop over the NUL-terminated bytes from `i`. The sign is
   * taken only before any digit and only once; the first other byte, or NUL,
   * ends the number.
   */
  method ParseInt(s: seq<byte>, i: nat) returns (value: int, digits: nat, end: nat)
    requires i <= |s|
    ensures IntScan(value, digits, end) == ScanInt(s, i)
  {
    digits := 0;
    var result := 0;
    var mul := 1;
    var b := i;
    while At(s, b) != NUL
      invariant i <= b <= |s|
      invariant mul == 1 || mul == -1
      invariant b == i ==> mul == 1 && digits == 0
      invariant b > i ==> (mul == -1 <==> At(s, i) == DASH)
      invariant b == (if mul == -1 then i + 1 else i) + digits
      invariant AllDigits(s[b - digits..b])
      invariant result == DecimalValue(s[b - digits..b])
      decreases |s| - b
    {
      var ch := s[b];
      if IsDigit(ch) {
        DigitRunGrows(s, b - digits, b);
        result := result * 10 + (ch - DIGIT_ZERO);
        digits := digits + 1;
      } else if mul == 1 && digits == 0 && ch == DASH {
        mul := -1;
      } else {
        break;
      }
      b := b + 1;
    }
    end := b;
    value := result * mul;
    assert mul == (if At(s, i) == DASH then -1 else 1);
    ScanIntIs(s, i, end - digits, end);
  }

  /** A sign as `parse_int` takes it and a digit run ending at a non-digit: that is what it reads. */
  lemma ScanIntIs(s: seq<byte>, i: nat, start: nat, e: nat)
    requires i <= start <= e <= |s|
    requires start == if At(s, i) == DASH then i + 1 else i
    requires AllDigits(s[start..e]) && !IsDigit(At(s, e))
    ensures ScanInt(s, i)
      == IntScan((if At(s, i) == DASH then -1 else 1) * DecimalValue(s[start..e]), e - start, e)
  {
    DigitRunEndIs(s, start, e);
  }

  /** The largest `webvtt_timestamp`: the value written for unparseable input. */
  const Sentinel: nat := 0xFFFF_FFFF_FFFF_FFFF
  const TwoTo64: nat := 0x1_0000_0000_0000_0000

  const MsecsPerHour: nat := 3600000
  const MsecsPerMinute: nat := 60000
  const MsecsPerSecond: nat := 1000

  /** The four fields of a timestamp as `parse_timestamp` holds them in `v[0..3]`. */
  datatype Fields = Fields(hours: int, minutes: int, seconds: int, millis: int)

  function Weight(f: Fields): int
  {
    f.hours * MsecsPerHour + f.minutes * MsecsPerMinute + f.seconds * MsecsPerSecond + f.millis
  }

  /**
   * The carry steps: milliseconds over 999 into seconds, seconds over 59 into
   * minutes, minutes over 59 into hours. Afterwards every lower field is in
   * range, the weighted sum is unchanged, and a carry took place exactly when
   * some field was out of range (the `malformed` flag).
   */
  function Carry(f: Fields): (r: (Fields, bool))
    ensures Weight(r.0) == Weight(f)
    ensures r.0.millis <= 999 && r.0.seconds <= 59 && r.0.minutes <= 59
    ensures r.1 <==> f.millis > 999 || f.seconds > 59 || f.minutes > 59
    ensures !r.1 ==> r.0 == f
    ensures f.hours >= 0 && f.minutes >= 0 && f.seconds >= 0 && f.millis >= 0 ==>
      r.0.hours >= 0 && r.0.minutes >= 0 && r.0.seconds >= 0 && r.0.millis >= 0
  {
    var f1 := if f.millis > 999
      then f.(seconds := f.seconds + f.millis / 1000, millis := f.millis % 1000) else f;
    var f2 := if f1.seconds > 59
      then f1.(minutes := f1.minutes + f1.seconds / 60, seconds := f1.seconds % 60) else f1;
    var f3 := if f2.minutes > 59
      then f2.(hours := f2.hours + f2.minutes / 60, minutes := f2.minutes % 60) else f2;
    (f3, f.millis > 999 || f1.seconds > 59 || f2.minutes > 59)
  }

  /** The outcome of `parse_timestamp`: its return value (1 or 0) and what it writes to `*result`. */
  datatype TimestampResult = TimestampResult(ok: bool, value: nat)

  const Unparseable := TimestampResult(false, Sentinel)

  /** Total milliseconds as the unsigned 64-bit `webvtt_timestamp` receives them. */
  function ToTimestamp(ms: int): (t: nat)
    ensures t < TwoTo64
  {
    ms % TwoTo64
  }

  /**
   * The tail of `parse_timestamp`: the mandatory '.' and at least one digit
   * (else the sentinel), three digits expected, then the carries and the sum.
   * The sum is written even when malformed.
   */
  function WithFraction(b: seq<byte>, p: nat, h: int, m: int, s: int, malformed: bool): TimestampResult
    requires p <= |b|
  {
    if At(b, p) != PERIOD || !IsDigit(At(b, p + 1)) then Unparseable
    else
      var f3 := ScanInt(b, p + 1);
      var (c, carried) := Carry(Fields(h, m, s, f3.value));
      TimestampResult(!(malformed || f3.digits != 3 || carried), ToTimestamp(Weight(c)))
  }

  /**
   * Where `parse_timestamp` stands once the fields before the fraction are
   * read: the cursor and the hours, minutes and seconds, and whether anything
   * was malformed so far; or `NoFields` when it has already given up.
   */
  datatype Head = Head(p: nat, hours: int, minutes: int, seconds: int, malformed: bool) | NoFields

  /**
   * The first part of `parse_timestamp`. The first digit run is the hours when
   * it does not have exactly two digits or exceeds 59; otherwise it is the
   * minutes unless a second ':' follows the next field. Missing separators and
   * fields of the wrong width mark the timestamp malformed but parsing goes
   * on; a first byte that is not a digit, or a missing second ':' once hours
   * are known, end it.
   */
  function HeadOf(b: seq<byte>): (r: Head)
    ensures r.Head? ==> r.p <= |b|
  {
    if !IsDigit(At(b, 0)) then NoFields
    else
      var f0 := ScanInt(b, 0);
      var haveHours := f0.digits != 2 || f0.value > 59;
      var p1 := f0.end;
      var colonMissing := At(b, p1) == NUL || At(b, p1) != COLON;
      var p2 := if At(b, p1) == NUL then p1 else p1 + 1;
      var f1 := ScanInt(b, p2);
      var malformed := colonMissing || !IsDigit(At(b, p2)) || f1.digits != 2;
      var p3 := f1.end;
      if haveHours || At(b, p3) == COLON then
        if At(b, p3) != COLON then NoFields
        else
          var f2 := ScanInt(b, p3 + 1);
          Head(f2.end, f0.value, f1.value, f2.value,
               malformed || !IsDigit(At(b, p3 + 1)) || f2.digits != 2)
      else
        Head(p3, 0, f0.value, f1.value, malformed)
  }

  /** `parse_timestamp`: the fields, then the fraction; the sentinel when either part gives up. */
  function TimestampOf(b: seq<byte>): TimestampResult
  {
    match HeadOf(b)
    case NoFields => Unparseable
    case Head(p, h, m, s, malformed) => WithFraction(b, p, h, m, s, malformed)
  }

  /**
   * `parse_timestamp` itself: returns 1 when the timestamp was well formed and
   * writes the milliseconds (or the sentinel) to `result`.
   */
  method ParseTimestamp(b: seq<byte>) returns (r: int, result: nat)
    ensures r == 1 || r == 0
    ensures r == 1 <==> TimestampOf(b).ok
    ensures result == TimestampOf(b).value
    ensures !IsDigit(At(b, 0)) ==> r == 0 && result == Sentinel
  {
    var complete, p, v0, v1, v2, malformed := ReadFields(b);
    if !complete {
      return 0, Sentinel;
    }
    r, result := ReadFraction(b, p, v0, v1, v2, malformed);
  }

  /**
   * The first part of `parse_timestamp`, up to the fraction: `complete` is
   * false where it returns 0 early.
   */
  method ReadFields(b: seq<byte>) returns (complete: bool, p: nat, v0: int, v1: int, v2: int, malformed: bool)
    ensures complete ==> HeadOf(b) == Head(p, v0, v1, v2, malformed)
    ensures !complete ==> HeadOf(b) == NoFields
  {
    malformed := false;
    if !IsDigit(At(b, 0)) {
      return false, 0, 0, 0, 0, false;
    }
    var digits;
    v0, digits, p := ParseInt(b, 0);
    var haveHours := digits != 2 || v0 > 59;
    if At(b, p) == NUL || At(b, p) != COLON {
      malformed := true;
    }
    if At(b, p) != NUL {
      p := p + 1;
    }
    if At(b, p) == NUL || !IsDigit(At(b, p)) {
      malformed := true;
    }
    v1, digits, p := ParseInt(b, p);
    if digits != 2 {
      malformed := true;
    }
    if haveHours || At(b, p) == COLON {
      if At(b, p) != COLON {
        return false, 0, 0, 0, 0, false;
      }
      p := p + 1;
      if At(b, p) == NUL || !IsDigit(At(b, p)) {
        malformed := true;
      }
      v2, digits, p := ParseInt(b, p);
      if digits != 2 {
        malformed := true;
      }
    } else {
      v2 := v1;
      v1 := v0;
      v0 := 0;
    }
    complete := true;
  }

  /** The last part of `parse_timestamp`: the fraction, the carries and the sum. */
  method ReadFraction(b: seq<byte>, p: nat, v0: int, v1: int, v2: int, malformed: bool)
    returns (r: int, result: nat)
    requires p <= |b|
    ensures r == 1 || r == 0
    ensures r == 1 <==> WithFraction(b, p, v0, v1, v2, malformed).ok
    ensures result == WithFraction(b, p, v0, v1, v2, malformed).value
  {
    if At(b, p) != PERIOD || !IsDigit(At(b, p + 1)) {
      return 0, Sentinel;
    }
    var ms, digits, end := ParseInt(b, p + 1);
    var c, carried := CarryOver(Fields(v0, v1, v2, ms));
    result := ToTimestamp(Weight(c));
    r := if malformed || digits != 3 || carried then 0 else 1;
  }

  /** The three carry steps of `parse_timestamp`, in place on the fields. */
  method CarryOver(f: Fields) returns (c: Fields, carried: bool)
    ensures (c, carried) == Carry(f)
  {
    c, carried := f, false;
    if c.millis > 999 {
      c := c.(seconds := c.seconds + c.millis / MsecsPerSecond, millis := c.millis % MsecsPerSecond);
      carried := true;
    }
    if c.seconds > 59 {
      c := c.(minutes := c.minutes + c.seconds / 60, seconds := c.seconds % 60);
      carried := true;
    }
    if c.minutes > 59 {
      c := c.(hours := c.hours + c.minutes / 60, minutes := c.minutes % 60);
      carried := true;
    }
  }

  // ---------------------------------------------------------------------
  // Formatting: the inverse of TimestampOf on canonical "HH:MM:SS.mmm" text.

  function DigitByte(d: nat): (b: byte)
    requires d < 10
    ensures IsDigit(b) && DigitValue(b) == d
  {
    DIGIT_ZERO + d
  }

  function TwoDigits(n: nat): (ds: seq<byte>)
    requires n < 100
    ensures |ds| == 2 && AllDigits(ds)
  {
    [DigitByte(n / 10), DigitByte(n % 10)]
  }

  function ThreeDigits(n: nat): (ds: seq<byte>)
    requires n < 1000
    ensures |ds| == 3 && AllDigits(ds)
  {
    [DigitByte(n / 100), DigitByte(n / 10 % 10), DigitByte(n % 10)]
  }

  /** Timestamps below 100 hours, written as "HH:MM:SS.mmm". */
  const FormatLimit: nat := 100 * MsecsPerHour

  function Format(t: nat): (b: seq<byte>)
    requires t < FormatLimit
    ensures |b| == 12
  {
    TwoDigits(t / MsecsPerHour) + [COLON] + TwoDigits(t / MsecsPerMinute % 60) + [COLON]
      + TwoDigits(t / MsecsPerSecond % 60) + [PERIOD] + ThreeDigits(t % 1000)
  }

  lemma TwoDigitsValue(n: nat)
    requires n < 100
    ensures DecimalValue(TwoDigits(n)) == n
  {
    var ds := TwoDigits(n);
    assert ds[..1][..0] == [];
    assert ds[..1] == [ds[0]];
    assert DecimalValue(ds[..1]) == n / 10;
    assert DecimalValue(ds) == (n / 10) * 10 + n % 10;
  }

  lemma ThreeDigitsValue(n: nat)
    requires n < 1000
    ensures DecimalValue(ThreeDigits(n)) == n
  {
    var ds := ThreeDigits(n);
    assert ds[..2][..1][..0] == [];
    assert ds[..2][..1] == [ds[0]];
    assert ds[..2] == [ds[0], ds[1]];
    assert DecimalValue(ds[..2][..1]) == n / 100;
    assert DecimalValue(ds[..2]) == (n / 100) * 10 + n / 10 % 10 == n / 10;
    assert DecimalValue(ds) == (n / 10) * 10 + n % 10;
  }

  /** A digit run at `i` of length `k` that ends at a non-digit is read whole by `parse_int`. */
  lemma ScanDigitsAt(b: seq<byte>, i: nat, k: nat)
    requires 1 <= k && i + k <= |b|
    requires AllDigits(b[i..i + k]) && !IsDigit(At(b, i + k))
    ensures ScanInt(b, i) == IntScan(DecimalValue(b[i..i + k]), k, i + k)
  {
    assert b[i..i + k][0] == b[i];
    DigitRunEndIs(b, i, i + k);
  }

  /** `TwoDigits(n)` written at `i` and followed by a non-digit is read as `n`. */
  lemma TwoDigitsAt(b: seq<byte>, i: nat, n: nat)
    requires n < 100 && i + 2 <= |b| && b[i..i + 2] == TwoDigits(n) && !IsDigit(At(b, i + 2))
    ensures IsDigit(At(b, i)) && ScanInt(b, i) == IntScan(n, 2, i + 2)
  {
    TwoDigitsValue(n);
    ScanDigitsAt(b, i, 2);
  }

  /** `ThreeDigits(n)` written at `i` and followed by a non-digit is read as `n`. */
  lemma ThreeDigitsAt(b: seq<byte>, i: nat, n: nat)
    requires n < 1000 && i + 3 <= |b| && b[i..i + 3] == ThreeDigits(n) && !IsDigit(At(b, i + 3))
    ensures IsDigit(At(b, i)) && ScanInt(b, i) == IntScan(n, 3, i + 3)
  {
    ThreeDigitsValue(n);
    ScanDigitsAt(b, i, 3);
  }

  lemma SplitMillis(t: nat)
    ensures t == (t / MsecsPerHour) * MsecsPerHour + (t / MsecsPerMinute % 60) * MsecsPerMinute
                 + (t / MsecsPerSecond % 60) * MsecsPerSecond + t % 1000
  {
    var secs := t / 1000;
    var mins := secs / 60;
    assert t == secs * 1000 + t % 1000;
    assert secs == mins * 60 + secs % 60;
    assert mins == t / MsecsPerMinute;
    assert mins / 60 == t / MsecsPerHour;
    assert mins == (mins / 60) * 60 + mins % 60;
  }

  /**
   * A buffer laid out as "H:MM:SS.mmm", with an hours field of `k` digits,
   * is read field by field.
   */
  lemma ReadsLongForm(b: seq<byte>, k: nat, h: int, m: int, s: int, ms: int)
    requires k >= 1
    requires IsDigit(At(b, 0)) && ScanInt(b, 0) == IntScan(h, k, k) && At(b, k) == COLON
    requires IsDigit(At(b, k + 1)) && ScanInt(b, k + 1) == IntScan(m, 2, k + 3) && At(b, k + 3) == COLON
    requires IsDigit(At(b, k + 4)) && ScanInt(b, k + 4) == IntScan(s, 2, k + 6) && At(b, k + 6) == PERIOD
    requires IsDigit(At(b, k + 7)) && ScanInt(b, k + 7) == IntScan(ms, 3, k + 10)
    requires m <= 59 && s <= 59 && ms <= 999
    ensures TimestampOf(b) == TimestampResult(true, ToTimestamp(Weight(Fields(h, m, s, ms))))
  {
    assert HeadOf(b) == Head(k + 6, h, m, s, false);
    assert Carry(Fields(h, m, s, ms)) == (Fields(h, m, s, ms), false);
  }

  /** A buffer laid out as "MM:SS.mmm", minutes at most 59, is read without hours. */
  lemma ReadsShortForm(b: seq<byte>, m: int, s: int, ms: int)
    requires IsDigit(At(b, 0)) && ScanInt(b, 0) == IntScan(m, 2, 2) && At(b, 2) == COLON
    requires IsDigit(At(b, 3)) && ScanInt(b, 3) == IntScan(s, 2, 5) && At(b, 5) == PERIOD
    requires IsDigit(At(b, 6)) && ScanInt(b, 6) == IntScan(ms, 3, 9)
    requires m <= 59 && s <= 59 && ms <= 999
    ensures TimestampOf(b) == TimestampResult(true, ToTimestamp(Weight(Fields(0, m, s, ms))))
  {
    assert HeadOf(b) == Head(5, 0, m, s, false);
    assert Carry(Fields(0, m, s, ms)) == (Fields(0, m, s, ms), false);
  }

  /**
   * Round trip: every timestamp below 100 hours, formatted as
   * "HH:MM:SS.mmm", is read back as exactly that many milliseconds and is
   * well formed.
   */
  lemma {:induction false} FormatRoundTrip(t: nat)
    requires t < FormatLimit
    ensures TimestampOf(Format(t)) == TimestampResult(true, t)
  {
    var h, m, s, ms := t / MsecsPerHour, t / MsecsPerMinute % 60, t / MsecsPerSecond % 60, t % 1000;
    FormatFields(t);
    ReadsLongForm(Format(t), 2, h, m, s, ms);
    WeightOfSplit(t);
  }

  /** The fields `Format` writes weigh `t` again, and `t` fits the 64-bit type. */
  lemma WeightOfSplit(t: nat)
    requires t < FormatLimit
    ensures ToTimestamp(Weight(Fields(t / MsecsPerHour, t / MsecsPerMinute % 60, t / MsecsPerSecond % 60, t % 1000))) == t
  {
    SplitMillis(t);
  }

  /** The four fields of `Format(t)` as `parse_int` reads them. */
  lemma FormatFields(t: nat)
    requires t < FormatLimit
    ensures var b := Format(t);
      && IsDigit(At(b, 0)) && ScanInt(b, 0) == IntScan(t / MsecsPerHour, 2, 2) && At(b, 2) == COLON
      && IsDigit(At(b, 3)) && ScanInt(b, 3) == IntScan(t / MsecsPerMinute % 60, 2, 5) && At(b, 5) == COLON
      && IsDigit(At(b, 6)) && ScanInt(b, 6) == IntScan(t / MsecsPerSecond % 60, 2, 8) && At(b, 8) == PERIOD
      && IsDigit(At(b, 9)) && ScanInt(b, 9) == IntScan(t % 1000, 3, 12)
  {
    var h, m, s, ms := t / MsecsPerHour, t / MsecsPerMinute % 60, t / MsecsPerSecond % 60, t % 1000;
    var b := Format(t);
    assert b[0..2] == TwoDigits(h) && b[3..5] == TwoDigits(m) && b[6..8] == TwoDigits(s);
    assert b[9..12] == ThreeDigits(ms);
    assert b[2] == COLON && b[5] == COLON && b[8] == PERIOD;
    TwoDigitsAt(b, 0, h);
    TwoDigitsAt(b, 3, m);
    TwoDigitsAt(b, 6, s);
    ThreeDigitsAt(b, 9, ms);
  }

  /** "MM:SS.mmm": a two-digit first field of at most 59 with no second ':' is minutes. */
  lemma MinutesFirst(m: nat, s: nat, ms: nat)
    requires m <= 59 && s <= 59 && ms <= 999
    ensures TimestampOf(TwoDigits(m) + [COLON] + TwoDigits(s) + [PERIOD] + ThreeDigits(ms))
      == TimestampResult(true, m * MsecsPerMinute + s * MsecsPerSecond + ms)
  {
    var b := TwoDigits(m) + [COLON] + TwoDigits(s) + [PERIOD] + ThreeDigits(ms);
    assert b[0..2] == TwoDigits(m) && b[3..5] == TwoDigits(s) && b[6..9] == ThreeDigits(ms);
    assert b[2] == COLON && b[5] == PERIOD;
    TwoDigitsAt(b, 0, m);
    TwoDigitsAt(b, 3, s);
    ThreeDigitsAt(b, 6, ms);
    ReadsShortForm(b, m, s, ms);
  }

  /** "HH:SS.mmm" with a first field over 59: it must be hours, and no second ':' follows. */
  lemma HoursNeedSeconds(n: nat, s: nat, ms: nat)
    requires 59 < n <= 99 && s <= 99 && ms <= 999
    ensures TimestampOf(TwoDigits(n) + [COLON] + TwoDigits(s) + [PERIOD] + ThreeDigits(ms)) == Unparseable
  {
    var b := TwoDigits(n) + [COLON] + TwoDigits(s) + [PERIOD] + ThreeDigits(ms);
    assert b[0..2] == TwoDigits(n) && b[3..5] == TwoDigits(s);
    assert b[2] == COLON && b[5] == PERIOD;
    TwoDigitsAt(b, 0, n);
    TwoDigitsAt(b, 3, s);
  }

  /** "H:MM:SS.mmm": a one-digit hours field is accepted without complaint. */
  lemma OneDigitHours(h: nat, m: nat, s: nat, ms: nat)
    requires h <= 9 && m <= 59 && s <= 59 && ms <= 999
    ensures TimestampOf([DigitByte(h)] + [COLON] + TwoDigits(m) + [COLON] + TwoDigits(s) + [PERIOD] + ThreeDigits(ms))
      == TimestampResult(true, h * MsecsPerHour + m * MsecsPerMinute + s * MsecsPerSecond + ms)
  {
    var b := [DigitByte(h)] + [COLON] + TwoDigits(m) + [COLON] + TwoDigits(s) + [PERIOD] + ThreeDigits(ms);
    OneDigitHoursFields(h, m, s, ms);
    ReadsLongForm(b, 1, h, m, s, ms);
  }

  /** The four fields of "H:MM:SS.mmm" as `parse_int` reads them. */
  lemma OneDigitHoursFields(h: nat, m: nat, s: nat, ms: nat)
    requires h <= 9 && m <= 59 && s <= 59 && ms <= 999
    ensures var b := [DigitByte(h)] + [COLON] + TwoDigits(m) + [COLON] + TwoDigits(s) + [PERIOD] + ThreeDigits(ms);
      && IsDigit(At(b, 0)) && ScanInt(b, 0) == IntScan(h, 1, 1) && At(b, 1) == COLON
      && IsDigit(At(b, 2)) && ScanInt(b, 2) == IntScan(m, 2, 4) && At(b, 4) == COLON
      && IsDigit(At(b, 5)) && ScanInt(b, 5) == IntScan(s, 2, 7) && At(b, 7) == PERIOD
      && IsDigit(At(b, 8)) && ScanInt(b, 8) == IntScan(ms, 3, 11)
  {
    var b := [DigitByte(h)] + [COLON] + TwoDigits(m) + [COLON] + TwoDigits(s) + [PERIOD] + ThreeDigits(ms);
    assert b[0..1] == [DigitByte(h)] && b[2..4] == TwoDigits(m) && b[5..7] == TwoDigits(s);
    assert b[8..11] == ThreeDigits(ms);
    assert b[1] == COLON && b[4] == COLON && b[7] == PERIOD;
    assert DecimalValue([DigitByte(h)]) == h by {
      assert [DigitByte(h)][..0] == [];
    }
    ScanDigitsAt(b, 0, 1);
    TwoDigitsAt(b, 2, m);
    TwoDigitsAt(b, 5, s);
    ThreeDigitsAt(b, 8, ms);
  }

  /**
   * The three ways to the sentinel: a first byte that is not a digit; hours
   * inferred (first field not two digits, or over 59) but no ':' after the
   * second field; no '.' followed by a digit where the fraction is due.
   */
  lemma {:induction false} SentinelCases(b: seq<byte>)
    ensures !IsDigit(At(b, 0)) ==> TimestampOf(b) == Unparseable
    ensures IsDigit(At(b, 0)) && (ScanInt(b, 0).digits != 2 || ScanInt(b, 0).value > 59) ==>
      var p1 := ScanInt(b, 0).end;
      var p2 := if At(b, p1) == NUL then p1 else p1 + 1;
      At(b, ScanInt(b, p2).end) != COLON ==> TimestampOf(b) == Unparseable
    ensures forall p: nat, h: int, m: int, s: int, malformed: bool
      | p <= |b| && (At(b, p) != PERIOD || !IsDigit(At(b, p + 1)))
      :: WithFraction(b, p, h, m, s, malformed) == Unparseable
  {
  }

  /** A well-formed result never needed a carry: its sum is the fields' sum as read. */
  lemma {:induction false} OkMeansNoCarry(b: seq<byte>, p: nat, h: int, m: int, s: int, malformed: bool)
    requires p <= |b|
    requires WithFraction(b, p, h, m, s, malformed).ok
    ensures !malformed && m <= 59 && s <= 59
    ensures ScanInt(b, p + 1).digits == 3 && 0 <= ScanInt(b, p + 1).value <= 999
    ensures WithFraction(b, p, h, m, s, malformed).value
      == ToTimestamp(Weight(Fields(h, m, s, ScanInt(b, p + 1).value)))
  {
    var f3 := ScanInt(b, p + 1);
    assert At(b, p + 1) != DASH;
    assert Carry(Fields(h, m, s, f3.value)).1 == false;
  }
}
